=== FILE: README.md ===
# MLF protocol model

A Dafny model of the MLF ("MegaLeaf") wire protocol and the small integer
and string components around it. MLF is a byte-framed request/response
protocol. It links the LED strip controller firmware, the UART bridge
firmware and the host libraries. A frame is:

- a packed 7-byte header: a 4-byte magic, a command or status byte, and a
  2-byte little-endian payload length;
- the payload;
- an 8-byte footer: a CRC word, then the footer magic.

Two protocol generations coexist. One `Wire.Config` record covers their
differences:

- The USB controller (`STM32_CONFIG`) uses one magic in both directions and
  accepts request magic only. It writes a CRC into outbound footers. It
  tries a response up to 30 times.
- The UART bridge generation (`ESP_CONFIG`) has a separate response magic
  and accepts it inbound. It leaves the CRC field zero. It tries up to 6
  times and bounds outbound frames.

Modules follow the program's structure:

- `Bytes`: bytes and 16/32-bit little-endian words; the truncating copy into
  a caller's buffer.
- `Wire`: magics, command ids, status codes, header/footer codecs, payload
  structs, generation parameters.
- `Reassembler`: the firmware's byte-stream packet buffer (`packet_buffer_append`,
  header/footer validation).
- `Dispatcher`: the single-slot mailbox, table dispatch, response framing
  with busy-retry, and the bridge's outbound `MLF_SendCmd`.
- `MlfComm`: the bridge's command invoker (response slot, timeout, copy-out,
  getters and setters).
- `HostIo`, `HostLib`, `HostLibCrc`: the host libraries' read loop, framing
  and parsing, error texts, and commands. `HostLib` is the newer library
  and `HostLibCrc` the older one.
- `App`: the controller's command handlers and their registration.
- `Ws2812`: the SPI symbol encoding of the LED strips, the pixel layout,
  brightness and calibration.
- `AmbiLights`: the desktop client's bucket averaging of a captured screen
  row.
- `ArgsParsing`: the desktop client's command-line parser.
- `ColorEffect`: the bridge's effect name/id table and capability state.

The reassembler's overflow test is `size + len >= PACKET_BUFFER_MAX_SIZE`
(2063 bytes), so the limit itself is excluded. As a result, a frame with
the largest payload the header check accepts (2048 bytes) is never
completed. The model keeps this behaviour as the firmware has it:
`Reassembler.MaxPayloadHeaderAccepted` and
`Reassembler.MaxPayloadFrameNeverSubmitted` state both halves, and
`Reassembler.FramingRoundTrip` covers every shorter payload, whatever the
chunking and whenever the chunks arrive, as long as none finds the buffer
stale.

These become parameters of the model:

- The clock is a 32-bit tick value `now`. Elapsed time is computed with
  explicit wrap-around.
- The transport's `write` result is a function from attempt number to
  OK / BUSY / error.
- The host's serial device is a record of pending input bytes, the return
  value of each successive `read` call, and the bytes written.
- The CRC is an uninterpreted function argument.
- The RTOS wait for a response is an `arrival` value: the bytes that
  arrived, or a timeout.
- The cloud SDK handle is a boolean. The names sent to it are a log.

## Model

| member | source | states |
|---|---|---|
| Bytes.U16RoundTrip | STM32_Controller/App/Inc/mlf_protocol.h:47-52 | A 16-bit field written little-endian reads back as the same value |
| Bytes.U16BytesOfRead | STM32_Controller/App/Inc/mlf_protocol.h:47-52 | Re-encoding any two bytes read as a 16-bit field reproduces those bytes |
| Bytes.U32RoundTrip | STM32_Controller/App/Inc/mlf_protocol.h:61-64 | A 32-bit field written little-endian reads back as the same value |
| Bytes.U32BytesOfRead | STM32_Controller/App/Inc/mlf_protocol.h:61-64 | Re-encoding any four bytes read as a 32-bit field reproduces those bytes |
| Bytes.CopyOut | lib/MLFProtoLib.cpp:303-316 | The first min(capacity, received) bytes of the caller's buffer get the data. The rest keep their old contents. The size word reports the full received length |
| Wire.CommandOfId | STM32_Controller/App/Inc/mlf_protocol.h:19-31 | A byte is a command id exactly when it is below MLF_CMD_MAX = 7, and it decodes to the command carrying that id |
| Wire.CommandIdsBelowMax | STM32_Controller/App/Inc/mlf_protocol.h:19-31 | Every command's id is below MLF_CMD_MAX and decodes back to that command |
| Wire.StatusOfCode | STM32_Controller/App/Inc/mlf_protocol.h:33-45 | A decoded status carries the code it was decoded from |
| Wire.StatusCodes | STM32_Controller/App/Inc/mlf_protocol.h:33-45 | Every status decodes back from its code. Error statuses are exactly the codes 128..135; OK and PING are 0 and 1 |
| Wire.StatusCodeKnown | STM32_Controller/App/Inc/mlf_protocol.h:33-45 | A code names a status exactly when it is 0, 1 or in the contiguous error range 128..135 |
| Wire.HeaderRoundTrip | STM32_Controller/App/Inc/mlf_protocol.h:47-59 | Decoding an encoded 7-byte header (magic, selector, length) gives the header back |
| Wire.HeaderBytesRoundTrip | STM32_Controller/App/Inc/mlf_protocol.h:47-59 | Encoding the header decoded from any 7 bytes gives those 7 bytes back |
| Wire.FooterRoundTrip | STM32_Controller/App/Inc/mlf_protocol.h:61-64 | An 8-byte footer (CRC, then magic) embedded anywhere in a stream decodes back from its offset |
| Wire.SerializeFrame | STM32_Controller/App/Inc/mlf_protocol.h:47-64 | A frame is 7 + payload + 8 bytes long |
| Wire.SerializeFrameParts | STM32_Controller/App/Inc/mlf_protocol.h:47-64 | A serialized frame decodes to its header (magic, selector, payload length), its payload at offset 7, and the footer (CRC, footer magic 0x7364656C) after the payload |
| Wire.FooterCrc | STM32_Controller/App/Src/mlf_protocol.c:151-161 | Outbound footers carry the CRC of header and payload in the CRC generation and zero otherwise |
| Wire.StripBits | STM32_Controller/App/Inc/mlf_protocol.h:101-104 | STRIP_TOP selects only the top strip, STRIP_BOTTOM only the bottom one, and 0b11 both |
| Wire.GetInfoRoundTrip | STM32_Controller/App/Inc/mlf_protocol.h:70-74 | The packed 5-byte get_info response (version, top count, bottom count) decodes back to its fields |
| Wire.SetBrightnessRoundTrip | STM32_Controller/App/Inc/mlf_protocol.h:81-84 | The packed 2-byte set_brightness request decodes back to its fields |
| Wire.SetEffectRoundTrip | STM32_Controller/App/Inc/mlf_protocol.h:106-111 | The packed 7-byte set_effect request decodes back to its fields |
| Wire.EncodeColorsAt | STM32_Controller/App/Inc/mlf_protocol.h:91-94 | Colour i of an encoded colour list is the 32-bit word at byte offset 4i |
| Wire.SetColorRoundTrip | STM32_Controller/App/Inc/mlf_protocol.h:91-94 | A set_color request starts with its strip byte and colour i reads back from offset 1 + 4i |
| Wire.GetEffectRoundTrip | mcu_esperif/main/comm/mlf_comm.c:257-272 | The 6-byte get_effect response (effect, speed, colour) decodes back to its fields |
| Reassembler.ValidateHeader | mcu_esperif/main/comm/mlf_protocol.c:246-272 | A header is accepted exactly when all of these hold: its magic is the request magic, or the response magic where accepted; a request's command is below the bound; the length is at most 2048. The checks run in the source's order, so each failure has one code: a request magic with a command at or above the bound gives INVALID_CMD; a magic that is neither accepted magic gives INVALID_HEADER, whatever the length; DATA_TOO_LARGE is given only when the magic and command pass and the length exceeds 2048 |
| Reassembler.ValidateFooter | STM32_Controller/App/Src/mlf_protocol.c:241-264 | Only the footer magic at the declared offset decides; a CRC mismatch never rejects. Rejection is INVALID_FOOTER |
| Reassembler.Append | mcu_esperif/main/comm/mlf_protocol.c:100-152 | A zero-length chunk changes nothing and returns 0. A stale buffer is emptied first. Overflow (size + len >= 2063) clears the buffer and raises DATA_TOO_LARGE with -1. The chunk that first brings an unvalidated buffer to 7 bytes, with a header that validation rejects, clears the buffer and replies with exactly the code validation gives, returning -1. Once the buffer reaches its declared length with an accepted header, a right footer magic submits the accumulated bytes and a wrong one clears the buffer and replies INVALID_FOOTER with -1. A non-completing chunk is appended and timestamped |
| Reassembler.EmptyInv | mcu_esperif/main/comm/mlf_protocol.c:71-76 | The cleared buffer satisfies the reassembler invariant |
| Reassembler.AppendPreservesInv | mcu_esperif/main/comm/mlf_protocol.c:112-148 | Append keeps the invariant: fewer than 2063 bytes, and the header is validated exactly when 7 bytes are present. Every submitted frame is complete: valid header, declared length reached, footer magic right |
| Reassembler.StaleBufferDiscarded | mcu_esperif/main/comm/mlf_protocol.c:96-110 | If the last chunk came 1000 or more ticks ago (with wrap-around), a chunk is handled exactly as if the buffer were empty |
| Reassembler.HeaderValidatedOnce | mcu_esperif/main/comm/mlf_protocol.c:124-132 | Once the header has been validated, later chunks of the same frame never draw INVALID_HEADER or INVALID_CMD |
| Reassembler.MaxPayloadHeaderAccepted | mcu_esperif/main/comm/mlf_protocol.c:246-272 | A header declaring the maximum payload of 2048 bytes passes validation |
| Reassembler.MaxPayloadFrameNeverSubmitted | mcu_esperif/main/comm/mlf_protocol.c:112-117 | Because the overflow test is `>=`, a frame with a 2048-byte payload is never submitted |
| Reassembler.SameTickOnTime | mcu_esperif/main/comm/mlf_protocol.c:96-110 | Chunks that all arrive at one tick never find the buffer stale, from an untimed buffer or one stamped at that tick |
| Reassembler.FeedEmptyChunks | mcu_esperif/main/comm/mlf_protocol.c:104-105 | Feeding only empty chunks, at any ticks, leaves the buffer as it was and raises no event |
| Reassembler.AppendFrameMiddle | mcu_esperif/main/comm/mlf_protocol.c:119-150 | A chunk that arrives before the buffer goes stale and extends a valid partial frame without finishing it just extends the buffer, timestamped with its tick |
| Reassembler.AppendFrameEnd | mcu_esperif/main/comm/mlf_protocol.c:134-148 | The chunk that completes a valid frame, arriving before the buffer goes stale, submits exactly that frame and clears the buffer |
| Reassembler.AppendCompletes | mcu_esperif/main/comm/mlf_protocol.c:134-148 | Completion is decided by the declared length: a chunk ending a valid frame submits it |
| Reassembler.FeedQuietStep | mcu_esperif/main/comm/mlf_protocol.c:100-152 | A quiet append hands the rest of the stream to the updated buffer |
| Reassembler.FeedSubmitStep | mcu_esperif/main/comm/mlf_protocol.c:134-148 | A submitting append followed only by empty chunks yields exactly that frame |
| Reassembler.PrefixStep | mcu_esperif/main/comm/mlf_protocol.c:100-152 | Each chunk of a valid frame either completes it or leaves a longer prefix held, with a timestamp that keeps the remaining chunks on time |
| Reassembler.FeedFromPrefix | mcu_esperif/main/comm/mlf_protocol.c:100-152 | From any held prefix of a valid frame, the rest of the frame, however chunked and at whatever ticks keep each non-empty chunk within 1000 ticks of the previous one, submits it once |
| Reassembler.FeedStaleStart | mcu_esperif/main/comm/mlf_protocol.c:107-110 | A stream whose first non-empty chunk finds the buffer stale is reassembled as from an empty buffer |
| Reassembler.FramingRoundTrip | mcu_esperif/main/comm/mlf_protocol.c:100-152 | A serialized frame with an acceptable header and a payload under 2048 bytes is submitted exactly once, unchanged. This holds for any chunking and any arrival ticks in which each non-empty chunk comes less than 1000 ticks (modulo 2^32) after the previous one, starting from an empty buffer or one the first bytes find stale |
| Dispatcher.RetryFrom | STM32_Controller/App/Src/mlf_protocol.c:200-214 | The busy-retry loop stops at the first OK (Sent) or non-BUSY error (Failed). It gives up only after the whole budget saw BUSY |
| Dispatcher.WriteWithRetry | mcu_esperif/main/comm/mlf_protocol.c:221-243 | Attempts are within the budget and all but the last were BUSY. The outcome is Sent exactly when the last attempt was OK, Failed exactly when it was an error, and gave-up exactly when every attempt was BUSY, after the whole budget. The loop's attempts and outcome equal those of the recursive definition `RetryFrom` |
| Dispatcher.RetryGivesUpIffAllBusy | mcu_esperif/main/comm/mlf_protocol.c:221-243 | The retries give up exactly when every attempt of the budget returned BUSY; one non-BUSY return ends them |
| Dispatcher.ResponseFrame | STM32_Controller/App/Src/mlf_protocol.c:175-198 | A response carries the generation's response magic, the status, the payload, and a footer with the generation's CRC field |
| Dispatcher.RespError | mcu_esperif/main/comm/mlf_protocol.c:173-195 | An error reply is an empty response with the error code, written exactly once. It is sent exactly when that write is OK |
| Dispatcher.RespData | mcu_esperif/main/comm/mlf_protocol.c:200-244 | A data response is dropped exactly when it exceeds MAX_OUTPUT_SIZE; otherwise its attempts and outcome are those of the busy-retry loop `RetryFrom` over the budget: retry on BUSY, stop on OK, abandon on any other error |
| Dispatcher.SendCmd | mcu_esperif/main/comm/mlf_protocol.c:345-388 | A bridge command is a request-magic frame with a zero CRC. It is dropped exactly when oversized; otherwise its attempts and outcome are those of the busy-retry loop `RetryFrom` over the budget |
| Dispatcher.Init | mcu_esperif/main/comm/mlf_protocol.c:160-171 | A new context has an empty mailbox and no handlers |
| Dispatcher.Register | mcu_esperif/main/comm/mlf_protocol.c:341-343 | Registration installs the handler for its slot and changes nothing else |
| Dispatcher.RegisterKeeps | STM32_Controller/App/Src/mlf_protocol.c:307-309 | Registering one slot leaves every other slot's handler alone |
| Dispatcher.LastRegistrationWins | STM32_Controller/App/Src/mlf_protocol.c:307-309 | A second registration for a slot replaces the first |
| Dispatcher.Submit | STM32_Controller/App/Src/mlf_protocol.c:266-280 | Submit does nothing without a receive buffer or while a frame is pending; otherwise the frame becomes the pending one |
| Dispatcher.Payload | mcu_esperif/main/comm/mlf_protocol.c:306-339 | A handler sees as many payload bytes as the header declares |
| Dispatcher.Process | mcu_esperif/main/comm/mlf_protocol.c:306-339 | Nothing happens when nothing is pending. Otherwise the pending flag is cleared. A response-magic frame gets no reply; a request always does |
| Dispatcher.UnregisteredCommandNotReady | STM32_Controller/App/Src/mlf_protocol.c:286-305 | A request without a registered handler is answered with an empty NOT_READY error reply and leaves the application state alone |
| Dispatcher.RegisteredCommandAnswered | mcu_esperif/main/comm/mlf_protocol.c:320-338 | A registered handler receives the frame's payload. Its new state is kept, and its status and response bytes are what is sent back |
| Dispatcher.MailboxKeepsFirst | mcu_esperif/main/comm/mlf_protocol.c:290-300 | A second frame submitted before processing is dropped; processing then sees the first frame |
| Dispatcher.Receive | mcu_esperif/main/comm/mlf_protocol.c:100-152 | A chunk updates the packet buffer as Append does. An error reply goes out exactly when Append rejects. Handlers and configuration are untouched |
| Dispatcher.ReceivePreservesInv | mcu_esperif/main/comm/mlf_protocol.c:290-300 | Receiving keeps both the buffer invariant and the mailbox invariant (only complete frames wait) |
| Dispatcher.ErrorReplyShape | mcu_esperif/main/comm/mlf_protocol.c:173-195 | An error reply carries the rejection's code, the response magic and no payload, in a single write |
| MlfComm.ResponseHandler | mcu_esperif/main/comm/mlf_comm.c:85-104 | While a response is unconsumed the handler answers NOT_READY and stores nothing. Otherwise it stores the payload and its size, and a zero-length payload leaves the buffer null |
| MlfComm.StoredResponseReadBack | mcu_esperif/main/comm/mlf_comm.c:90-103 | Whatever response is stored reads back unchanged with its size |
| MlfComm.EmptyResponseDoesNotLockSlot | mcu_esperif/main/comm/mlf_comm.c:85-103 | After a zero-length response the slot still accepts the next response |
| MlfComm.SendCmd | mcu_esperif/main/comm/mlf_comm.c:159-188 | The request frame is sent after emptying the slot. A timeout returns -1 and leaves the caller's buffer and size untouched. An arrival returns 0, copies min(capacity, size) bytes, reports the full size, and empties the slot |
| MlfComm.TruncationDetectable | mcu_esperif/main/comm/mlf_comm.c:173-181 | The size word exceeds the capacity exactly when the copy was truncated |
| MlfComm.ScaleBrightness | mcu_esperif/main/comm/mlf_comm.c:252-253 | Brightness 0..255 scales to the truncated percentage in 0..100, with 0 and 255 exact |
| MlfComm.ScaleBrightnessMonotone | mcu_esperif/main/comm/mlf_comm.c:252-253 | The scaling never reverses the order of two brightness values |
| MlfComm.GetBrightness | mcu_esperif/main/comm/mlf_comm.c:238-255 | A response shorter than one byte gives INVALID_HEADER; otherwise the result is its first byte scaled, at most 100 |
| MlfComm.GetBrightnessTimeoutReadsStale | mcu_esperif/main/comm/mlf_comm.c:240-253 | On a timeout the getter still returns 0, with the uninitialised local scaled, because the send's -1 is ignored |
| MlfComm.GetEffect | mcu_esperif/main/comm/mlf_comm.c:257-272 | A response shorter than 6 bytes gives INVALID_HEADER; otherwise the decoded effect is returned |
| MlfComm.GetEffectRoundTrip | mcu_esperif/main/comm/mlf_comm.c:257-272 | A controller's encoded effect reply is returned exactly, with status 0 |
| MlfComm.GetOnState | mcu_esperif/main/comm/mlf_comm.c:274-288 | A short response gives INVALID_HEADER; otherwise the state is normalised to 0 or 1. A timeout returns 0 with the uninitialised byte normalised, because the send's -1 is ignored and the size word keeps the capacity |
| MlfComm.SetBrightness | mcu_esperif/main/comm/mlf_comm.c:197-207 | The request is a SET_BRIGHTNESS frame for both strips; no response is copied. The setter returns 0 whether or not a response arrives; an arrival leaves the response slot empty, a timeout leaves no buffer in it |
| MlfComm.SetBrightnessRequestDecodes | mcu_esperif/main/comm/mlf_comm.c:197-207 | The request decodes to the argument's low byte and strip mask 0b11 |
| MlfComm.SetEffect | mcu_esperif/main/comm/mlf_comm.c:209-221 | The request is a SET_EFFECT frame carrying the arguments; no response is copied. The setter returns 0 whether or not a response arrives; an arrival leaves the response slot empty, a timeout leaves no buffer in it |
| MlfComm.SetEffectRequestDecodes | mcu_esperif/main/comm/mlf_comm.c:209-221 | The request decodes back to exactly the given effect, speed, strip and colour |
| MlfComm.TurnOff | mcu_esperif/main/comm/mlf_comm.c:223-228 | TURN_OFF is an empty request frame. The setter returns 0 whether or not a response arrives; an arrival leaves the response slot empty, a timeout leaves no buffer in it |
| MlfComm.TurnOn | mcu_esperif/main/comm/mlf_comm.c:230-235 | TURN_ON is an empty request frame. The setter returns 0 whether or not a response arrives; an arrival leaves the response slot empty, a timeout leaves no buffer in it |
| HostIo.Delivered | lib/MLFProtoLib.cpp:204-217 | One read call delivers no more than wanted, available or returned, and something whenever all three are positive |
| HostIo.ReadExact | lib/MLFProtoLib.cpp:204-217 | The read loop either takes exactly the first len input bytes or throws the read-error text, or the timeout text when a zero read counts as timeout |
| HostIo.JoinRead | lib/MLFProtoLib.cpp:206-215 | A partial read followed by a completed read of the rest is a completed read of the whole |
| HostIo.ReadCompletes | lib/MLFProtoLib.cpp:204-217 | On a device that holds the bytes and keeps answering, the loop completes whatever the chunking |
| HostIo.ReadStep | lib/MLFProtoLib.cpp:206-215 | One positive read call consumes the delivered bytes and continues with the rest |
| HostIo.ResponsiveAfterRead | lib/MLFProtoLib.cpp:204-217 | After a completed read the device still answers for the bytes that remain |
| HostIo.WriteAll | lib/MLFProtoLib.cpp:219-229 | The whole packet reaches the device and the input is untouched |
| HostIo.RecvBody | lib/MLFProtoLib.cpp:294-300 | Exactly data_size payload bytes, then the footer, are read; a wrong footer magic throws |
| HostIo.RecvFrame | lib/MLFProtoLib.cpp:282-301 | A received frame was a whole frame with the expected magic at the front of the input; failures are read errors or bad magic |
| HostIo.RecvAfterHeader | lib/MLFProtoLib.cpp:288-300 | After the header bytes, a wrong magic throws and otherwise the body read completes the frame |
| HostIo.FrameFromParts | lib/MLFProtoLib.cpp:286-300 | A header read and a body read of consecutive slices make one received frame |
| HostIo.HeaderThenBody | lib/MLFProtoLib.cpp:286-300 | A header with the magic followed by an accepted body is a frame at the front of the input |
| HostIo.RecvFrameSucceeds | lib/MLFProtoLib.cpp:282-301 | A well-formed frame on a responsive device is received |
| HostIo.RecvBodySucceeds | lib/MLFProtoLib.cpp:294-300 | A body with the right footer magic on a responsive device is received |
| HostIo.FrameAtFront | lib/MLFProtoLib.cpp:286-300 | A serialized frame at the front of the input decodes to its header, payload and footer |
| HostIo.RecvFrameRoundTrip | lib/MLFProtoLib.cpp:282-301 | A serialized frame on a responsive device is received with exactly its header and payload, for any CRC field |
| HostLib.Read | lib/MLFProtoLib.cpp:193-217 | A completed read returns the first len input bytes. A read call returning a negative value throws the read-failed text followed by the strerror text of errno in brackets; one returning zero throws the timeout text |
| HostLib.SendData | lib/MLFProtoLib.cpp:246-265 | A request has the request magic, the command and length narrowed to their fields, the data, and a footer with zero CRC. Its length is header + data + footer |
| HostLib.SendDataIsFrame | lib/MLFProtoLib.cpp:246-265 | For data that fits the length field the request is exactly the serialized frame |
| HostLib.SetBrightnessRequestDecodes | lib/MLFProtoLib.cpp:423-430 | What setBrightness writes decodes to the argument modulo 256, with strip mask 0b11 |
| HostLib.RecvData | lib/MLFProtoLib.cpp:282-317 | A response needs the response magic and a right footer magic. Then min(capacity, data_size) bytes are copied, the size word is data_size, and the status is the header's code |
| HostLib.RecvDataRoundTrip | lib/MLFProtoLib.cpp:282-317 | A serialized response on a responsive device yields its status and its payload copied out |
| HostLib.RequestMagicRefused | lib/MLFProtoLib.cpp:288-290 | An input starting with the request magic is never accepted as a response |
| HostLib.ErrorText | lib/MLFProtoLib.cpp:337-356 | Each known error code maps to its fixed text and every other code to "unknown error" |
| HostLib.ErrorToException | lib/MLFProtoLib.cpp:337-356 | The error conversion always throws, with the message followed by the code's text |
| HostLib.UnlistedCodesUnknown | lib/MLFProtoLib.cpp:337-356 | CRC_FAIL and PING have no text of their own |
| HostLib.InvokeCmd | lib/MLFProtoLib.cpp:319-335 | The request is written and the response read. A non-OK status throws with its text. Read failures pass through |
| HostLib.NonOkStatusThrows | lib/MLFProtoLib.cpp:319-335 | Whatever command is sent, a controller reporting a non-OK status makes it throw with that status's text |
| HostLib.Connect | lib/MLFProtoLib.cpp:371-384 | The constructor throws unless the GET_INFO response is exactly 5 bytes |
| HostLib.ConnectRoundTrip | lib/MLFProtoLib.cpp:371-384 | A controller answering GET_INFO with OK and a get_info payload is read back exactly |
| HostLib.IsTurnedOn | lib/MLFProtoLib.cpp:413-421 | A short response throws; otherwise the state is normalised to 0 or 1 |
| HostLib.GetBrightness | lib/MLFProtoLib.cpp:461-470 | A short response throws; otherwise the raw brightness byte is returned |
| HostLib.GetEffect | lib/MLFProtoLib.cpp:472-486 | A short response throws; otherwise the decoded effect, speed and colour are returned |
| HostLib.SetBrightness | lib/MLFProtoLib.cpp:423-430 | A completed call wrote a SET_BRIGHTNESS request for both strips |
| HostLib.SetEffect | lib/MLFProtoLib.cpp:450-459 | A completed call wrote a SET_EFFECT request with each argument narrowed to its field |
| HostLib.SetColors | lib/MLFProtoLib.cpp:432-448 | A completed call wrote a SET_COLOR request: the strip byte, then each colour as a 32-bit word |
| HostLib.TurnOn | lib/MLFProtoLib.cpp:405-407 | A completed call wrote an empty TURN_ON request |
| HostLib.TurnOff | lib/MLFProtoLib.cpp:409-411 | A completed call wrote an empty TURN_OFF request |
| HostLibCrc.Read | MLF_Proto_Lib/MLFProtoLib.cpp:88-99 | A completed read returns the first len input bytes. The only failure text is the library's read error |
| HostLibCrc.ZeroReadsAreRetried | MLF_Proto_Lib/MLFProtoLib.cpp:88-99 | A zero-byte read does not end the loop; a later read completes it |
| HostLibCrc.SendData | MLF_Proto_Lib/MLFProtoLib.cpp:137-158 | The request's footer carries the CRC of its header and body |
| HostLibCrc.RecvData | MLF_Proto_Lib/MLFProtoLib.cpp:175-215 | Responses must carry the request magic and a right footer magic. Then the copy is min(capacity, data_size), the size is data_size, and the status is returned |
| HostLibCrc.CrcMismatchIgnored | MLF_Proto_Lib/MLFProtoLib.cpp:196-202 | A frame whose CRC field is wrong is still received with its status and payload |
| HostLibCrc.InvokeCmd | MLF_Proto_Lib/MLFProtoLib.cpp:217-220 | The status comes back unexamined |
| HostLibCrc.TurnOff | MLF_Proto_Lib/MLFProtoLib.cpp:243-245 | A completed call wrote an empty TURN_OFF request; failures are the receive texts |
| HostLibCrc.SetBrightness | MLF_Proto_Lib/MLFProtoLib.cpp:247-257 | The call sends brightness 50 for both strips and throws on a non-OK status |
| HostLibCrc.SetBrightnessIgnoresArgument | MLF_Proto_Lib/MLFProtoLib.cpp:247-257 | Whatever brightness is asked for, the call behaves the same |
| HostLibCrc.SetEffect | MLF_Proto_Lib/MLFProtoLib.cpp:259-271 | The call sends the narrowed arguments and throws on a non-OK status |
| App.GetInfo | STM32_Controller/App/Src/app.c:41-51 | GET_INFO answers OK with a 5-byte payload: firmware version 1 and the upper and bottom strip lengths |
| App.TurnOff | STM32_Controller/App/Src/app.c:53-56 | TURN_OFF only sets the mode to off and answers OK |
| App.SetBrightness | STM32_Controller/App/Src/app.c:58-71 | A payload under 2 bytes is INVALID_DATA with no change. Otherwise exactly the masked strips take the brightness |
| App.SetBrightnessRequestApplies | STM32_Controller/App/Src/app.c:58-71 | An encoded request sets the brightness of exactly the strips its mask selects |
| App.SetEffect | STM32_Controller/App/Src/app.c:73-95 | A short payload or an effect >= 3 is INVALID_DATA with no change. Otherwise the speed is the request's plus one, masked strips take effect and colour, and the mode is SHOW_EFFECT |
| App.SetEffectRequestApplies | STM32_Controller/App/Src/app.c:73-95 | An encoded request is accepted exactly for a known effect, and then applied |
| App.PaintFrom | STM32_Controller/App/Src/app.c:106-118 | The colour loop changes only the strips' buffers |
| App.PaintStrip | STM32_Controller/App/Src/app.c:106-118 | Painting a strip changes only its buffer |
| App.PaintFromSplit | STM32_Controller/App/Src/app.c:106-118 | The colour loop is the bottom strip painted from colour 0, then the upper strip from colour bottom-length |
| App.PaintStripShows | STM32_Controller/App/Src/app.c:106-118 | A diode the loop reaches shows its colour, corrected |
| App.PaintStripShowsAll | STM32_Controller/App/Src/app.c:106-118 | Every diode the colours reach shows its corrected colour |
| App.PaintStripKeepsAll | STM32_Controller/App/Src/app.c:106-118 | Bytes past the painted diodes keep their values |
| App.PaintShowsBottom | STM32_Controller/App/Src/app.c:106-112 | Colour p shows on bottom diode p |
| App.PaintShowsUpper | STM32_Controller/App/Src/app.c:106-116 | Colour bottom-length + q shows on upper diode q |
| App.PaintKeeps | STM32_Controller/App/Src/app.c:106-118 | Bytes past the colours' reach keep their values on both strips |
| App.PayloadColors | STM32_Controller/App/Src/app.c:97-105 | The payload after the strip byte gives (len - 1) / 4 colours, each an unpacked 32-bit word |
| App.SetColor | STM32_Controller/App/Src/app.c:97-120 | An empty payload is INVALID_DATA with no change. Otherwise only the LED buffers change and the mode is SHOW_COLORS |
| App.SetColorShowsBottom | STM32_Controller/App/Src/app.c:97-120 | Colour p of the payload shows, corrected, on bottom diode p |
| App.SetColorShowsUpper | STM32_Controller/App/Src/app.c:97-120 | Colour bottom-length + q shows, corrected, on upper diode q |
| App.SetColorKeeps | STM32_Controller/App/Src/app.c:97-120 | Colours beyond both strips are ignored: the bytes they would reach keep their values |
| App.SetColorRequestPlaces | STM32_Controller/App/Src/app.c:97-120 | Colour i of an encoded request lands on bottom diode i or, past the bottom strip, on upper diode i - bottom-length |
| App.AppCommandIds | STM32_Controller/App/Src/app.c:138-142 | The handled commands have ids 0, 1, 4, 5 and 6 |
| App.RegisterHandlers | STM32_Controller/App/Src/app.c:138-142 | Exactly GET_INFO, TURN_OFF, SET_EFFECT, SET_BRIGHTNESS and SET_COLOR get handlers |
| App.HandlersInstalled | STM32_Controller/App/Src/app.c:138-142 | Each of those command ids dispatches to its own handler |
| App.AppInit | STM32_Controller/App/Src/app.c:125-143 | The strips come up black at full brightness, with 216 bottom and 90 upper diodes. The mode is off, the speed 1, the mailbox empty, and only the application's commands have handlers |
| Ws2812.EncodeBitsBound | STM32_Controller/App/Src/ws2812b.c:38-52 | n encoded bits fit in 3n bits |
| Ws2812.EncodeBitsSymbol | STM32_Controller/App/Src/ws2812b.c:38-52 | Symbol k of the encoding is the symbol of input bit n-1-k |
| Ws2812.Encoding | STM32_Controller/App/Src/ws2812b.c:38-52 | An encoded byte is below 2^24 |
| Ws2812.DecodeFromBit | STM32_Controller/App/Src/ws2812b.c:20-21 | A decoded bit is set exactly when its symbol is 0b011 |
| Ws2812.BitsDetermine | STM32_Controller/App/Src/ws2812b.c:38-52 | Two values with the same n low bits are equal |
| Ws2812.EncodingSymbols | STM32_Controller/App/Src/ws2812b.c:38-52 | The most significant symbol encodes bit 0 and the least significant one bit 7. Each symbol is 0b011 for a 1 bit and 0b001 for a 0 bit |
| Ws2812.EncodingRoundTrip | STM32_Controller/App/Src/ws2812b.c:38-52 | Decoding the symbols of an encoded byte gives the byte back |
| Ws2812.EncodeByte | STM32_Controller/App/Src/ws2812b.c:38-52 | The shift loop yields the symbol encoding: below 2^24, symbol k for bit 7-k, decodable back to the byte |
| Ws2812.EncodingExtremes | STM32_Controller/App/Src/ws2812b.c:38-52 | 0x00 encodes as 0x249249 and 0xFF as 0x6DB6DB |
| Ws2812.PixelBytes | STM32_Controller/App/Src/ws2812b.c:117-122 | A pixel takes 9 bytes |
| Ws2812.PixelBytesShows | STM32_Controller/App/Src/ws2812b.c:117-122 | The 9 bytes decode back to the colour: G, then R, then B, each in the low 3 bytes little-endian |
| Ws2812.Dim | STM32_Controller/App/Src/ws2812b.c:100-102 | Brightness scaling never exceeds the channel, is the identity at 255 and zero at 0 |
| Ws2812.DimMonotone | STM32_Controller/App/Src/ws2812b.c:100-102 | A higher brightness never gives a dimmer channel |
| Ws2812.ApplyRatio | STM32_Controller/App/Src/ws2812b.c:105-115 | A ratio of at most one never brightens a channel, and a ratio of one keeps it |
| Ws2812.RatioAtMost | STM32_Controller/App/Src/ws2812b.c:105-115 | A channel scaled by a ratio of at most one stays within the channel, and stays exact at one |
| Ws2812.Corrected | STM32_Controller/App/Src/ws2812b.c:100-115 | Without calibration a colour is only dimmed, and unchanged at brightness 255 |
| Ws2812.WritePixel | STM32_Controller/App/Src/ws2812b.c:117-122 | Writing a pixel keeps the buffer length |
| Ws2812.WritePixelKeeps | STM32_Controller/App/Src/ws2812b.c:117-122 | Writing a pixel changes no byte outside its 9 bytes at offset 9 idx |
| Ws2812.WritePixelShows | STM32_Controller/App/Src/ws2812b.c:117-122 | The written pixel decodes back to its colour |
| Ws2812.SetLedColor | STM32_Controller/App/Src/ws2812b.c:89-123 | An index out of range changes nothing; otherwise only the buffer changes |
| Ws2812.SetLedColorShows | STM32_Controller/App/Src/ws2812b.c:89-123 | The diode shows its colour dimmed and ratio-corrected |
| Ws2812.UnsignedIndex | STM32_Controller/App/Src/ws2812b.c:93-97 | The unsigned index comparison accepts exactly the indices 0 <= idx < len |
| Ws2812.SetLedColorKeeps | STM32_Controller/App/Src/ws2812b.c:117-122 | No byte outside the diode's 9 bytes changes |
| Ws2812.SetLedColorOthers | STM32_Controller/App/Src/ws2812b.c:117-122 | Every other diode shows what it showed before |
| Ws2812.Calibrate | STM32_Controller/App/Src/ws2812b.c:145-158 | Index 0 sets the first ratio and ratio index 0xFFFF; any other index sets the second ratio from that diode on. Both turn ratios on, and nothing else changes |
| Ws2812.PackColor | win_ambilight/AmbiLights.cpp:96 | A packed colour is below 2^24 |
| Ws2812.Int2ColorOfPack | STM32_Controller/App/Src/ws2812b.c:160-167 | Unpacking a packed colour (red bits 0-7, green 8-15, blue 16-23) gives it back |
| Ws2812.PackOfInt2Color | STM32_Controller/App/Src/ws2812b.c:160-167 | Packing an unpacked 24-bit value gives it back |
| Ws2812.ZeroGroupIsEncodedZero | STM32_Controller/App/Src/ws2812b.c:54-59 | The group clear_buffer repeats is the encoding of 0 |
| Ws2812.ClearBuffer | STM32_Controller/App/Src/ws2812b.c:54-59 | Every 3-byte group of the cleared area holds the encoding of 0, and the rest of the buffer is unchanged |
| Ws2812.ClearedPixelsBlack | STM32_Controller/App/Src/ws2812b.c:54-59 | A cleared diode shows black |
| Ws2812.ClearLeds | STM32_Controller/App/Src/ws2812b.c:137-139 | Every diode shows black and the reset tail is unchanged |
| Ws2812.InitLedStrip | STM32_Controller/App/Src/ws2812b.c:64-83 | A new strip has leds × 9 + 125 buffer bytes, full brightness and calibration switched off; its ratios and ratio index are whatever the allocation held. Every diode is black and the reset tail is zero |
| AmbiLights.PixelColor | win_ambilight/AmbiLights.cpp:76-78 | A captured pixel's channels are its bytes 0, 1 and 2 |
| AmbiLights.SumR | win_ambilight/AmbiLights.cpp:72-82 | A bucket's red sum is at most 255 per pixel |
| AmbiLights.SumG | win_ambilight/AmbiLights.cpp:72-82 | A bucket's green sum is at most 255 per pixel |
| AmbiLights.SumB | win_ambilight/AmbiLights.cpp:72-82 | A bucket's blue sum is at most 255 per pixel |
| AmbiLights.AverageIsFloorMean | win_ambilight/AmbiLights.cpp:84-86 | Each channel of a bucket's colour is the floor of that channel's mean |
| AmbiLights.FloorDiv | win_ambilight/AmbiLights.cpp:84-86 | The integer quotient of such a sum is a floor mean within a byte |
| AmbiLights.Damp | win_ambilight/AmbiLights.cpp:88-94 | Dark greys (all channels below 0x70 and pairwise within 0x10) are divided by three; every other colour passes unchanged |
| AmbiLights.BucketValue | win_ambilight/AmbiLights.cpp:96 | A bucket's packed colour is below 2^24 |
| AmbiLights.BucketValueDecodes | win_ambilight/AmbiLights.cpp:84-96 | The controller unpacks a bucket's value to the damped average |
| AmbiLights.Walk | win_ambilight/AmbiLights.cpp:71-99 | The walk yields one colour per bucket start visited |
| AmbiLights.CountFits | win_ambilight/AmbiLights.cpp:71-83 | The visited buckets fit between `from` and the walk's top end |
| AmbiLights.WalkAt | win_ambilight/AmbiLights.cpp:71-83 | The k-th colour is the bucket starting k bucket sizes below the first, never below `from` |
| AmbiLights.BucketSize | win_ambilight/AmbiLights.cpp:63-66 | The bucket size is positive |
| AmbiLights.BucketSizeCovers | win_ambilight/AmbiLights.cpp:63-66 | ledsCount buckets of that size cover the whole range |
| AmbiLights.BucketCount | win_ambilight/AmbiLights.cpp:71-83 | Fewer buckets than LEDs are visited |
| AmbiLights.ColorCorrections | win_ambilight/AmbiLights.cpp:63-106 | Exactly ledsCount colours come out |
| AmbiLights.PadWithLast | win_ambilight/AmbiLights.cpp:97-105 | Padding keeps the computed colours and repeats the last one, or 0 when there is none, up to the count |
| AmbiLights.ColorCorrectionsBucket | win_ambilight/AmbiLights.cpp:71-96 | Colour k is the damped average of the bucket starting (k + 1) bucket sizes below `to`, and that bucket lies in [from, to) |
| AmbiLights.ColorCorrectionsPadding | win_ambilight/AmbiLights.cpp:97-105 | Every colour after the buckets repeats the last bucket's colour, or is 0 |
| AmbiLights.ColorCorrectionsDecode | win_ambilight/AmbiLights.cpp:84-96 | Every bucket colour reads back on the controller as a damped bucket average |
| AmbiLights.BucketLocal | win_ambilight/AmbiLights.cpp:84-96 | A bucket's colour depends only on its own pixels |
| AmbiLights.SumsLocal | win_ambilight/AmbiLights.cpp:72-82 | A bucket's sums depend only on its own pixels |
| AmbiLights.ColorCorrectionsLocal | win_ambilight/AmbiLights.cpp:71-83 | The colours for a range depend only on the pixels in that range |
| AmbiLights.BucketsAgree | win_ambilight/AmbiLights.cpp:71-83 | Screens agreeing on a range agree on each of its bucket colours |
| AmbiLights.RunFrame | win_ambilight/AmbiLights.cpp:117-121 | A frame has bottomLeds + topLeds colours |
| AmbiLights.RunFrameParts | win_ambilight/AmbiLights.cpp:117-121 | The frame is the bottom strip's colours from the second half of the row, then the top strip's from the first half |
| AmbiLights.RunFrameBottomHalf | win_ambilight/AmbiLights.cpp:117-121 | The bottom strip's colours depend only on the second half of the row |
| AmbiLights.RunFrameTopHalf | win_ambilight/AmbiLights.cpp:117-121 | The top strip's colours depend only on the first half of the row |
| ArgsParsing.AddIntParam | win_ambilight/ArgsParsing.cpp:11-18 | Registering an int option appends it and seeds its result with the initial value; other results are kept |
| ArgsParsing.AddBoolParam | win_ambilight/ArgsParsing.cpp:20-27 | Registering a flag appends it and seeds its result with false |
| ArgsParsing.SkipSpace | win_ambilight/ArgsParsing.cpp:41 | Leading white space is dropped from the value text |
| ArgsParsing.AtoiOfValueText | win_ambilight/ArgsParsing.cpp:41 | The value conversion reads back every number from its decimal text |
| ArgsParsing.FindShort | win_ambilight/ArgsParsing.cpp:79-93 | Lookup by short name finds the first registered match or reports that none exists |
| ArgsParsing.FindLong | win_ambilight/ArgsParsing.cpp:94-108 | Lookup by long name finds the first registered match or reports that none exists |
| ArgsParsing.ParseArgument | win_ambilight/ArgsParsing.cpp:29-47 | A flag sets 1 and consumes nothing. An int option consumes the next token or fails with a missing-parameter error. Failures leave the results alone |
| ArgsParsing.ParseFrom | win_ambilight/ArgsParsing.cpp:49-115 | Parsing keeps the registered options and, when successful, the error text; it never adds result keys |
| ArgsParsing.Parse | win_ambilight/ArgsParsing.cpp:49-115 | Parsing skips the program name and keeps the same guarantees |
| ArgsParsing.PositionalRejected | win_ambilight/ArgsParsing.cpp:55-58 | A token not starting with '-' or '/' fails as a positional argument |
| ArgsParsing.LongNameAfterSingleDashRejected | win_ambilight/ArgsParsing.cpp:65-77 | A single dash with a name longer than one character fails |
| ArgsParsing.EmptyNameRejected | win_ambilight/ArgsParsing.cpp:60-72 | A bare "-", "--" or "/" fails with a missing-name error |
| ArgsParsing.UnknownLongNameRejected | win_ambilight/ArgsParsing.cpp:96-108 | An unregistered long name fails and names it |
| ArgsParsing.FlagStep | win_ambilight/ArgsParsing.cpp:79-108 | A registered flag sets its result and parsing continues with the next token |
| ArgsParsing.IntStep | win_ambilight/ArgsParsing.cpp:79-108 | A registered int option stores the converted next token and parsing continues after it |
| ArgsParsing.IntMissingValue | win_ambilight/ArgsParsing.cpp:35-42 | An int option as the last token fails with the missing-parameter error |
| ArgsParsing.RenderParses | win_ambilight/ArgsParsing.cpp:49-115 | Any command line rendered from registered settings parses successfully to the results those settings assign |
| ArgsParsing.OneSettingStep | win_ambilight/ArgsParsing.cpp:79-108 | One rendered setting is consumed as a unit and applies its value |
| ColorEffect.NamesDistinct | mcu_esperif/main/capabilities/caps_colorEffect.hpp:14-27 | The table has one name per id and no name twice |
| ColorEffect.FindName | esperif/main/capabilities/caps_colorEffect.cpp:28-33 | The search returns the first position holding the name, or NONE |
| ColorEffect.NameToId | esperif/main/capabilities/caps_colorEffect.cpp:28-33 | A known name maps to its id; an unknown name maps to NONE |
| ColorEffect.IdToName | esperif/main/capabilities/caps_colorEffect.cpp:35-40 | An id in range maps to its name; any other id maps to the name of NONE |
| ColorEffect.IdNameRoundTrip | esperif/main/capabilities/caps_colorEffect.cpp:28-40 | Every id in range survives the trip through its name |
| ColorEffect.NameIdRoundTrip | esperif/main/capabilities/caps_colorEffect.cpp:28-40 | Every name of the table survives the trip through its id |
| ColorEffect.OutOfRangeIdReadsBackAsNone | esperif/main/capabilities/caps_colorEffect.cpp:35-40 | An out-of-range id reads back as NONE, not as itself |
| ColorEffect.NewCaps | esperif/main/capabilities/caps_colorEffect.cpp:11-26 | A new capability holds NONE and has sent nothing |
| ColorEffect.SendEffect | esperif/main/capabilities/caps_colorEffect.cpp:56-68 | The held effect's name, clamped to the table, is sent; without a handle nothing is sent |
| ColorEffect.SetEffectId | esperif/main/capabilities/caps_colorEffect.cpp:46-49 | The raw id is stored unchecked; only the reported name is clamped |
| ColorEffect.SetEffectName | esperif/main/capabilities/caps_colorEffect.cpp:51-54 | The name is looked up and the resulting id, always valid, is stored and reported |
| ColorEffect.HandleCmd | esperif/main/capabilities/caps_colorEffect.cpp:70-91 | Only "setEffect" with exactly one string argument changes the effect; anything else changes nothing |
| ColorEffect.HandleInit | esperif/main/capabilities/caps_colorEffect.cpp:98-105 | Initialisation reports the held effect |
| ColorEffect.SetEffectCommandEchoes | esperif/main/capabilities/caps_colorEffect.cpp:70-91 | A command naming a known effect selects it and reports the same name back |
| ColorEffect.UnknownNameSelectsNone | esperif/main/capabilities/caps_colorEffect.cpp:70-91 | A command naming an unknown effect selects NONE |

## Left out

- Serial, USB and UART plumbing are not modelled: device discovery, port setup, the `read`/`write` system calls, `CDC_Transmit_FS` and the UART event task. The transport is a write-result parameter, and the host device is a record of input and read returns.
- HostIo.WriteAll: the host `_write` is taken to deliver the whole packet; partial writes and write errors are not modelled, because they depend on the operating system.
- RTOS waiting between the UART task and the sender is not modelled. It is the `arrival` parameter (bytes or a timeout). `HAL_Delay` between retries is left out because it has no effect on the protocol state.
- CRC implementations (the hardware CRC unit, zlib `crc32`) are foreign code. They are an uninterpreted function parameter.
- Allocation failures and the leaks of the receive and response buffers are not modelled; memory is unbounded here.
- The second generation's header is not part of this model. Its response magic 0x00524C4D, its command numbering (TURN_OFF = 0 … GET_ON_STATE = 8) and its response struct sizes follow the protocol description, and the response handler's slot lies outside the command range rather than sharing the command table's numbering. Its footer is taken to be the same 8 bytes as the first generation's, with a zero CRC.
- ArgsParsing.ParseFrom: the result map is keyed by the option's long name as text; the source keys it by the address of that name, which is the same registration for every lookup the parser makes.
- ArgsParsing.AtoiOfValueText: `atoi` overflow beyond 32 bits is undefined in C and is not modelled. The value is stored as a 64-bit unsigned image of the unbounded integer.
- Command-line tokens are the characters before their terminating NUL; embedded NULs are not modelled.
- AmbiLights.RunFrame: requires a captured row of at least 2 pixels and at least one LED per strip. The source divides by the LED count and would fault otherwise.
- ColorEffect.HandleCmd: the application callback `cb_cmd` the handler also invokes is not modelled, because it is application code outside the capability.
- ColorEffect.HandleInit: the application callback `cb_init` the handler calls first is not modelled, for the same reason.
- Ws2812.InitLedStrip: the calibration fields set-up leaves uninitialised are a parameter, but of the ratio type, so leftover memory holding a zero denominator, which `set_led_color` would divide by after a calibration at a non-zero index, is not represented.
- Ws2812.Calibrate: ratio denominators are typed 1..255, so a zero denominator, which makes `set_led_color` divide by zero, cannot be given to Ws2812.Calibrate or reach Ws2812.SetLedColor.
- The controller's main loop, `refresh_leds` (SPI DMA) and the effect renderers are not modelled, because they use floating-point colour conversion and hardware timing.
- Ws2812.SetLedColor: the `set_leds_brightness` setter is modelled as the record update inside App.SetBrightness rather than as its own member.
- HostLib.SetColors: the strip byte is left uninitialised by the library; it is a parameter here.
- MlfComm.GetBrightness: the uninitialised local read after a timeout is the `stale` parameter.

=== FILE: ambilights.dfy ===
/** The desktop ambilight client's colour assembly: a captured screen row is
    cut into one bucket per LED, each bucket is averaged per channel, dark
    greys are damped, and the result is packed the way the controller's
    `int2Color` unpacks it. Screen capture and the serial transfer of the
    colours are not part of this model. */
module AmbiLights {
  import opened Bytes
  import opened Ws2812

  /** The channels of a captured pixel: `x & 0xff`, `(x >> 8) & 0xff` and
      `(x >> 16) & 0xff`. Dafny's division by a positive constant rounds
      down, which is the arithmetic shift on a two's-complement `int`. */
  function PixelColor(x: int): (c: Color)
    ensures c.r == x % 0x100 && c.g == (x / 0x100) % 0x100 && c.b == (x / 0x1_0000) % 0x100
  {
    Color(x % 0x100, (x / 0x100) % 0x100, (x / 0x1_0000) % 0x100)
  }

  /** The sums of the red, green and blue channels over `screen[i..i + n]`. */
  function SumR(screen: seq<int>, i: nat, n: nat): (s: nat)
    requires i + n <= |screen|
    ensures s <= 0xFF * n
  {
    if n == 0 then 0 else SumR(screen, i, n - 1) + PixelColor(screen[i + n - 1]).r
  }

  function SumG(screen: seq<int>, i: nat, n: nat): (s: nat)
    requires i + n <= |screen|
    ensures s <= 0xFF * n
  {
    if n == 0 then 0 else SumG(screen, i, n - 1) + PixelColor(screen[i + n - 1]).g
  }

  function SumB(screen: seq<int>, i: nat, n: nat): (s: nat)
    requires i + n <= |screen|
    ensures s <= 0xFF * n
  {
    if n == 0 then 0 else SumB(screen, i, n - 1) + PixelColor(screen[i + n - 1]).b
  }

  /** The integer average of a bucket of `n` pixels starting at `i`: each
      channel is the floor of its mean. */
  function Average(screen: seq<int>, i: nat, n: nat): Color
    requires n >= 1 && i + n <= |screen|
  {
    FloorDiv(SumR(screen, i, n), n);
    FloorDiv(SumG(screen, i, n), n);
    FloorDiv(SumB(screen, i, n), n);
    Color(SumR(screen, i, n) / n, SumG(screen, i, n) / n, SumB(screen, i, n) / n)
  }

  /** Each channel of the average is the floor of the channel's mean. */
  lemma AverageIsFloorMean(screen: seq<int>, i: nat, n: nat)
    requires n >= 1 && i + n <= |screen|
    ensures var c := Average(screen, i, n);
      && FloorMean(c.r, SumR(screen, i, n), n)
      && FloorMean(c.g, SumG(screen, i, n), n)
      && FloorMean(c.b, SumB(screen, i, n), n)
  {
    FloorDiv(SumR(screen, i, n), n);
    FloorDiv(SumG(screen, i, n), n);
    FloorDiv(SumB(screen, i, n), n);
  }

  /** `avg` is the floor of `sum / n`. */
  predicate FloorMean(avg: int, sum: int, n: nat) {
    avg * n <= sum < (avg + 1) * n
  }

  /** Integer division of a sum of at most `n` channel values by `n` is
      their floor mean and fits in a byte. */
  lemma FloorDiv(s: nat, n: nat)
    requires n >= 1 && s <= 0xFF * n
    ensures 0 <= s / n <= 0xFF && FloorMean(s / n, s, n)
  {
    var q, r := s / n, s % n;
    assert s == q * n + r && 0 <= r < n;
    assert (q + 1) * n == q * n + n;
    if q > 0xFF {
      MulLe(0x100, q, n);
    }
  }

  lemma MulLe(a: nat, b: nat, n: nat)
    requires a <= b
    ensures a * n <= b * n
  {
    assert b * n == a * n + (b - a) * n;
  }

  /** The damping rule's condition: every channel below 0x70 and every two
      channels less than 0x10 apart. */
  predicate DimGrey(c: Color) {
    && c.r < 0x70 && c.g < 0x70 && c.b < 0x70
    && Abs(c.r - c.g) < 0x10 && Abs(c.r - c.b) < 0x10 && Abs(c.g - c.b) < 0x10
  }

  function Abs(x: int): nat { if x < 0 then -x else x }

  /** Dark greys are divided by three; every other colour passes unchanged. */
  function Damp(c: Color): (r: Color)
    ensures r.r <= c.r && r.g <= c.g && r.b <= c.b
    ensures !DimGrey(c) ==> r == c
    ensures DimGrey(c) ==> r.r * 3 <= c.r < r.r * 3 + 3 && r.g * 3 <= c.g < r.g * 3 + 3
                           && r.b * 3 <= c.b < r.b * 3 + 3
  {
    if DimGrey(c) then Color(c.r / 3, c.g / 3, c.b / 3) else c
  }

  /** The damped average of the bucket at `i`, packed for the controller. */
  function BucketValue(screen: seq<int>, i: nat, n: nat): (v: int)
    requires n >= 1 && i + n <= |screen|
    ensures 0 <= v < 0x100_0000
  {
    PackColor(Damp(Average(screen, i, n)))
  }

  /** The controller's `int2Color` unpacks a bucket's value to the damped
      average. */
  lemma BucketValueDecodes(screen: seq<int>, i: nat, n: nat)
    requires n >= 1 && i + n <= |screen|
    ensures Int2Color(BucketValue(screen, i, n)) == Damp(Average(screen, i, n))
  {
    Int2ColorOfPack(Damp(Average(screen, i, n)));
  }

  /** The bucket walk: buckets of `bs` pixels starting at `i`, `i - bs`, ...
      for as long as the start stays at or above `from`. */
  function Walk(screen: seq<int>, from: nat, i: int, bs: nat): (r: seq<int>)
    requires bs >= 1 && i + bs <= |screen|
    ensures |r| == Count(from, i, bs)
    decreases i - from + 1
  {
    if i < from then [] else [BucketValue(screen, i, bs)] + Walk(screen, from, i - bs, bs)
  }

  /** The number of starts the walk visits. */
  function Count(from: nat, i: int, bs: nat): nat
    requires bs >= 1
    decreases i - from + 1
  {
    if i < from then 0 else 1 + Count(from, i - bs, bs)
  }

  /** The visited buckets fit between `from` and the walk's top end. */
  lemma {:induction false} CountFits(from: nat, i: int, bs: nat)
    requires bs >= 1 && i + bs >= from
    ensures Count(from, i, bs) * bs <= i + bs - from
    decreases i - from + 1
  {
    if i >= from {
      var c := Count(from, i - bs, bs);
      CountFits(from, i - bs, bs);
      assert (1 + c) * bs == bs + c * bs;
    }
  }

  /** `k` bucket sizes, added up one at a time as the walk steps. */
  function Offset(k: nat, bs: nat): nat {
    if k == 0 then 0 else Offset(k - 1, bs) + bs
  }

  lemma {:induction false} OffsetIsProduct(k: nat, bs: nat)
    ensures Offset(k, bs) == k * bs
  {
    if k > 0 {
      OffsetIsProduct(k - 1, bs);
      assert (k - 1) * bs + bs == k * bs;
    }
  }

  /** The k-th bucket of the walk starts `k` bucket sizes below its first,
      at or above `from`. */
  lemma {:induction false} WalkAt(screen: seq<int>, from: nat, i: int, bs: nat, k: nat)
    requires bs >= 1 && i + bs <= |screen| && k < Count(from, i, bs)
    ensures from <= i - Offset(k, bs)
    ensures Walk(screen, from, i, bs)[k] == BucketValue(screen, i - Offset(k, bs), bs)
    decreases k
  {
    assert i >= from;
    var rest := Walk(screen, from, i - bs, bs);
    assert Walk(screen, from, i, bs) == [BucketValue(screen, i, bs)] + rest;
    if k > 0 {
      WalkAt(screen, from, i - bs, bs, k - 1);
      assert Offset(k, bs) == Offset(k - 1, bs) + bs;
      assert ([BucketValue(screen, i, bs)] + rest)[k] == rest[k - 1];
    }
  }

  /** The bucket size for `n` LEDs over `[from, to)`: one more than the
      floor of the width over the LED count, so that `n` buckets cover more
      than the width. */
  function BucketSize(from: nat, to: nat, n: nat): (bs: nat)
    requires n >= 1 && from <= to
    ensures bs >= 1
  {
    (to - from) / n + 1
  }

  lemma BucketSizeCovers(from: nat, to: nat, n: nat)
    requires n >= 1 && from <= to
    ensures to - from < n * BucketSize(from, to, n)
  {
    var w := to - from;
    var q := w / n;
    assert w == n * q + w % n;
    assert n * (q + 1) == n * q + n;
  }

  /** The number of buckets the walk visits below `to`: fewer than `n`. */
  function BucketCount(from: nat, to: nat, n: nat): (m: nat)
    requires n >= 1 && from <= to
    ensures m < n
  {
    var bs := BucketSize(from, to, n);
    var m := Count(from, to - bs, bs);
    assert m < n by {
      BucketSizeCovers(from, to, n);
      CountFits(from, to - bs, bs);
      if m >= n {
        MulLe(n, m, bs);
      }
    }
    m
  }

  /** applyColorCorrections: the colours of the buckets of `[from, to)`,
      walked from the top end down, followed by copies of the last of them
      (or of 0 when no bucket fits) up to exactly `n` colours. */
  function ColorCorrections(screen: seq<int>, from: nat, to: nat, n: nat): (r: seq<int>)
    requires n >= 1 && from <= to <= |screen|
    ensures |r| == n
  {
    var bs := BucketSize(from, to, n);
    var walked := Walk(screen, from, to - bs, bs);
    assert |walked| == BucketCount(from, to, n);
    PadWithLast(walked, n)
  }

  /** The padding loop: copies of the last colour, or of 0 when there is
      none, until there are `n`. */
  function PadWithLast(colors: seq<int>, n: nat): (r: seq<int>)
    requires |colors| <= n
    ensures |r| == n && r[..|colors|] == colors
    ensures forall k :: |colors| <= k < n ==> r[k] == if colors == [] then 0 else colors[|colors| - 1]
  {
    var last := if colors == [] then 0 else colors[|colors| - 1];
    colors + seq(n - |colors|, _ => last)
  }

  /** The k-th of the first BucketCount colours of applyColorCorrections is
      the damped average of the bucket that starts (k + 1) bucket sizes below
      `to`, and that bucket lies inside `[from, to)`. */
  lemma ColorCorrectionsBucket(screen: seq<int>, from: nat, to: nat, n: nat, k: nat)
    requires n >= 1 && from <= to <= |screen| && k < BucketCount(from, to, n)
    ensures var bs := BucketSize(from, to, n);
      && Offset(k + 1, bs) == (k + 1) * bs
      && from <= to - Offset(k + 1, bs)
      && ColorCorrections(screen, from, to, n)[k] == BucketValue(screen, to - Offset(k + 1, bs), bs)
  {
    var bs := BucketSize(from, to, n);
    OffsetIsProduct(k + 1, bs);
    var walked := Walk(screen, from, to - bs, bs);
    var r := ColorCorrections(screen, from, to, n);
    assert r == PadWithLast(walked, n);
    WalkAt(screen, from, to - bs, bs, k);
    assert r[k] == r[..|walked|][k];
  }

  /** Every colour after the buckets repeats the last bucket's colour, or is
      0 when no bucket fits. */
  lemma ColorCorrectionsPadding(screen: seq<int>, from: nat, to: nat, n: nat, k: nat)
    requires n >= 1 && from <= to <= |screen| && BucketCount(from, to, n) <= k < n
    ensures var r := ColorCorrections(screen, from, to, n);
      var m := BucketCount(from, to, n);
      r[k] == if m == 0 then 0 else r[m - 1]
  {
    var bs := BucketSize(from, to, n);
    var walked := Walk(screen, from, to - bs, bs);
    var r := ColorCorrections(screen, from, to, n);
    assert r == PadWithLast(walked, n);
    if walked != [] {
      assert r[|walked| - 1] == r[..|walked|][|walked| - 1];
    }
  }

  /** Every colour read back by the controller is a damped bucket average. */
  lemma ColorCorrectionsDecode(screen: seq<int>, from: nat, to: nat, n: nat, k: nat)
    requires n >= 1 && from <= to <= |screen| && k < BucketCount(from, to, n)
    ensures var bs := BucketSize(from, to, n);
      && from <= to - Offset(k + 1, bs)
      && Int2Color(ColorCorrections(screen, from, to, n)[k]) == Damp(Average(screen, to - Offset(k + 1, bs), bs))
  {
    ColorCorrectionsBucket(screen, from, to, n, k);
    BucketValueDecodes(screen, to - Offset(k + 1, BucketSize(from, to, n)), BucketSize(from, to, n));
  }

  /** A bucket reads only its own pixels. */
  lemma {:induction false} BucketLocal(s1: seq<int>, s2: seq<int>, i: nat, n: nat)
    requires n >= 1 && i + n <= |s1| && i + n <= |s2| && s1[i..i + n] == s2[i..i + n]
    ensures BucketValue(s1, i, n) == BucketValue(s2, i, n)
  {
    SumsLocal(s1, s2, i, n);
  }

  lemma {:induction false} SumsLocal(s1: seq<int>, s2: seq<int>, i: nat, n: nat)
    requires i + n <= |s1| && i + n <= |s2| && s1[i..i + n] == s2[i..i + n]
    ensures SumR(s1, i, n) == SumR(s2, i, n) && SumG(s1, i, n) == SumG(s2, i, n)
    ensures SumB(s1, i, n) == SumB(s2, i, n)
  {
    if n > 0 {
      assert s1[i..i + (n - 1)] == s1[i..i + n][..n - 1];
      assert s2[i..i + (n - 1)] == s2[i..i + n][..n - 1];
      SumsLocal(s1, s2, i, n - 1);
      assert s1[i + n - 1] == s1[i..i + n][n - 1];
      assert s2[i + n - 1] == s2[i..i + n][n - 1];
    }
  }

  /** The colours for a screen range depend only on the pixels in that
      range. */
  lemma ColorCorrectionsLocal(s1: seq<int>, s2: seq<int>, from: nat, to: nat, n: nat)
    requires n >= 1 && from <= to <= |s1| && to <= |s2| && s1[from..to] == s2[from..to]
    ensures ColorCorrections(s1, from, to, n) == ColorCorrections(s2, from, to, n)
  {
    var r1 := ColorCorrections(s1, from, to, n);
    var r2 := ColorCorrections(s2, from, to, n);
    var bs := BucketSize(from, to, n);
    var m := BucketCount(from, to, n);
    forall k | 0 <= k < n
      ensures r1[k] == r2[k]
    {
      if k < m {
        BucketsAgree(s1, s2, from, to, n, k);
      } else {
        ColorCorrectionsPadding(s1, from, to, n, k);
        ColorCorrectionsPadding(s2, from, to, n, k);
        if m > 0 {
          BucketsAgree(s1, s2, from, to, n, m - 1);
        }
      }
    }
    assert r1 == r2;
  }

  lemma BucketsAgree(s1: seq<int>, s2: seq<int>, from: nat, to: nat, n: nat, k: nat)
    requires n >= 1 && from <= to <= |s1| && to <= |s2| && s1[from..to] == s2[from..to]
    requires k < BucketCount(from, to, n)
    ensures ColorCorrections(s1, from, to, n)[k] == ColorCorrections(s2, from, to, n)[k]
  {
    var bs := BucketSize(from, to, n);
    ColorCorrectionsBucket(s1, from, to, n, k);
    ColorCorrectionsBucket(s2, from, to, n, k);
    var i := to - Offset(k + 1, bs);
    assert i + bs <= to by {
      assert Offset(k + 1, bs) == Offset(k, bs) + bs;
    }
    SubSliceAgrees(s1, s2, from, to, i, bs);
    BucketLocal(s1, s2, i, bs);
  }

  /** Two screens that agree on a range agree on every part of it. */
  lemma SubSliceAgrees(s1: seq<int>, s2: seq<int>, from: nat, to: nat, i: nat, len: nat)
    requires from <= i && i + len <= to <= |s1| && to <= |s2| && s1[from..to] == s2[from..to]
    ensures s1[i..i + len] == s2[i..i + len]
  {
    forall j | i <= j < i + len
      ensures s1[j] == s2[j]
    {
      assert s1[j] == s1[from..to][j - from];
      assert s2[j] == s2[from..to][j - from];
    }
  }

  /** runFrame: the bottom LEDs take the second half of the captured row,
      the top LEDs the first, bottom colours first. Each half's last pixel
      is outside its range, as the source passes `to` as the last index. */
  function RunFrame(screen: seq<int>, bottomLeds: nat, topLeds: nat): (colors: seq<int>)
    requires bottomLeds >= 1 && topLeds >= 1 && |screen| >= 2
    ensures |colors| == bottomLeds + topLeds
  {
    var w := |screen| / 2;
    ColorCorrections(screen, w, 2 * w - 1, bottomLeds) + ColorCorrections(screen, 0, w - 1, topLeds)
  }

  /** The frame's colours are the bottom strip's followed by the top
      strip's. */
  lemma RunFrameParts(screen: seq<int>, bottomLeds: nat, topLeds: nat)
    requires bottomLeds >= 1 && topLeds >= 1 && |screen| >= 2
    ensures var w := |screen| / 2; var c := RunFrame(screen, bottomLeds, topLeds);
      && c[..bottomLeds] == ColorCorrections(screen, w, 2 * w - 1, bottomLeds)
      && c[bottomLeds..] == ColorCorrections(screen, 0, w - 1, topLeds)
  {
  }

  /** The bottom strip's colours depend only on the second half of the row. */
  lemma RunFrameBottomHalf(s1: seq<int>, s2: seq<int>, bottomLeds: nat, topLeds: nat)
    requires bottomLeds >= 1 && topLeds >= 1 && |s1| >= 2 && |s1| == |s2|
    requires s1[|s1| / 2..2 * (|s1| / 2) - 1] == s2[|s1| / 2..2 * (|s1| / 2) - 1]
    ensures RunFrame(s1, bottomLeds, topLeds)[..bottomLeds] == RunFrame(s2, bottomLeds, topLeds)[..bottomLeds]
  {
    var w := |s1| / 2;
    RunFrameParts(s1, bottomLeds, topLeds);
    RunFrameParts(s2, bottomLeds, topLeds);
    ColorCorrectionsLocal(s1, s2, w, 2 * w - 1, bottomLeds);
  }

  /** The top strip's colours depend only on the first half of the row. */
  lemma RunFrameTopHalf(s1: seq<int>, s2: seq<int>, bottomLeds: nat, topLeds: nat)
    requires bottomLeds >= 1 && topLeds >= 1 && |s1| >= 2 && |s1| == |s2|
    requires s1[..|s1| / 2 - 1] == s2[..|s1| / 2 - 1]
    ensures RunFrame(s1, bottomLeds, topLeds)[bottomLeds..] == RunFrame(s2, bottomLeds, topLeds)[bottomLeds..]
  {
    var w := |s1| / 2;
    RunFrameParts(s1, bottomLeds, topLeds);
    RunFrameParts(s2, bottomLeds, topLeds);
    assert s1[0..w - 1] == s1[..w - 1] && s2[0..w - 1] == s2[..w - 1];
    ColorCorrectionsLocal(s1, s2, 0, w - 1, topLeds);
  }
}

=== FILE: app.dfy ===
// Command handlers of the LED controller firmware: a small state machine
// over the operating mode, the per-strip effect settings and the two LED
// strips, registered in the dispatcher's handler table.

module App {
  import opened Bytes
  import opened Wire
  import opened Ws2812
  import opened Dispatcher

  datatype Mode = TurnedOff | ShowEffect | ShowColors

  /** Number of effects the controller can run; effect ids are below it. */
  const EFFECT_MAX: nat := 3
  const FW_VERSION: Byte := 1
  const BOTTOM_LEDS: U32 := 216
  const UPPER_LEDS: U32 := 90

  datatype AppData = AppData(
    mode: Mode,
    effectTop: Byte,
    effectBottom: Byte,
    speed: U32,
    topData: U32,
    bottomData: U32,
    upper: LedStrip,
    bottom: LedStrip)

  const NO_STRIP: LedStrip := LedStrip(0, seq(SPI_RES_SIGNAL_LEN, _ => 0), 255, false, 0, IDENTITY, IDENTITY)

  /** Application state: both strips keep their SPI buffer shape. */
  type AppState = a: AppData | WellFormed(a.upper) && WellFormed(a.bottom)
    witness AppData(TurnedOff, 0, 0, 1, 0, 0, NO_STRIP, NO_STRIP)

  // ---------------------------------------------------------------------
  // Handlers
  // ---------------------------------------------------------------------

  /** get_info: firmware version and both strip lengths (as uint16). */
  function GetInfo(st: AppState, data: seq<Byte>): (r: Reply<AppState>)
    ensures r.state == st && r.status == Ok
    ensures |r.response| == GET_INFO_LEN
    ensures DecodeGetInfo(r.response) == GetInfoResp(FW_VERSION, ToU16(st.upper.len), ToU16(st.bottom.len))
  {
    var info := GetInfoResp(FW_VERSION, ToU16(st.upper.len), ToU16(st.bottom.len));
    GetInfoRoundTrip(info);
    Reply(st, Ok, EncodeGetInfo(info))
  }

  /** turn_off: only the mode changes. */
  function TurnOff(st: AppState, data: seq<Byte>): (r: Reply<AppState>)
    ensures r.status == Ok && r.response == []
    ensures r.state.mode == TurnedOff && r.state == st.(mode := TurnedOff)
  {
    Reply(st.(mode := TurnedOff), Ok, [])
  }

  /** set_brightness: a short payload is invalid; otherwise the brightness of
      each strip selected by the mask changes, and nothing else. */
  function SetBrightness(st: AppState, data: seq<Byte>): (r: Reply<AppState>)
    ensures r.response == []
    ensures r.status == Ok <==> |data| >= SET_BRIGHTNESS_LEN
    ensures r.status != Ok ==> r.status == InvalidData && r.state == st
    ensures r.status == Ok ==>
      var req := DecodeSetBrightness(data);
      && r.state.upper == (if HasTop(req.strip) then st.upper.(brightness := req.brightness) else st.upper)
      && r.state.bottom == (if HasBottom(req.strip) then st.bottom.(brightness := req.brightness) else st.bottom)
      && r.state == st.(upper := r.state.upper, bottom := r.state.bottom)
  {
    if |data| < SET_BRIGHTNESS_LEN then Reply(st, InvalidData, [])
    else
      var req := DecodeSetBrightness(data);
      var upper := if HasTop(req.strip) then st.upper.(brightness := req.brightness) else st.upper;
      var bottom := if HasBottom(req.strip) then st.bottom.(brightness := req.brightness) else st.bottom;
      Reply(st.(upper := upper, bottom := bottom), Ok, [])
  }

  /** set_effect: a short payload or an unknown effect is invalid and changes
      nothing; otherwise the speed is the requested one plus one, the masked
      strips take the effect and its colour, and the mode is SHOW_EFFECT. */
  function SetEffect(st: AppState, data: seq<Byte>): (r: Reply<AppState>)
    ensures r.response == []
    ensures r.status == Ok <==> |data| >= SET_EFFECT_LEN && DecodeSetEffect(data).effect < EFFECT_MAX
    ensures r.status != Ok ==> r.status == InvalidData && r.state == st
    ensures r.status == Ok ==>
      var req := DecodeSetEffect(data);
      && r.state.mode == ShowEffect
      && r.state.speed == req.speed + 1
      && (HasTop(req.strip) ==> r.state.effectTop == req.effect && r.state.topData == req.color)
      && (!HasTop(req.strip) ==> r.state.effectTop == st.effectTop && r.state.topData == st.topData)
      && (HasBottom(req.strip) ==> r.state.effectBottom == req.effect && r.state.bottomData == req.color)
      && (!HasBottom(req.strip) ==> r.state.effectBottom == st.effectBottom && r.state.bottomData == st.bottomData)
      && r.state.upper == st.upper && r.state.bottom == st.bottom
  {
    if |data| < SET_EFFECT_LEN then Reply(st, InvalidData, [])
    else
      var req := DecodeSetEffect(data);
      if req.effect >= EFFECT_MAX then Reply(st, InvalidData, [])
      else
        var s1 := st.(speed := req.speed + 1);
        var s2 := if HasTop(req.strip) then s1.(effectTop := req.effect, topData := req.color) else s1;
        var s3 := if HasBottom(req.strip) then s2.(effectBottom := req.effect, bottomData := req.color) else s2;
        Reply(s3.(mode := ShowEffect), Ok, [])
  }

  // ---------------------------------------------------------------------
  // set_color: colours go to the bottom strip first, then the upper one
  // ---------------------------------------------------------------------

  /** First upper-strip diode written when painting from colour `i` on. */
  function UpperFirst(i: nat, b: nat): nat { if i >= b then i - b else 0 }

  /** How many of `n` colours lie at or past position `off`. */
  function Remaining(n: nat, off: nat): nat { if n >= off then n - off else 0 }

  /** The set_color loop from colour `i` on: colour j goes to bottom diode j
      while j < bottom length, then to upper diode j - bottom length, and
      the loop stops once both strips are full. PaintFromSplit relates it to
      one PaintStrip per strip. */
  function PaintFrom(bottom: LedStrip, upper: LedStrip, colors: seq<Color>, i: nat): (r: (LedStrip, LedStrip))
    requires WellFormed(bottom) && WellFormed(upper) && i <= |colors|
    ensures WellFormed(r.0) && WellFormed(r.1)
    ensures r.0 == bottom.(buffer := r.0.buffer) && r.1 == upper.(buffer := r.1.buffer)
    decreases |colors| - i
  {
    if i == |colors| || i >= bottom.len + upper.len then (bottom, upper)
    else if i >= bottom.len then PaintFrom(bottom, SetLedColor(upper, i - bottom.len, colors[i]), colors, i + 1)
    else PaintFrom(SetLedColor(bottom, i, colors[i]), upper, colors, i + 1)
  }

  /** Reference definition for one strip: diode j, from j on, shows colour
      off + j, as far as the strip and the colours reach. */
  function PaintStrip(s: LedStrip, colors: seq<Color>, off: nat, j: nat): (r: LedStrip)
    requires WellFormed(s)
    ensures WellFormed(r) && r == s.(buffer := r.buffer)
    decreases s.len - j
  {
    if j >= s.len || off + j >= |colors| then s
    else PaintStrip(SetLedColor(s, j, colors[off + j]), colors, off, j + 1)
  }

  /** The set_color loop paints the bottom strip with the colours from 0 on
      and the upper strip with those from the bottom length on. */
  lemma {:induction false} PaintFromSplit(bottom: LedStrip, upper: LedStrip, colors: seq<Color>, i: nat)
    requires WellFormed(bottom) && WellFormed(upper) && i <= |colors|
    ensures PaintFrom(bottom, upper, colors, i) ==
      (PaintStrip(bottom, colors, 0, i), PaintStrip(upper, colors, bottom.len, UpperFirst(i, bottom.len)))
    decreases |colors| - i
  {
    if i == |colors| || i >= bottom.len + upper.len {
    } else if i >= bottom.len {
      var u := SetLedColor(upper, i - bottom.len, colors[i]);
      assert PaintFrom(bottom, upper, colors, i) == PaintFrom(bottom, u, colors, i + 1);
      PaintFromSplit(bottom, u, colors, i + 1);
      assert colors[bottom.len + (i - bottom.len)] == colors[i];
      PaintStripStep(upper, colors, bottom.len, i - bottom.len);
      assert PaintStrip(bottom, colors, 0, i + 1) == bottom == PaintStrip(bottom, colors, 0, i);
    } else {
      var b := SetLedColor(bottom, i, colors[i]);
      assert PaintFrom(bottom, upper, colors, i) == PaintFrom(b, upper, colors, i + 1);
      PaintFromSplit(b, upper, colors, i + 1);
      PaintStripStep(bottom, colors, 0, i);
      assert UpperFirst(i + 1, bottom.len) == 0 == UpperFirst(i, bottom.len);
    }
  }

  /** Only the buffer of a strip differs, so a colour is corrected alike. */
  lemma {:induction false} CorrectedIgnoresBuffer(s: LedStrip, t: LedStrip, p: nat, c: Color)
    requires t == s.(buffer := t.buffer)
    ensures Corrected(t, p, c) == Corrected(s, p, c)
  {
  }

  /** One turn of the strip loop. */
  lemma {:induction false} PaintStripStep(s: LedStrip, colors: seq<Color>, off: nat, j: nat)
    requires WellFormed(s) && j < s.len && off + j < |colors|
    ensures PaintStrip(s, colors, off, j) == PaintStrip(SetLedColor(s, j, colors[off + j]), colors, off, j + 1)
  {
  }

  /** The strip loop from diode j on changes no byte outside the diodes
      j .. min(length, colours left) - 1. */
  lemma {:induction false} PaintStripKeeps(s: LedStrip, colors: seq<Color>, off: nat, j: nat, k: nat)
    requires WellFormed(s) && k < |s.buffer| && !(j * 9 <= k < Min(s.len, Remaining(|colors|, off)) * 9)
    ensures PaintStrip(s, colors, off, j).buffer[k] == s.buffer[k]
    decreases s.len - j
  {
    if j < s.len && off + j < |colors| {
      var t := SetLedColor(s, j, colors[off + j]);
      PaintStripStep(s, colors, off, j);
      SetLedColorKeeps(s, j, colors[off + j], k);
      PaintStripKeeps(t, colors, off, j + 1, k);
    }
  }

  /** Diode p, once the strip loop reaches it, shows colour off + p
      corrected. */
  lemma {:induction false} PaintStripShows(s: LedStrip, colors: seq<Color>, off: nat, j: nat, p: nat)
    requires WellFormed(s) && j <= p < s.len && off + p < |colors|
    ensures DecodePixel(PaintStrip(s, colors, off, j).buffer, p) == Corrected(s, p, colors[off + p])
    decreases s.len - j
  {
    var t := SetLedColor(s, j, colors[off + j]);
    PaintStripStep(s, colors, off, j);
    if p == j {
      forall k | j * 9 <= k < (j + 1) * 9
        ensures PaintStrip(t, colors, off, j + 1).buffer[k] == t.buffer[k]
      {
        PaintStripKeeps(t, colors, off, j + 1, k);
      }
      SamePixel(PaintStrip(t, colors, off, j + 1).buffer, t.buffer, j);
      SetLedColorShows(s, j, colors[off + j]);
    } else {
      PaintStripShows(t, colors, off, j + 1, p);
      CorrectedIgnoresBuffer(s, t, p, colors[off + p]);
    }
  }

  /** The whole strip loop: every diode the colours reach shows its colour
      corrected. */
  lemma {:induction false} PaintStripShowsAll(s: LedStrip, colors: seq<Color>, off: nat)
    requires WellFormed(s)
    ensures forall p :: 0 <= p < s.len && off + p < |colors| ==>
      DecodePixel(PaintStrip(s, colors, off, 0).buffer, p) == Corrected(s, p, colors[off + p])
  {
    forall p | 0 <= p < s.len && off + p < |colors|
      ensures DecodePixel(PaintStrip(s, colors, off, 0).buffer, p) == Corrected(s, p, colors[off + p])
    {
      PaintStripShows(s, colors, off, 0, p);
    }
  }

  /** The whole strip loop: bytes past the diodes the colours reach keep
      their values. */
  lemma {:induction false} PaintStripKeepsAll(s: LedStrip, colors: seq<Color>, off: nat)
    requires WellFormed(s)
    ensures forall k :: Min(s.len, Remaining(|colors|, off)) * 9 <= k < |s.buffer| ==>
      PaintStrip(s, colors, off, 0).buffer[k] == s.buffer[k]
  {
    forall k | Min(s.len, Remaining(|colors|, off)) * 9 <= k < |s.buffer|
      ensures PaintStrip(s, colors, off, 0).buffer[k] == s.buffer[k]
    {
      PaintStripKeeps(s, colors, off, 0, k);
    }
  }

  /** Colour p, for every bottom diode p the colours reach, shows on it
      corrected. */
  lemma {:induction false} PaintShowsBottom(bottom: LedStrip, upper: LedStrip, colors: seq<Color>)
    requires WellFormed(bottom) && WellFormed(upper)
    ensures forall p :: 0 <= p < |colors| && p < bottom.len ==>
      DecodePixel(PaintFrom(bottom, upper, colors, 0).0.buffer, p) == Corrected(bottom, p, colors[p])
  {
    PaintFromSplit(bottom, upper, colors, 0);
    var r := PaintStrip(bottom, colors, 0, 0);
    assert PaintFrom(bottom, upper, colors, 0).0 == r;
    PaintStripShowsAll(bottom, colors, 0);
    forall p | 0 <= p < |colors| && p < bottom.len
      ensures DecodePixel(r.buffer, p) == Corrected(bottom, p, colors[p])
    {
      assert colors[0 + p] == colors[p];
    }
  }

  /** Colour bottom length + q, for every upper diode q the colours reach,
      shows on it corrected. */
  lemma {:induction false} PaintShowsUpper(bottom: LedStrip, upper: LedStrip, colors: seq<Color>)
    requires WellFormed(bottom) && WellFormed(upper)
    ensures forall q :: 0 <= q < upper.len && bottom.len + q < |colors| ==>
      DecodePixel(PaintFrom(bottom, upper, colors, 0).1.buffer, q) == Corrected(upper, q, colors[bottom.len + q])
  {
    PaintFromSplit(bottom, upper, colors, 0);
    var r := PaintStrip(upper, colors, bottom.len, 0);
    assert PaintFrom(bottom, upper, colors, 0).1 == r;
    PaintStripShowsAll(upper, colors, bottom.len);
    forall q | 0 <= q < upper.len && bottom.len + q < |colors|
      ensures DecodePixel(r.buffer, q) == Corrected(upper, q, colors[bottom.len + q])
    {
    }
  }

  /** Bytes past the diodes the colours reach keep their values. */
  lemma {:induction false} PaintKeeps(bottom: LedStrip, upper: LedStrip, colors: seq<Color>)
    requires WellFormed(bottom) && WellFormed(upper)
    ensures var r := PaintFrom(bottom, upper, colors, 0);
      && (forall k :: Min(|colors|, bottom.len) * 9 <= k < |bottom.buffer| ==> r.0.buffer[k] == bottom.buffer[k])
      && (forall k :: Remaining(|colors|, bottom.len) * 9 <= k < |upper.buffer| ==> r.1.buffer[k] == upper.buffer[k])
  {
    PaintFromSplit(bottom, upper, colors, 0);
    PaintStripKeepsAll(bottom, colors, 0);
    PaintStripKeepsAll(upper, colors, bottom.len);
  }

  /** The colours of a set_color payload: one int per 4 bytes after the strip
      byte, each unpacked by Int2Color. The firmware reads them as signed
      ints; the unpacked bytes are the same for the unsigned reading. */
  function PayloadColors(data: seq<Byte>): (cs: seq<Color>)
    requires |data| >= 1
    ensures |cs| == (|data| - 1) / 4
    ensures forall i :: 0 <= i < |cs| ==> cs[i] == Int2Color(ColorAt(data, i))
  {
    seq((|data| - 1) / 4, i requires 0 <= i < (|data| - 1) / 4 => Int2Color(ColorAt(data, i)))
  }

  /** set_color: an empty payload is invalid; otherwise only the two LED
      buffers and the mode (SHOW_COLORS) change. SetColorShowsBottom,
      SetColorShowsUpper and SetColorKeeps say what the buffers then hold. */
  function SetColor(st: AppState, data: seq<Byte>): (r: Reply<AppState>)
    ensures r.response == []
    ensures r.status == Ok <==> |data| >= 1
    ensures r.status != Ok ==> r.status == InvalidData && r.state == st
    ensures r.status == Ok ==>
      && r.state.mode == ShowColors
      && r.state == st.(mode := ShowColors, upper := r.state.upper, bottom := r.state.bottom)
      && r.state.bottom == st.bottom.(buffer := r.state.bottom.buffer)
      && r.state.upper == st.upper.(buffer := r.state.upper.buffer)
  {
    if |data| < 1 then Reply(st, InvalidData, [])
    else
      var painted := PaintFrom(st.bottom, st.upper, PayloadColors(data), 0);
      Reply(st.(mode := ShowColors, bottom := painted.0, upper := painted.1), Ok, [])
  }

  /** set_color: colour p of the payload shows, corrected, on bottom diode
      p, for every bottom diode the colours reach. */
  lemma {:induction false} SetColorShowsBottom(st: AppState, data: seq<Byte>)
    ensures var r := SetColor(st, data);
      r.status == Ok ==> forall p :: 0 <= p < st.bottom.len && p < (|data| - 1) / 4 ==>
        DecodePixel(r.state.bottom.buffer, p) == Corrected(st.bottom, p, Int2Color(ColorAt(data, p)))
  {
    if |data| >= 1 {
      var colors := PayloadColors(data);
      assert SetColor(st, data).state.bottom == PaintFrom(st.bottom, st.upper, colors, 0).0;
      PaintShowsBottom(st.bottom, st.upper, colors);
    }
  }

  /** set_color: once the bottom strip is full, colour bottom length + q
      shows, corrected, on upper diode q. */
  lemma {:induction false} SetColorShowsUpper(st: AppState, data: seq<Byte>)
    ensures var r := SetColor(st, data);
      r.status == Ok ==> forall q :: 0 <= q < st.upper.len && st.bottom.len + q < (|data| - 1) / 4 ==>
        DecodePixel(r.state.upper.buffer, q) == Corrected(st.upper, q, Int2Color(ColorAt(data, st.bottom.len + q)))
  {
    if |data| >= 1 {
      var colors := PayloadColors(data);
      assert SetColor(st, data).state.upper == PaintFrom(st.bottom, st.upper, colors, 0).1;
      PaintShowsUpper(st.bottom, st.upper, colors);
    }
  }

  /** set_color: bytes past the diodes the colours reach keep their values
      on both strips (colours beyond both strips are ignored). */
  lemma {:induction false} SetColorKeeps(st: AppState, data: seq<Byte>)
    ensures var r := SetColor(st, data); var n := (|data| - 1) / 4;
      r.status == Ok ==>
        && (forall k :: Min(n, st.bottom.len) * 9 <= k < |st.bottom.buffer| ==>
              r.state.bottom.buffer[k] == st.bottom.buffer[k])
        && (forall k :: Remaining(n, st.bottom.len) * 9 <= k < |st.upper.buffer| ==>
              r.state.upper.buffer[k] == st.upper.buffer[k])
  {
    if |data| >= 1 {
      var colors := PayloadColors(data);
      assert SetColor(st, data).state.bottom == PaintFrom(st.bottom, st.upper, colors, 0).0;
      assert SetColor(st, data).state.upper == PaintFrom(st.bottom, st.upper, colors, 0).1;
      PaintKeeps(st.bottom, st.upper, colors);
    }
  }

  // ---------------------------------------------------------------------
  // Requests as the host encodes them
  // ---------------------------------------------------------------------

  /** An encoded set_brightness request sets exactly the masked strips. */
  lemma {:induction false} SetBrightnessRequestApplies(st: AppState, req: SetBrightnessReq)
    ensures var r := SetBrightness(st, EncodeSetBrightness(req));
      && r.status == Ok
      && r.state.upper.brightness == (if HasTop(req.strip) then req.brightness else st.upper.brightness)
      && r.state.bottom.brightness == (if HasBottom(req.strip) then req.brightness else st.bottom.brightness)
      && r.state.upper.buffer == st.upper.buffer && r.state.bottom.buffer == st.bottom.buffer
  {
    assert DecodeSetBrightness(EncodeSetBrightness(req)) == req;
  }

  /** An encoded set_effect request is accepted exactly for a known effect,
      and then installs the request's fields. */
  lemma {:induction false} SetEffectRequestApplies(st: AppState, req: SetEffectReq)
    ensures var r := SetEffect(st, EncodeSetEffect(req));
      && (r.status == Ok <==> req.effect < EFFECT_MAX)
      && (r.status == Ok ==> r.state.speed == req.speed + 1)
      && (r.status == Ok && HasTop(req.strip) ==> r.state.effectTop == req.effect && r.state.topData == req.color)
      && (r.status == Ok && HasBottom(req.strip) ==> r.state.effectBottom == req.effect && r.state.bottomData == req.color)
  {
    SetEffectRoundTrip(req);
  }

  /** Colour i of an encoded set_color request shows on bottom diode i, or,
      past the bottom strip, on upper diode i minus the bottom length. */
  lemma {:induction false} SetColorRequestPlaces(st: AppState, req: SetColorReq, i: nat)
    requires i < |req.colors|
    ensures var r := SetColor(st, EncodeSetColor(req));
      && r.status == Ok
      && (i < st.bottom.len ==>
            DecodePixel(r.state.bottom.buffer, i) == Corrected(st.bottom, i, Int2Color(req.colors[i])))
      && (st.bottom.len <= i < st.bottom.len + st.upper.len ==>
            DecodePixel(r.state.upper.buffer, i - st.bottom.len) ==
              Corrected(st.upper, i - st.bottom.len, Int2Color(req.colors[i])))
  {
    var data := EncodeSetColor(req);
    SetColorRoundTrip(req, i);
    assert (|data| - 1) / 4 == |req.colors|;
    SetColorShowsBottom(st, data);
    SetColorShowsUpper(st, data);
  }

  // ---------------------------------------------------------------------
  // Start-up and registration
  // ---------------------------------------------------------------------

  /** The slots of TURN_OFF (0), GET_INFO (1), SET_BRIGHTNESS (4),
      SET_COLOR (5) and SET_EFFECT (6); AppCommandIds ties the numbers to
      the command ids. */
  const APP_SLOTS: set<Slot> := {CmdSlot(0), CmdSlot(1), CmdSlot(4), CmdSlot(5), CmdSlot(6)}

  lemma AppCommandIds()
    ensures Command.TurnOff.Id() == 0 && Command.GetInfo.Id() == 1 && Command.SetBrightness.Id() == 4
    ensures Command.SetColor.Id() == 5 && Command.SetEffect.Id() == 6
  {
  }

  /** Command ids that get a handler: GET_INFO, TURN_OFF, SET_EFFECT,
      SET_BRIGHTNESS and SET_COLOR; HandlersInstalled says which handler
      each one gets. */
  function RegisterHandlers(ctx: Context<AppState>): (r: Context<AppState>)
    ensures r.cfg == ctx.cfg && r.pending == ctx.pending && r.recvBufAllocated == ctx.recvBufAllocated
    ensures r.handlers.Keys == ctx.handlers.Keys + APP_SLOTS
  {
    var c1 := Register(ctx, CmdSlot(1), GetInfo);
    var c2 := Register(c1, CmdSlot(0), TurnOff);
    var c3 := Register(c2, CmdSlot(6), SetEffect);
    var c4 := Register(c3, CmdSlot(4), SetBrightness);
    Register(c4, CmdSlot(5), SetColor)
  }

  /** Each application command id dispatches to its own handler. */
  lemma {:induction false} HandlersInstalled(ctx: Context<AppState>)
    ensures RegisterHandlers(ctx).handlers[CmdSlot(1)] == GetInfo
    ensures RegisterHandlers(ctx).handlers[CmdSlot(0)] == TurnOff
    ensures RegisterHandlers(ctx).handlers[CmdSlot(6)] == SetEffect
    ensures RegisterHandlers(ctx).handlers[CmdSlot(4)] == SetBrightness
    ensures RegisterHandlers(ctx).handlers[CmdSlot(5)] == SetColor
  {
  }

  /** app_init: the strips come up black at full brightness (bottom 216
      diodes, upper 90), the mode is TURN_OFF with effect speed 1, and only
      the five application commands have handlers. The strips' calibration
      fields are left as their allocations held them. */
  method AppInit(rawBottom: seq<Byte>, rawUpper: seq<Byte>, unsetBottom: RatioFields, unsetUpper: RatioFields,
                 hasRecvBuf: bool)
    returns (st: AppState, ctx: Context<AppState>)
    requires |rawBottom| == SpiBufLen(BOTTOM_LEDS) && |rawUpper| == SpiBufLen(UPPER_LEDS)
    ensures st.mode == TurnedOff && st.speed == 1 && st.effectTop == 0 && st.effectBottom == 0
    ensures st.bottom.len == BOTTOM_LEDS && st.upper.len == UPPER_LEDS
    ensures forall p :: 0 <= p < BOTTOM_LEDS ==> DecodePixel(st.bottom.buffer, p) == Color(0, 0, 0)
    ensures forall p :: 0 <= p < UPPER_LEDS ==> DecodePixel(st.upper.buffer, p) == Color(0, 0, 0)
    ensures ctx.cfg == STM32_CONFIG && ctx.pending.None? && ctx.recvBufAllocated == hasRecvBuf
    ensures ctx.handlers.Keys == APP_SLOTS && HandleResponse !in ctx.handlers
  {
    var bottom := InitLedStrip(BOTTOM_LEDS, rawBottom, unsetBottom);
    var upper := InitLedStrip(UPPER_LEDS, rawUpper, unsetUpper);
    st := AppData(TurnedOff, 0, 0, 1, 0, 0, upper, bottom);
    ctx := RegisterHandlers(Init(STM32_CONFIG, hasRecvBuf));
  }
}

=== FILE: args_parsing.dfy ===
/** The ambilight client's command-line parser: options are registered with
    a one-character short name, a long name and a type (flag or integer);
    `parse` walks the tokens after the program name and stores each
    option's value under its long name. Values are `unsigned long long`, so
    a negative integer is kept modulo 2^64. A token stands for the
    characters of a C string before its terminator. */
module ArgsParsing {
  import opened Bytes

  type U64 = x: int | 0 <= x < 0x1_0000_0000_0000_0000

  /** The conversion of a C `int` into `unsigned long long`. */
  function ToU64(x: int): U64 {
    x % 0x1_0000_0000_0000_0000
  }

  predicate IsInt32(x: int) {
    -0x8000_0000 <= x < 0x8000_0000
  }

  datatype ArgType = BoolArg | IntArg

  datatype Arg = Arg(shortName: char, longName: string, kind: ArgType)

  /** The parser: the options in registration order, the value of each long
      name, and the text of the last error. */
  datatype ProgramArgs = ProgramArgs(args: seq<Arg>, result: map<string, U64>, error: string)

  const NEW_ARGS: ProgramArgs := ProgramArgs([], map[], "")

  /** Every registered option has a value. */
  predicate Seeded(p: ProgramArgs) {
    forall k :: 0 <= k < |p.args| ==> p.args[k].longName in p.result
  }

  /** addIntParam: the option is appended and its value starts at `init`. */
  function AddIntParam(p: ProgramArgs, shortName: char, longName: string, init: int): (r: ProgramArgs)
    requires IsInt32(init)
    ensures r.args == p.args + [Arg(shortName, longName, IntArg)] && r.error == p.error
    ensures longName in r.result && r.result[longName] == ToU64(init)
    ensures forall name :: name in p.result && name != longName ==> name in r.result && r.result[name] == p.result[name]
    ensures Seeded(p) ==> Seeded(r)
  {
    ProgramArgs(p.args + [Arg(shortName, longName, IntArg)], p.result[longName := ToU64(init)], p.error)
  }

  /** addBoolParam: the option is appended and its value starts at false. */
  function AddBoolParam(p: ProgramArgs, shortName: char, longName: string): (r: ProgramArgs)
    ensures r.args == p.args + [Arg(shortName, longName, BoolArg)] && r.error == p.error
    ensures longName in r.result && r.result[longName] == 0
    ensures forall name :: name in p.result && name != longName ==> name in r.result && r.result[name] == p.result[name]
    ensures Seeded(p) ==> Seeded(r)
  {
    ProgramArgs(p.args + [Arg(shortName, longName, BoolArg)], p.result[longName := 0], p.error)
  }

  // ---------------------------------------------------------------------
  // atoi

  /** The white space `isspace` accepts in the C locale. */
  predicate IsSpace(c: char) {
    c == ' ' || 9 <= c as int <= 13
  }

  predicate IsDigit(c: char) {
    '0' <= c <= '9'
  }

  function DigitValue(c: char): nat
    requires IsDigit(c)
  {
    c as int - '0' as int
  }

  function SkipSpace(s: string): (t: string)
    ensures |t| <= |s| && t == s[|s| - |t|..]
    ensures t == [] || !IsSpace(t[0])
  {
    if |s| > 0 && IsSpace(s[0]) then SkipSpace(s[1..]) else s
  }

  /** The value of the digits at the front of `s`, accumulated onto `acc`;
      the first character that is not a digit ends them. */
  function Digits(s: string, acc: int): int {
    if |s| > 0 && IsDigit(s[0]) then Digits(s[1..], acc * 10 + DigitValue(s[0])) else acc
  }

  /** atoi: leading white space, an optional sign, then the digits up to the
      first other character; no digits give 0. */
  function Atoi(s: string): int {
    var t := SkipSpace(s);
    if |t| > 0 && t[0] == '-' then -Digits(t[1..], 0)
    else if |t| > 0 && t[0] == '+' then Digits(t[1..], 0)
    else Digits(t, 0)
  }

  /** The decimal digits of `n`, most significant first. */
  function Decimal(n: nat): (s: string)
    ensures |s| >= 1 && forall k :: 0 <= k < |s| ==> IsDigit(s[k])
  {
    if n < 10 then [('0' as int + n) as char]
    else Decimal(n / 10) + [('0' as int + n % 10) as char]
  }

  /** The text of an integer value: a minus sign for negatives. */
  function ValueText(v: int): string {
    if v < 0 then "-" + Decimal(-v) else Decimal(v)
  }

  lemma {:induction false} DigitsSnoc(s: string, c: char, acc: int)
    requires forall k :: 0 <= k < |s| ==> IsDigit(s[k])
    requires IsDigit(c)
    ensures Digits(s + [c], acc) == Digits(s, acc) * 10 + DigitValue(c)
    decreases |s|
  {
    if |s| > 0 {
      assert (s + [c])[1..] == s[1..] + [c];
      DigitsSnoc(s[1..], c, acc * 10 + DigitValue(s[0]));
    }
  }

  lemma {:induction false} DigitsOfDecimal(n: nat)
    ensures Digits(Decimal(n), 0) == n
  {
    if n >= 10 {
      var c := ('0' as int + n % 10) as char;
      DigitsOfDecimal(n / 10);
      DigitsSnoc(Decimal(n / 10), c, 0);
    }
  }

  /** atoi reads back the text of every integer. */
  lemma AtoiOfValueText(v: int)
    ensures Atoi(ValueText(v)) == v
  {
    if v < 0 {
      DigitsOfDecimal(-v);
      assert ("-" + Decimal(-v))[1..] == Decimal(-v);
    } else {
      DigitsOfDecimal(v);
    }
  }

  // ---------------------------------------------------------------------
  // Option lookup

  /** The first option at or after `i` whose short name is `c`. */
  function FindShort(args: seq<Arg>, c: char, i: nat): (r: Option<nat>)
    requires i <= |args|
    ensures r.Some? ==> i <= r.value < |args| && args[r.value].shortName == c
                        && forall j :: i <= j < r.value ==> args[j].shortName != c
    ensures r.None? ==> forall j :: i <= j < |args| ==> args[j].shortName != c
    decreases |args| - i
  {
    if i == |args| then None
    else if args[i].shortName == c then Some(i)
    else FindShort(args, c, i + 1)
  }

  /** The first option at or after `i` whose long name is `name`. */
  function FindLong(args: seq<Arg>, name: string, i: nat): (r: Option<nat>)
    requires i <= |args|
    ensures r.Some? ==> i <= r.value < |args| && args[r.value].longName == name
                        && forall j :: i <= j < r.value ==> args[j].longName != name
    ensures r.None? ==> forall j :: i <= j < |args| ==> args[j].longName != name
    decreases |args| - i
  {
    if i == |args| then None
    else if args[i].longName == name then Some(i)
    else FindLong(args, name, i + 1)
  }

  // ---------------------------------------------------------------------
  // parse

  /** Character `k` of a C string: its terminator past the end. */
  function CharAt(s: string, k: nat): char {
    if k < |s| then s[k] else '\0'
  }

  /** The option name in a token: after "--" (or after "/-"), otherwise
      after the first character. */
  function OptionName(tok: string): string
    requires |tok| >= 1
  {
    if CharAt(tok, 1) == '-' then tok[2..] else tok[1..]
  }

  datatype ParseResult = ParseResult(ok: bool, state: ProgramArgs)

  /** What one option does with the tokens after it: a flag is set and
      takes nothing; an integer takes exactly the next token through atoi,
      and fails when there is none. `consumed` is the number taken. */
  datatype Step = Step(ok: bool, state: ProgramArgs, consumed: nat)

  function ParseArgument(p: ProgramArgs, a: Arg, argv: seq<string>, i: nat): (r: Step)
    requires i < |argv|
    ensures r.state.args == p.args && r.consumed <= 1 && i + r.consumed < |argv|
    ensures r.ok ==> r.state.error == p.error && a.longName in r.state.result
    ensures !r.ok ==> r.state.result == p.result
    ensures r.ok ==> forall name :: name in p.result && name != a.longName ==>
                       name in r.state.result && r.state.result[name] == p.result[name]
    ensures r.ok ==> r.state.result.Keys == p.result.Keys + {a.longName}
  {
    match a.kind
    case BoolArg => Step(true, p.(result := p.result[a.longName := 1]), 0)
    case IntArg =>
      if |argv| - i - 1 < 1 then Step(false, p.(error := "Missing parameter for arg " + a.longName), 0)
      else Step(true, p.(result := p.result[a.longName := ToU64(Atoi(argv[i + 1]))]), 1)
  }

  /** The loop of `parse` from token `i` on. Any failure sets the error text
      and stops; values stored by earlier tokens stay. */
  function ParseFrom(p: ProgramArgs, argv: seq<string>, i: nat): (r: ParseResult)
    ensures r.state.args == p.args
    ensures r.ok ==> r.state.error == p.error
    ensures Seeded(p) ==> r.state.result.Keys == p.result.Keys
    decreases |argv| - i
  {
    if i >= |argv| then ParseResult(true, p)
    else
      var tok := argv[i];
      if CharAt(tok, 0) != '-' && CharAt(tok, 0) != '/' then
        ParseResult(false, p.(error := "Unexpected positional argument"))
      else
        var name := OptionName(tok);
        var mustBeShort := CharAt(tok, 0) == '-' && CharAt(tok, 1) != '-';
        if |name| < 1 then ParseResult(false, p.(error := "Missing argument name"))
        else if mustBeShort && |name| > 1 then ParseResult(false, p.(error := "Invalid name for short argument"))
        else
          var found := if |name| == 1 then FindShort(p.args, name[0], 0) else FindLong(p.args, name, 0);
          if found.None? then
            ParseResult(false, p.(error := if |name| == 1 then "Unknown shortNamed argument - " + name
                                          else "Unknown argument - " + name))
          else
            var step := ParseArgument(p, p.args[found.value], argv, i);
            if !step.ok then ParseResult(false, step.state)
            else ParseFrom(step.state, argv, i + 1 + step.consumed)
  }

  /** parse: the tokens after the program name. */
  function Parse(p: ProgramArgs, argv: seq<string>): (r: ParseResult)
    ensures r.state.args == p.args
    ensures r.ok ==> r.state.error == p.error
    ensures Seeded(p) ==> r.state.result.Keys == p.result.Keys
  {
    ParseFrom(p, argv, 1)
  }

  // ---------------------------------------------------------------------
  // The rules, one token at a time

  /** A token that starts with neither '-' nor '/' stops the parse. */
  lemma PositionalRejected(p: ProgramArgs, argv: seq<string>, i: nat)
    requires i < |argv| && CharAt(argv[i], 0) != '-' && CharAt(argv[i], 0) != '/'
    ensures ParseFrom(p, argv, i) == ParseResult(false, p.(error := "Unexpected positional argument"))
  {
  }

  /** A single '-' admits only a one-character name. */
  lemma LongNameAfterSingleDashRejected(p: ProgramArgs, argv: seq<string>, i: nat)
    requires i < |argv| && |argv[i]| >= 3 && argv[i][0] == '-' && argv[i][1] != '-'
    ensures ParseFrom(p, argv, i) == ParseResult(false, p.(error := "Invalid name for short argument"))
  {
  }

  /** "-", "--" and "/" name nothing. */
  lemma EmptyNameRejected(p: ProgramArgs, argv: seq<string>, i: nat)
    requires i < |argv| && argv[i] in ["-", "--", "/"]
    ensures ParseFrom(p, argv, i) == ParseResult(false, p.(error := "Missing argument name"))
  {
  }

  /** A name nobody registered stops the parse. */
  lemma UnknownLongNameRejected(p: ProgramArgs, argv: seq<string>, i: nat, name: string)
    requires i < |argv| && argv[i] == "--" + name && |name| >= 2
    requires forall k :: 0 <= k < |p.args| ==> p.args[k].longName != name
    ensures ParseFrom(p, argv, i) == ParseResult(false, p.(error := "Unknown argument - " + name))
  {
    assert OptionName(argv[i]) == name;
  }

  /** "--name" for a flag sets it and moves to the very next token. The
      option found is the first one registered under that name. */
  lemma FlagStep(p: ProgramArgs, argv: seq<string>, i: nat, name: string, k: nat)
    requires i < |argv| && argv[i] == "--" + name && |name| >= 2
    requires k < |p.args| && p.args[k].longName == name && p.args[k].kind == BoolArg
    requires forall j :: 0 <= j < k ==> p.args[j].longName != name
    ensures ParseFrom(p, argv, i) == ParseFrom(p.(result := p.result[name := 1]), argv, i + 1)
  {
    assert OptionName(argv[i]) == name;
    assert FindLong(p.args, name, 0) == Some(k);
  }

  /** "--name value" for an integer option stores atoi of the value and
      moves past both tokens. */
  lemma IntStep(p: ProgramArgs, argv: seq<string>, i: nat, name: string, k: nat)
    requires i + 1 < |argv| && argv[i] == "--" + name && |name| >= 2
    requires k < |p.args| && p.args[k].longName == name && p.args[k].kind == IntArg
    requires forall j :: 0 <= j < k ==> p.args[j].longName != name
    ensures ParseFrom(p, argv, i) == ParseFrom(p.(result := p.result[name := ToU64(Atoi(argv[i + 1]))]), argv, i + 2)
  {
    assert OptionName(argv[i]) == name;
    assert FindLong(p.args, name, 0) == Some(k);
  }

  lemma FlagTokens(p: ProgramArgs, argv: seq<string>, i: nat, name: string, k: nat, m: map<string, U64>)
    requires i < |argv| && argv[i] == "--" + name && |name| >= 2
    requires k < |p.args| && p.args[k].longName == name && p.args[k].kind == BoolArg
    requires forall j :: 0 <= j < k ==> p.args[j].longName != name
    requires m == p.result[name := 1]
    ensures ParseFrom(p, argv, i) == ParseFrom(p.(result := m), argv, i + 1)
  {
    FlagStep(p, argv, i, name, k);
  }

  lemma ValueTokens(p: ProgramArgs, argv: seq<string>, i: nat, name: string, v: int, k: nat, m: map<string, U64>)
    requires i + 1 < |argv| && argv[i] == "--" + name && argv[i + 1] == ValueText(v) && |name| >= 2
    requires k < |p.args| && p.args[k].longName == name && p.args[k].kind == IntArg
    requires forall j :: 0 <= j < k ==> p.args[j].longName != name
    requires m == p.result[name := ToU64(v)]
    ensures ParseFrom(p, argv, i) == ParseFrom(p.(result := m), argv, i + 2)
  {
    AtoiOfValueText(v);
    IntStep(p, argv, i, name, k);
  }

  /** An integer option as the last token fails for want of a value. */
  lemma IntMissingValue(p: ProgramArgs, argv: seq<string>, name: string, k: nat)
    requires |argv| >= 1 && argv[|argv| - 1] == "--" + name && |name| >= 2
    requires k < |p.args| && p.args[k].longName == name && p.args[k].kind == IntArg
    requires forall j :: 0 <= j < k ==> p.args[j].longName != name
    ensures ParseFrom(p, argv, |argv| - 1) == ParseResult(false, p.(error := "Missing parameter for arg " + name))
  {
    assert OptionName(argv[|argv| - 1]) == name;
    assert FindLong(p.args, name, 0) == Some(k);
  }

  // ---------------------------------------------------------------------
  // A whole command line

  /** One setting on a command line: a flag, or an integer option with its
      value. */
  datatype Setting = Flag(name: string) | Value(name: string, v: int)

  /** The tokens for a list of settings, long-name form. */
  function Render(settings: seq<Setting>): seq<string>
    decreases |settings|
  {
    if settings == [] then []
    else
      RenderOne(settings[0]) + Render(settings[1..])
  }

  /** The values the settings leave, applied in order. */
  function Apply(result: map<string, U64>, settings: seq<Setting>): map<string, U64>
    decreases |settings|
  {
    if settings == [] then result
    else
      Apply(ApplyOne(result, settings[0]), settings[1..])
  }

  /** The value one setting leaves. */
  function ApplyOne(result: map<string, U64>, s: Setting): map<string, U64> {
    match s
    case Flag(name) => result[name := 1]
    case Value(name, v) => result[name := ToU64(v)]
  }

  /** A setting the parser knows: a long name of two characters or more
      whose first registration has the setting's type. */
  predicate Registered(args: seq<Arg>, s: Setting) {
    && |s.name| >= 2
    && var f := FindLong(args, s.name, 0);
       && f.Some?
       && args[f.value].kind == (if s.Flag? then BoolArg else IntArg)
  }

  /** A command line rendered from registered settings parses, and leaves
      exactly the values of the settings, applied in order. */
  lemma {:induction false} RenderParses(p: ProgramArgs, prog: string, settings: seq<Setting>)
    requires forall k :: 0 <= k < |settings| ==> Registered(p.args, settings[k])
    ensures Parse(p, [prog] + Render(settings)) == ParseResult(true, p.(result := Apply(p.result, settings)))
    decreases |settings|
  {
    RenderFrom(p, [prog], settings);
    assert [prog] + Render(settings) + [] == [prog] + Render(settings);
  }

  lemma {:induction false} RenderFrom(p: ProgramArgs, before: seq<string>, settings: seq<Setting>)
    requires forall k :: 0 <= k < |settings| ==> Registered(p.args, settings[k])
    ensures ParseFrom(p, before + Render(settings), |before|) == ParseResult(true, p.(result := Apply(p.result, settings)))
    decreases |settings|
  {
    if settings != [] {
      var s, rest := settings[0], settings[1..];
      var k := FindLong(p.args, s.name, 0).value;
      var toks := RenderOne(s);
      var p' := p.(result := ApplyOne(p.result, s));
      var argv := before + Render(settings);
      Regroup(before, toks, Render(rest), argv);
      RenderFrom(p', before + toks, rest);
      OneSettingStep(p, argv, |before|, s, k);
    }
  }

  lemma Regroup(before: seq<string>, toks: seq<string>, rest: seq<string>, argv: seq<string>)
    requires argv == before + (toks + rest)
    ensures argv == (before + toks) + rest
    ensures argv[|before|..|before| + |toks|] == toks
  {
  }

  /** The tokens of one setting. */
  function RenderOne(s: Setting): seq<string> {
    match s
    case Flag(name) => ["--" + name]
    case Value(name, v) => ["--" + name, ValueText(v)]
  }

  /** The parser takes the tokens of one registered setting and stores its
      value. */
  lemma OneSettingStep(p: ProgramArgs, argv: seq<string>, i: nat, s: Setting, k: nat)
    requires Registered(p.args, s) && k == FindLong(p.args, s.name, 0).value
    requires i + |RenderOne(s)| <= |argv| && argv[i..i + |RenderOne(s)|] == RenderOne(s)
    ensures ParseFrom(p, argv, i) == ParseFrom(p.(result := ApplyOne(p.result, s)), argv, i + |RenderOne(s)|)
  {
    var m := ApplyOne(p.result, s);
    if s.Flag? {
      assert argv[i] == argv[i..i + 1][0];
      FlagTokens(p, argv, i, s.name, k, m);
    } else {
      assert argv[i] == argv[i..i + 2][0] && argv[i + 1] == argv[i..i + 2][1];
      ValueTokens(p, argv, i, s.name, s.v, k, m);
    }
  }
}

=== FILE: bytes.dfy ===
/** Fixed-width unsigned integers and their little-endian byte layout, as the
    packed C structs of the MLF protocol put them on the wire. */
module Bytes {

  type Byte = x: int | 0 <= x < 0x100
  type U16 = x: int | 0 <= x < 0x1_0000
  type U32 = x: int | 0 <= x < 0x1_0000_0000

  datatype Option<+T> = None | Some(value: T)

  /** Truncation of an integer to 8, 16 and 32 bits, as a C cast does. */
  function ToByte(x: int): Byte { x % 0x100 }
  function ToU16(x: int): U16 { x % 0x1_0000 }
  function ToU32(x: int): U32 { x % 0x1_0000_0000 }

  function U16Bytes(x: U16): (r: seq<Byte>)
    ensures |r| == 2
  {
    [x % 0x100, x / 0x100]
  }

  function ReadU16(s: seq<Byte>, off: nat): U16
    requires off + 2 <= |s|
  {
    s[off] as int + 0x100 * s[off + 1] as int
  }

  function U32Bytes(x: U32): (r: seq<Byte>)
    ensures |r| == 4
  {
    [x % 0x100, (x / 0x100) % 0x100, (x / 0x1_0000) % 0x100, x / 0x100_0000]
  }

  function ReadU32(s: seq<Byte>, off: nat): U32
    requires off + 4 <= |s|
  {
    s[off] as int + 0x100 * s[off + 1] as int + 0x1_0000 * s[off + 2] as int
      + 0x100_0000 * s[off + 3] as int
  }

  lemma U16RoundTrip(x: U16)
    ensures ReadU16(U16Bytes(x), 0) == x
  {
  }

  lemma U16BytesOfRead(s: seq<Byte>, off: nat)
    requires off + 2 <= |s|
    ensures U16Bytes(ReadU16(s, off)) == s[off..off + 2]
  {
  }

  lemma U32RoundTrip(x: U32)
    ensures ReadU32(U32Bytes(x), 0) == x
  {
    var b := U32Bytes(x);
    assert x == x % 0x100 + 0x100 * (x / 0x100);
    assert x / 0x100 == (x / 0x100) % 0x100 + 0x100 * (x / 0x1_0000);
    assert x / 0x1_0000 == (x / 0x1_0000) % 0x100 + 0x100 * (x / 0x100_0000);
  }

  lemma U32BytesOfRead(s: seq<Byte>, off: nat)
    requires off + 4 <= |s|
    ensures U32Bytes(ReadU32(s, off)) == s[off..off + 4]
  {
    var a: int, b: int, c: int, d: int := s[off], s[off + 1], s[off + 2], s[off + 3];
    var x := ReadU32(s, off);
    assert x == a + 0x100 * (b + 0x100 * (c + 0x100 * d));
    assert x % 0x100 == a && x / 0x100 == b + 0x100 * (c + 0x100 * d);
    assert (x / 0x100) / 0x100 == c + 0x100 * d;
    assert x / 0x1_0000 == c + 0x100 * d;
    assert x / 0x100_0000 == (x / 0x1_0000) / 0x100 == d;
  }

  /** A caller-provided response buffer and its size word, which holds the
      capacity going in and the true response size coming out. */
  datatype CallerBuffer = CallerBuffer(contents: seq<Byte>, size: nat)

  predicate CallerOk(c: Option<CallerBuffer>) {
    c.Some? ==> c.value.size <= |c.value.contents|
  }

  function Min(a: nat, b: nat): nat { if a <= b then a else b }

  /** The copy-out: min(capacity, received) bytes overwrite the front of the
      caller's buffer and the size word receives the full response size. */
  function CopyOut(c: CallerBuffer, data: seq<Byte>): (r: CallerBuffer)
    requires c.size <= |c.contents|
    ensures |r.contents| == |c.contents| && r.size == |data|
    ensures forall i :: 0 <= i < Min(c.size, |data|) ==> r.contents[i] == data[i]
    ensures forall i :: Min(c.size, |data|) <= i < |c.contents| ==> r.contents[i] == c.contents[i]
  {
    var n := Min(c.size, |data|);
    CallerBuffer(data[..n] + c.contents[n..], |data|)
  }
}

=== FILE: color_effect.dfy ===
/** The bridge's "colour effect" capability: the table between effect names
    and effect ids, the effect the capability holds, and the names it reports
    to the cloud service. The cloud SDK itself is a parameter: whether the
    capability handle exists, and the log of names it was sent. */
module ColorEffect {

  /** The effect ids; `EFFECT_MAX` is the exclusive bound. */
  const EFFECT_NONE: int := 0
  const EFFECT_RAINBOW: int := 1
  const EFFECT_FADING: int := 2
  const EFFECT_STATIC: int := 3
  const EFFECT_PROGRESS_BAR: int := 4
  const EFFECT_MAX: int := 5

  /** The name of each effect, indexed by id. */
  const EFFECT_NAMES: seq<string> := ["none", "rainbow", "fading", "static", "progress"]

  /** The id range the table covers. */
  predicate ValidId(id: int) {
    EFFECT_NONE <= id < EFFECT_MAX
  }

  /** No name appears twice in the table. */
  lemma NamesDistinct()
    ensures |EFFECT_NAMES| == EFFECT_MAX
    ensures forall i, j :: 0 <= i < j < |EFFECT_NAMES| ==> EFFECT_NAMES[i] != EFFECT_NAMES[j]
  {
  }

  /** The first table position at or after `i` holding `name`, or
      EFFECT_NONE when there is none. */
  function FindName(name: string, i: nat): (id: int)
    requires i <= |EFFECT_NAMES|
    ensures ValidId(id)
    ensures (exists k :: i <= k < |EFFECT_NAMES| && EFFECT_NAMES[k] == name) ==>
              i <= id && EFFECT_NAMES[id] == name
              && forall k :: i <= k < id ==> EFFECT_NAMES[k] != name
    ensures (forall k :: i <= k < |EFFECT_NAMES| ==> EFFECT_NAMES[k] != name) ==> id == EFFECT_NONE
    decreases |EFFECT_NAMES| - i
  {
    if i == |EFFECT_NAMES| then EFFECT_NONE
    else if EFFECT_NAMES[i] == name then i
    else FindName(name, i + 1)
  }

  /** effectNameToID: the id of the first exact match, or EFFECT_NONE for an
      unknown name. */
  function NameToId(name: string): (id: int)
    ensures ValidId(id)
    ensures name in EFFECT_NAMES ==> EFFECT_NAMES[id] == name
    ensures name !in EFFECT_NAMES ==> id == EFFECT_NONE
  {
    FindName(name, 0)
  }

  /** effectIDToName: ids outside the table are reported as "none". */
  function IdToName(id: int): (name: string)
    ensures name in EFFECT_NAMES
    ensures ValidId(id) ==> name == EFFECT_NAMES[id]
    ensures !ValidId(id) ==> name == EFFECT_NAMES[EFFECT_NONE]
  {
    if id < EFFECT_NONE || id >= EFFECT_MAX then EFFECT_NAMES[EFFECT_NONE] else EFFECT_NAMES[id]
  }

  /** Every id of the table survives the trip through its name. */
  lemma IdNameRoundTrip(id: int)
    requires ValidId(id)
    ensures NameToId(IdToName(id)) == id
  {
    NamesDistinct();
  }

  /** Every name of the table survives the trip through its id. */
  lemma NameIdRoundTrip(name: string)
    requires name in EFFECT_NAMES
    ensures IdToName(NameToId(name)) == name
  {
  }

  /** An id outside the table is reported as the name of EFFECT_NONE, which
      reads back as EFFECT_NONE, not as the id that was stored. */
  lemma OutOfRangeIdReadsBackAsNone(id: int)
    requires !ValidId(id)
    ensures NameToId(IdToName(id)) == EFFECT_NONE
  {
  }

  /** The capability: the effect it holds (a C `int`, stored unchecked),
      whether its cloud handle was created, and the names sent so far. */
  datatype Caps = Caps(effect: int, hasHandle: bool, sent: seq<string>)

  /** Everything the capability ever reported is a name of the table. */
  predicate SentValid(c: Caps) {
    forall k :: 0 <= k < |c.sent| ==> c.sent[k] in EFFECT_NAMES
  }

  /** The constructor: effect NONE, nothing sent yet. */
  function NewCaps(hasHandle: bool): (c: Caps)
    ensures c.effect == EFFECT_NONE && c.hasHandle == hasHandle && c.sent == []
    ensures SentValid(c)
  {
    Caps(EFFECT_NONE, hasHandle, [])
  }

  /** sendEffectToServer: the name of the held effect goes out, clamped to
      the table; without a handle nothing is sent. */
  function SendEffect(c: Caps): (r: Caps)
    ensures r.effect == c.effect && r.hasHandle == c.hasHandle
    ensures c.hasHandle ==> |r.sent| == |c.sent| + 1 && r.sent[..|c.sent|] == c.sent
                            && r.sent[|c.sent|] == IdToName(c.effect)
    ensures !c.hasHandle ==> r == c
    ensures SentValid(c) ==> SentValid(r)
  {
    if !c.hasHandle then c else c.(sent := c.sent + [IdToName(c.effect)])
  }

  /** setEffect(int): the raw value is stored without a range check; only the
      reported name is clamped. */
  function SetEffectId(c: Caps, value: int): (r: Caps)
    requires -0x8000_0000 <= value < 0x8000_0000
    ensures r.effect == value && r.hasHandle == c.hasHandle
    ensures c.hasHandle ==> r.sent == c.sent + [IdToName(value)]
    ensures SentValid(c) ==> SentValid(r)
  {
    SendEffect(c.(effect := value))
  }

  /** setEffect(name): the name is looked up in the table first. */
  function SetEffectName(c: Caps, name: string): (r: Caps)
    ensures ValidId(r.effect) && r.hasHandle == c.hasHandle
    ensures name in EFFECT_NAMES ==> IdToName(r.effect) == name
    ensures c.hasHandle ==> r.sent == c.sent + [IdToName(r.effect)]
    ensures SentValid(c) ==> SentValid(r)
  {
    SendEffect(c.(effect := NameToId(name)))
  }

  /** An argument of a cloud command; only its type matters here. */
  datatype CmdValue = StringValue(s: string) | OtherValue

  /** handler_cmd: only "setEffect" with exactly one string argument changes
      the effect (to the id of that name) and reports it; any other command
      or argument list leaves the capability as it was. The application
      callback the handler also calls is not part of this model. */
  function HandleCmd(c: Caps, cmd: string, args: seq<CmdValue>): (r: Caps)
    ensures (cmd == "setEffect" && |args| == 1 && args[0].StringValue?) ==>
              && r.effect == NameToId(args[0].s)
              && (c.hasHandle ==> r.sent == c.sent + [IdToName(r.effect)])
    ensures !(cmd == "setEffect" && |args| == 1 && args[0].StringValue?) ==> r == c
    ensures SentValid(c) ==> SentValid(r)
  {
    if cmd != "setEffect" then c
    else if |args| != 1 || !args[0].StringValue? then c
    else SendEffect(c.(effect := NameToId(args[0].s)))
  }

  /** handler_init: the held effect is reported. */
  function HandleInit(c: Caps): (r: Caps)
    ensures r.effect == c.effect
    ensures c.hasHandle ==> r.sent == c.sent + [IdToName(c.effect)]
    ensures SentValid(c) ==> SentValid(r)
  {
    SendEffect(c)
  }

  /** A well-formed command naming an effect of the table sets exactly that
      effect, and the name reported back is the one received. */
  lemma SetEffectCommandEchoes(c: Caps, name: string)
    requires name in EFFECT_NAMES && c.hasHandle
    ensures var r := HandleCmd(c, "setEffect", [StringValue(name)]);
      && ValidId(r.effect) && EFFECT_NAMES[r.effect] == name
      && r.sent == c.sent + [name]
  {
  }

  /** An unknown name in a well-formed command selects EFFECT_NONE. */
  lemma UnknownNameSelectsNone(c: Caps, name: string)
    requires name !in EFFECT_NAMES
    ensures HandleCmd(c, "setEffect", [StringValue(name)]).effect == EFFECT_NONE
  {
  }
}

=== FILE: dispatcher.dfy ===
/** The protocol context of the firmware (MLF_submit_packet,
    MLF_process_packet, MLF_register_callback, MLF_resp_error, MLF_resp_data,
    MLF_SendCmd): a single-slot mailbox, a handler table indexed by command,
    and outbound framing with a bounded busy-retry. */
module Dispatcher {
  import opened Bytes
  import opened Wire
  import opened Reassembler

  /** What the transport's write function reports for one attempt. */
  datatype WriteResult = WriteOk | WriteBusy | WriteError(code: int)

  /** The transport, as the result it gives to the n-th write attempt. */
  type Transport = nat -> WriteResult

  datatype SendOutcome =
    | Sent        // a write returned OK
    | GaveUpBusy  // every attempt of the budget returned BUSY
    | Failed      // a write returned an error other than BUSY
    | Dropped     // the frame does not fit the output buffer; nothing written

  datatype Transmission = Transmission(frame: seq<Byte>, attempts: nat, outcome: SendOutcome)

  /** The busy-retry loop (`while(delay--)`), from attempt `i` on: stop on OK,
      abandon on a non-BUSY error, retry on BUSY until the budget is spent.
      Returns the number of attempts made and how the loop ended. */
  function RetryFrom(transport: Transport, i: nat, budget: nat): (r: (nat, SendOutcome))
    requires i <= budget
    ensures i <= r.0 <= budget
    ensures r.1 in {Sent, GaveUpBusy, Failed}
    ensures forall j :: i <= j < r.0 - 1 ==> transport(j) == WriteBusy
    ensures r.1 == Sent ==> r.0 > i && transport(r.0 - 1) == WriteOk
    ensures r.1 == Failed ==> r.0 > i && transport(r.0 - 1).WriteError?
    ensures r.1 == GaveUpBusy ==> r.0 == budget && forall j :: i <= j < budget ==> transport(j) == WriteBusy
    decreases budget - i
  {
    if i == budget then (budget, GaveUpBusy)
    else match transport(i)
      case WriteOk => (i + 1, Sent)
      case WriteError(_) => (i + 1, Failed)
      case WriteBusy => RetryFrom(transport, i + 1, budget)
  }

  /** The write loop as the firmware runs it, with the attempt counter
      counting down like `delay`. */
  method WriteWithRetry(transport: Transport, budget: nat) returns (attempts: nat, outcome: SendOutcome)
    ensures attempts <= budget
    ensures forall j :: 0 <= j < attempts - 1 ==> transport(j) == WriteBusy
    ensures outcome == Sent <==> attempts > 0 && transport(attempts - 1) == WriteOk
    ensures outcome == Failed <==> attempts > 0 && transport(attempts - 1).WriteError?
    ensures outcome == GaveUpBusy <==> forall j :: 0 <= j < budget ==> transport(j) == WriteBusy
    ensures outcome == GaveUpBusy ==> attempts == budget
    ensures outcome != Dropped
    ensures (attempts, outcome) == RetryFrom(transport, 0, budget)
  {
    var delay := budget;
    attempts := 0;
    outcome := GaveUpBusy;
    while delay > 0
      invariant attempts + delay == budget
      invariant forall j :: 0 <= j < attempts ==> transport(j) == WriteBusy
      invariant RetryFrom(transport, attempts, budget) == RetryFrom(transport, 0, budget)
    {
      delay := delay - 1;
      var ret := transport(attempts);
      attempts := attempts + 1;
      if ret == WriteOk {
        outcome := Sent;
        return;
      } else if ret != WriteBusy {
        outcome := Failed;
        return;
      }
    }
  }

  /** The recursive definition gives up exactly when the whole budget was
      BUSY: a non-BUSY attempt always ends the retries. */
  lemma RetryGivesUpIffAllBusy(transport: Transport, budget: nat)
    ensures var r := RetryFrom(transport, 0, budget);
      (r.1 == GaveUpBusy <==> forall j :: 0 <= j < budget ==> transport(j) == WriteBusy)
  {
    var r := RetryFrom(transport, 0, budget);
    if r.1 != GaveUpBusy {
      assert transport(r.0 - 1) != WriteBusy;
    }
  }

  /** Largest response payload a handler can produce (`uint8_t response[64]`). */
  const RESPONSE_CAPACITY: nat := 64
  type ResponseBytes = s: seq<Byte> | |s| <= RESPONSE_CAPACITY

  /** Framing of a response: the generation's response magic, the status,
      the payload, and a footer whose CRC (USB generation only) covers header
      and payload. */
  function ResponseFrame(cfg: Config, crc: seq<Byte> -> U32, status: Status, payload: seq<Byte>): (r: seq<Byte>)
    requires |payload| < 0x1_0000
    ensures |r| == HEADER_SIZE + |payload| + FOOTER_SIZE
    ensures DecodeHeader(r) == Header(cfg.respMagic, status.Code(), |payload|)
    ensures r[HEADER_SIZE..HEADER_SIZE + |payload|] == payload
    ensures DecodeFooter(r, HEADER_SIZE + |payload|) ==
      Footer(FooterCrc(cfg, crc, r[..HEADER_SIZE + |payload|]), FOOTER_MAGIC)
  {
    var h := EncodeHeader(Header(cfg.respMagic, status.Code(), |payload|));
    var c := FooterCrc(cfg, crc, h + payload);
    SerializeFrameParts(cfg.respMagic, status.Code(), payload, c);
    var r := SerializeFrame(cfg.respMagic, status.Code(), payload, c);
    assert r[..HEADER_SIZE + |payload|] == h + payload;
    r
  }

  /** MLF_resp_error: an empty response carrying `code`, written once; the
      caller may run in interrupt context, so a failed write is not retried. */
  function RespError(cfg: Config, crc: seq<Byte> -> U32, code: Status, transport: Transport): (t: Transmission)
    ensures t.frame == ResponseFrame(cfg, crc, code, [])
    ensures t.attempts == 1
    ensures t.outcome == Sent <==> transport(0) == WriteOk
    ensures t.outcome != Sent ==> t.outcome == Failed
  {
    Transmission(ResponseFrame(cfg, crc, code, []), 1, if transport(0) == WriteOk then Sent else Failed)
  }

  /** A frame that exceeds the generation's output buffer is not sent. */
  predicate TooLargeToSend(cfg: Config, frameSize: nat) {
    cfg.maxOutput.Some? && frameSize > cfg.maxOutput.value
  }

  /** MLF_resp_data: frame the response and write it with busy-retry. */
  function RespData(cfg: Config, crc: seq<Byte> -> U32, status: Status, payload: seq<Byte>, transport: Transport): (t: Transmission)
    requires |payload| < 0x1_0000
    ensures t.frame == ResponseFrame(cfg, crc, status, payload)
    ensures t.outcome == Dropped <==> TooLargeToSend(cfg, |t.frame|)
    ensures t.outcome == Dropped ==> t.attempts == 0
    ensures t.attempts <= cfg.retryBudget
    ensures t.outcome == Sent ==> t.attempts > 0 && transport(t.attempts - 1) == WriteOk
    ensures t.outcome != Dropped ==> (t.attempts, t.outcome) == RetryFrom(transport, 0, cfg.retryBudget)
  {
    var frame := ResponseFrame(cfg, crc, status, payload);
    if TooLargeToSend(cfg, |frame|) then Transmission(frame, 0, Dropped)
    else
      var (n, outcome) := RetryFrom(transport, 0, cfg.retryBudget);
      Transmission(frame, n, outcome)
  }

  /** MLF_SendCmd (UART generation): a request frame with the request magic
      and a zero CRC field, bounded in size and sent with busy-retry. */
  function SendCmd(cfg: Config, cmd: Byte, data: seq<Byte>, transport: Transport): (t: Transmission)
    requires |data| < 0x1_0000
    ensures t.frame == SerializeFrame(HEADER_MAGIC, cmd, data, 0)
    ensures t.outcome == Dropped <==> TooLargeToSend(cfg, HEADER_SIZE + |data| + FOOTER_SIZE)
    ensures t.attempts <= cfg.retryBudget
    ensures t.outcome == Sent ==> t.attempts > 0 && transport(t.attempts - 1) == WriteOk
    ensures t.outcome != Dropped ==> (t.attempts, t.outcome) == RetryFrom(transport, 0, cfg.retryBudget)
  {
    var frame := SerializeFrame(HEADER_MAGIC, cmd, data, 0);
    if TooLargeToSend(cfg, |frame|) then Transmission(frame, 0, Dropped)
    else
      var (n, outcome) := RetryFrom(transport, 0, cfg.retryBudget);
      Transmission(frame, n, outcome)
  }

  // ---------------------------------------------------------------------
  // Handlers and the context

  /** A handler's result: the new application state, a status, and the
      response payload. */
  datatype Reply<+S> = Reply(state: S, status: Status, response: ResponseBytes)

  /** A command handler sees the application state and the request payload. */
  type Handler<!S> = (S, seq<Byte>) -> Reply<S>

  /** Slots of the handler table: one per command id, plus the slot of the
      UART generation that receives inbound responses. */
  datatype Slot = CmdSlot(id: Byte) | HandleResponse

  datatype Context<!S> = Context(
    cfg: Config,
    recvBufAllocated: bool,         // MLF_init obtained the receive buffer
    pending: Option<seq<Byte>>,     // new_data_available + recv_packet_buf
    handlers: map<Slot, Handler<S>>)

  function Init<S>(cfg: Config, hasRecvBuf: bool): (ctx: Context<S>)
    ensures ctx.pending.None? && ctx.handlers == map[]
  {
    Context(cfg, hasRecvBuf, None, map[])
  }

  /** Frames in the mailbox are ones the reassembler completed. */
  predicate CtxInv<S>(ctx: Context<S>) {
    ctx.pending.Some? ==> CompleteFrame(ctx.cfg, ctx.pending.value)
  }

  /** MLF_register_callback: the last registration for a slot wins. */
  function Register<S>(ctx: Context<S>, slot: Slot, h: Handler<S>): (r: Context<S>)
    ensures r.handlers.Keys == ctx.handlers.Keys + {slot}
    ensures r.handlers[slot] == h
    ensures r.pending == ctx.pending && r.cfg == ctx.cfg && r.recvBufAllocated == ctx.recvBufAllocated
  {
    ctx.(handlers := ctx.handlers[slot := h])
  }

  /** Registering one slot leaves every other slot's handler alone. */
  lemma RegisterKeeps<S>(ctx: Context<S>, slot: Slot, h: Handler<S>, s: Slot)
    requires s in ctx.handlers && s != slot
    ensures s in Register(ctx, slot, h).handlers && Register(ctx, slot, h).handlers[s] == ctx.handlers[s]
  {
  }

  lemma LastRegistrationWins<S>(ctx: Context<S>, slot: Slot, h1: Handler<S>, h2: Handler<S>)
    ensures Register(Register(ctx, slot, h1), slot, h2).handlers[slot] == h2
    ensures Register(Register(ctx, slot, h1), slot, h2).handlers == Register(ctx, slot, h2).handlers
  {
  }

  /** MLF_submit_packet: a no-op without a receive buffer; drops the frame
      while one is pending; otherwise stores it (at most the buffer size). */
  function Submit<S>(ctx: Context<S>, frame: seq<Byte>): (r: Context<S>)
    ensures !ctx.recvBufAllocated || ctx.pending.Some? ==> r == ctx
    ensures ctx.recvBufAllocated && ctx.pending.None? && |frame| <= PACKET_BUFFER_MAX_SIZE ==>
              r == ctx.(pending := Some(frame))
    ensures r.handlers == ctx.handlers && r.cfg == ctx.cfg
  {
    if !ctx.recvBufAllocated || ctx.pending.Some? then ctx
    else if |frame| > PACKET_BUFFER_MAX_SIZE then ctx.(pending := Some(frame[..PACKET_BUFFER_MAX_SIZE]))
    else ctx.(pending := Some(frame))
  }

  /** The payload of a completed frame, as its header declares it. */
  function Payload(f: seq<Byte>): (p: seq<Byte>)
    requires |f| >= HEADER_SIZE && |f| >= FrameLength(f)
    ensures |p| == DecodeHeader(f).dataSize
  {
    f[HEADER_SIZE..HEADER_SIZE + ReadU16(f, 5)]
  }

  predicate IsInboundResponse(cfg: Config, h: Header) {
    cfg.acceptResponses && h.magic == cfg.respMagic
  }

  datatype ProcessResult<!S> = ProcessResult(ctx: Context<S>, state: S, out: Option<Transmission>)

  /** MLF_process_packet. */
  function Process<S>(ctx: Context<S>, st: S, crc: seq<Byte> -> U32, transport: Transport): (r: ProcessResult<S>)
    requires CtxInv(ctx)
    ensures ctx.pending.None? ==> r == ProcessResult(ctx, st, None)
    ensures r.ctx == ctx.(pending := None)
    ensures ctx.pending.Some? && IsInboundResponse(ctx.cfg, DecodeHeader(ctx.pending.value)) ==> r.out.None?
    ensures ctx.pending.Some? && !IsInboundResponse(ctx.cfg, DecodeHeader(ctx.pending.value)) ==> r.out.Some?
  {
    match ctx.pending
    case None => ProcessResult(ctx, st, None)
    case Some(f) =>
      var hdr := DecodeHeader(f);
      var payload := Payload(f);
      if IsInboundResponse(ctx.cfg, hdr) then
        var st' := if HandleResponse in ctx.handlers then ctx.handlers[HandleResponse](st, payload).state else st;
        ProcessResult(ctx.(pending := None), st', None)
      else
        var reply :=
          if CmdSlot(hdr.selector) in ctx.handlers then ctx.handlers[CmdSlot(hdr.selector)](st, payload)
          else Reply(st, NotReady, []);
        ProcessResult(ctx.(pending := None), reply.state,
                      Some(RespData(ctx.cfg, crc, reply.status, reply.response, transport)))
  }

  /** A request whose command has no handler is answered with NOT_READY and
      an empty payload, and the application state is untouched. */
  lemma UnregisteredCommandNotReady<S>(ctx: Context<S>, st: S, crc: seq<Byte> -> U32, transport: Transport)
    requires CtxInv(ctx) && ctx.pending.Some?
    requires !IsInboundResponse(ctx.cfg, DecodeHeader(ctx.pending.value))
    requires CmdSlot(DecodeHeader(ctx.pending.value).selector) !in ctx.handlers
    ensures var r := Process(ctx, st, crc, transport);
      && r.state == st
      && r.out == Some(RespData(ctx.cfg, crc, NotReady, [], transport))
      && DecodeHeader(r.out.value.frame).selector == NotReady.Code()
  {
  }

  /** A registered handler gets the frame's payload, and its status and
      response are what is framed back to the host. */
  lemma RegisteredCommandAnswered<S>(ctx: Context<S>, st: S, crc: seq<Byte> -> U32, transport: Transport)
    requires CtxInv(ctx) && ctx.pending.Some?
    requires !IsInboundResponse(ctx.cfg, DecodeHeader(ctx.pending.value))
    requires CmdSlot(DecodeHeader(ctx.pending.value).selector) in ctx.handlers
    ensures var f := ctx.pending.value;
      var reply := ctx.handlers[CmdSlot(DecodeHeader(f).selector)](st, Payload(f));
      var r := Process(ctx, st, crc, transport);
      && r.state == reply.state
      && r.out.Some?
      && DecodeHeader(r.out.value.frame) == Header(ctx.cfg.respMagic, reply.status.Code(), |reply.response|)
      && r.out.value.frame[HEADER_SIZE..HEADER_SIZE + |reply.response|] == reply.response
  {
  }

  /** Mailbox at-most-one: a second frame submitted before processing is
      dropped, and the first is dispatched intact. */
  lemma MailboxKeepsFirst<S>(ctx: Context<S>, f1: seq<Byte>, f2: seq<Byte>, st: S, crc: seq<Byte> -> U32, transport: Transport)
    requires ctx.recvBufAllocated && ctx.pending.None?
    requires CompleteFrame(ctx.cfg, f1)
    ensures Submit(Submit(ctx, f1), f2) == Submit(ctx, f1)
    ensures Submit(ctx, f1).pending == Some(f1)
    ensures Process(Submit(Submit(ctx, f1), f2), st, crc, transport)
         == Process(ctx.(pending := Some(f1)), st, crc, transport)
  {
  }

  // ---------------------------------------------------------------------
  // Receive path: the reassembler feeding the mailbox

  datatype ReceiveResult<!S> = ReceiveResult(ctx: Context<S>, buffer: PacketBuffer, out: Option<Transmission>)

  /** One transport chunk: append it, send an error reply for a rejected
      frame, or hand a completed frame to the mailbox. */
  function Receive<S>(ctx: Context<S>, pkt: PacketBuffer, chunk: seq<Byte>, now: U32,
                      crc: seq<Byte> -> U32, transport: Transport): (r: ReceiveResult<S>)
    ensures r.buffer == Append(ctx.cfg, pkt, chunk, now).buffer
    ensures r.ctx.handlers == ctx.handlers && r.ctx.cfg == ctx.cfg
    ensures r.out.Some? <==> Append(ctx.cfg, pkt, chunk, now).event.ErrorReply?
  {
    var a := Append(ctx.cfg, pkt, chunk, now);
    match a.event
    case Quiet => ReceiveResult(ctx, a.buffer, None)
    case ErrorReply(code) => ReceiveResult(ctx, a.buffer, Some(RespError(ctx.cfg, crc, code, transport)))
    case Submitted(f) => ReceiveResult(Submit(ctx, f), a.buffer, None)
  }

  /** Receiving keeps both the buffer and the mailbox invariants. */
  lemma ReceivePreservesInv<S>(ctx: Context<S>, pkt: PacketBuffer, chunk: seq<Byte>, now: U32,
                               crc: seq<Byte> -> U32, transport: Transport)
    requires CtxInv(ctx) && Inv(ctx.cfg, pkt)
    ensures var r := Receive(ctx, pkt, chunk, now, crc, transport);
      CtxInv(r.ctx) && Inv(ctx.cfg, r.buffer)
  {
    AppendPreservesInv(ctx.cfg, pkt, chunk, now);
  }

  /** An error reply carries the error code, the generation's response magic
      and no payload. */
  lemma ErrorReplyShape<S>(ctx: Context<S>, pkt: PacketBuffer, chunk: seq<Byte>, now: U32,
                           crc: seq<Byte> -> U32, transport: Transport)
    requires Append(ctx.cfg, pkt, chunk, now).event.ErrorReply?
    ensures var r := Receive(ctx, pkt, chunk, now, crc, transport);
      && r.out.Some?
      && DecodeHeader(r.out.value.frame) ==
           Header(ctx.cfg.respMagic, Append(ctx.cfg, pkt, chunk, now).event.code.Code(), 0)
      && r.out.value.attempts == 1
  {
  }
}

=== FILE: hostio.dfy ===
/** The host libraries' view of the serial device: the bytes the controller
    sends, the return values of successive `read` calls, and the bytes
    written so far. A read call returning n > 0 delivers the next bytes of
    the input, at most as many as were asked for. `errnoText` is what
    strerror reports for the errno a failing read call leaves behind. */
module HostIo {
  import opened Bytes
  import opened Wire

  datatype Device = Device(input: seq<Byte>, calls: seq<int>, output: seq<Byte>, errnoText: string)

  /** How a host-side exchange ends: with a value, with an exception whose
      text is `message`, or not within the read calls the device lists. */
  datatype Io<T> = Done(value: T, dev: Device) | Thrown(message: string) | Incomplete

  /** The bytes one read call delivers when `want` bytes are still wanted. */
  function Delivered(ret: int, want: nat, available: nat): (k: nat)
    requires ret >= 0
    ensures k <= want && k <= available && k <= ret
    ensures ret > 0 && want > 0 && available > 0 ==> k > 0
  {
    Min(Min(ret, want), available)
  }

  /** `value` is the first `len` bytes of the input, `after` is the device
      with them consumed, nothing was written, and `after` has a suffix of
      the read calls left. */
  predicate ReadTaken(d: Device, len: nat, value: seq<Byte>, after: Device) {
    && len <= |d.input| && value == d.input[..len] && after.input == d.input[len..]
    && after.output == d.output && after.errnoText == d.errnoText && |after.calls| <= |d.calls|
    && after.calls == d.calls[|d.calls| - |after.calls|..]
  }

  /** The `_read` loop: keep reading until `len` bytes are in. A negative
      return throws `errMsg`; a zero return throws `timeoutMsg` when
      `zeroIsTimeout`, and is otherwise retried. */
  function ReadExact(d: Device, len: nat, zeroIsTimeout: bool, errMsg: string, timeoutMsg: string): (r: Io<seq<Byte>>)
    ensures r.Done? ==> ReadTaken(d, len, r.value, r.dev)
    ensures r.Thrown? ==> r.message == errMsg || (zeroIsTimeout && r.message == timeoutMsg)
    ensures len == 0 ==> r == Done([], d)
    decreases |d.calls|
  {
    if len == 0 then Done([], d)
    else if d.calls == [] then Incomplete
    else
      var ret := d.calls[0];
      var rest := d.(calls := d.calls[1..]);
      if ret < 0 then Thrown(errMsg)
      else
        var k := Delivered(ret, len, |d.input|);
        if k == 0 && zeroIsTimeout then Thrown(timeoutMsg)
        else
          match ReadExact(rest.(input := d.input[k..]), len - k, zeroIsTimeout, errMsg, timeoutMsg)
          case Done(b, d2) =>
            JoinRead(d, k, len, b, d2);
            Done(d.input[..k] + b, d2)
          case Thrown(m) => Thrown(m)
          case Incomplete => Incomplete
  }

  /** A read of `k` bytes followed by a completed read of the other
      `len - k` is a completed read of `len` bytes. */
  lemma JoinRead(d: Device, k: nat, len: nat, b: seq<Byte>, d2: Device)
    requires d.calls != [] && k <= len && k <= |d.input|
    requires ReadTaken(d.(calls := d.calls[1..], input := d.input[k..]), len - k, b, d2)
    ensures ReadTaken(d, len, d.input[..k] + b, d2)
  {
    SplitRead(d.input, k, len);
    SuffixOfTail(d.calls, d2.calls);
  }

  lemma SplitRead(s: seq<Byte>, k: nat, len: nat)
    requires k <= len <= |s|
    ensures s[..k] + s[k..][..len - k] == s[..len]
    ensures s[k..][len - k..] == s[len..]
  {
    assert s[k..][..len - k] == s[k..len];
  }

  lemma SuffixOfTail(calls: seq<int>, t: seq<int>)
    requires calls != [] && |t| <= |calls| - 1
    requires t == calls[1..][|calls| - 1 - |t|..]
    ensures t == calls[|calls| - |t|..]
  {
  }

  /** The device answers: it holds at least `n` bytes and at least `n` read
      calls, each of which returns something. */
  predicate Responsive(d: Device, n: nat) {
    && |d.input| >= n
    && |d.calls| >= n
    && forall i :: 0 <= i < |d.calls| ==> d.calls[i] >= 1
  }

  /** On a responsive device the loop completes, whatever the chunking, and
      uses at most one call per byte. */
  lemma {:induction false} ReadCompletes(d: Device, len: nat, zeroIsTimeout: bool, errMsg: string, timeoutMsg: string)
    requires Responsive(d, len)
    ensures var r := ReadExact(d, len, zeroIsTimeout, errMsg, timeoutMsg);
      r.Done? && |r.dev.calls| >= |d.calls| - len
    decreases |d.calls|
  {
    if len > 0 {
      var ret := d.calls[0];
      assert ret >= 1;
      var k := Delivered(ret, len, |d.input|);
      var next := d.(calls := d.calls[1..], input := d.input[k..]);
      ResponsiveTail(d, len, k);
      ReadCompletes(next, len - k, zeroIsTimeout, errMsg, timeoutMsg);
      ReadStep(d, len, zeroIsTimeout, errMsg, timeoutMsg);
      var tail := ReadExact(next, len - k, zeroIsTimeout, errMsg, timeoutMsg).dev.calls;
      assert ReadExact(d, len, zeroIsTimeout, errMsg, timeoutMsg).dev.calls == tail;
      assert |tail| >= |d.calls| - 1 - (len - k) && k >= 1;
    }
  }

  /** A responsive device stays responsive for the rest once one read call
      has delivered `k` bytes. */
  lemma ResponsiveTail(d: Device, len: nat, k: nat)
    requires Responsive(d, len) && 1 <= k <= len
    ensures Responsive(d.(calls := d.calls[1..], input := d.input[k..]), len - k)
  {
    var next := d.(calls := d.calls[1..], input := d.input[k..]);
    forall i | 0 <= i < |next.calls|
      ensures next.calls[i] >= 1
    {
      assert next.calls[i] == d.calls[i + 1];
    }
  }

  /** One positive read call: the loop finishes as the rest of it does,
      with the remaining calls. */
  lemma ReadStep(d: Device, len: nat, zeroIsTimeout: bool, errMsg: string, timeoutMsg: string)
    requires len > 0 && d.calls != [] && d.calls[0] >= 1 && d.input != []
    ensures var k := Delivered(d.calls[0], len, |d.input|);
      var r := ReadExact(d.(calls := d.calls[1..], input := d.input[k..]), len - k, zeroIsTimeout, errMsg, timeoutMsg);
      r.Done? ==> && ReadExact(d, len, zeroIsTimeout, errMsg, timeoutMsg).Done?
                  && ReadExact(d, len, zeroIsTimeout, errMsg, timeoutMsg).dev == r.dev
  {
  }

  /** After a completed read the device is still responsive for the rest. */
  lemma ResponsiveAfterRead(d: Device, len: nat, more: nat, zeroIsTimeout: bool, errMsg: string, timeoutMsg: string)
    requires Responsive(d, len + more)
    ensures var r := ReadExact(d, len, zeroIsTimeout, errMsg, timeoutMsg);
      r.Done? && Responsive(r.dev, more)
  {
    ReadCompletes(d, len, zeroIsTimeout, errMsg, timeoutMsg);
    var r := ReadExact(d, len, zeroIsTimeout, errMsg, timeoutMsg);
    PositiveSuffix(d.calls, r.dev.calls);
  }

  /** A suffix of a list of positive read returns is positive too. */
  lemma PositiveSuffix(calls: seq<int>, t: seq<int>)
    requires |t| <= |calls| && t == calls[|calls| - |t|..]
    requires forall i :: 0 <= i < |calls| ==> calls[i] >= 1
    ensures forall i :: 0 <= i < |t| ==> t[i] >= 1
  {
    var off := |calls| - |t|;
    forall i | 0 <= i < |t|
      ensures t[i] >= 1
    {
      assert t[i] == calls[off + i];
    }
  }

  /** `_write`: the whole packet reaches the device. */
  function WriteAll(d: Device, bytes: seq<Byte>): (r: Device)
    ensures r.output == d.output + bytes && r.input == d.input && r.calls == d.calls
    ensures r.errnoText == d.errnoText
  {
    d.(output := d.output + bytes)
  }

  /** The error texts a library uses while receiving a frame. */
  datatype RecvTexts = RecvTexts(readFailed: string, readTimeout: string, badHeader: string, badFooter: string)

  /** The texts a read may throw. */
  function ReadTexts(t: RecvTexts, zeroIsTimeout: bool): set<string> {
    if zeroIsTimeout then {t.readFailed, t.readTimeout} else {t.readFailed}
  }

  /** The input starts with a whole frame carrying `magic`: header, the
      declared payload, and a footer with the footer magic. */
  predicate FrameAt(s: seq<Byte>, magic: U32) {
    && |s| >= HEADER_SIZE
    && |s| >= HEADER_SIZE + ReadU16(s, 5) + FOOTER_SIZE
    && DecodeHeader(s).magic == magic
    && DecodeFooter(s, HEADER_SIZE + ReadU16(s, 5)).magic == FOOTER_MAGIC
  }

  /** The part of a frame after its header: `ds` payload bytes, then a
      footer whose magic is checked and whose CRC field is not looked at. */
  function RecvBody(d: Device, ds: nat, zeroIsTimeout: bool, t: RecvTexts): (r: Io<seq<Byte>>)
    ensures r.Thrown? ==> r.message in ReadTexts(t, zeroIsTimeout) + {t.badFooter}
    ensures r.Done? ==> && |d.input| >= ds + FOOTER_SIZE
                        && DecodeFooter(d.input, ds).magic == FOOTER_MAGIC
                        && r.value == d.input[..ds]
                        && r.dev == d.(input := d.input[ds + FOOTER_SIZE..], calls := r.dev.calls)
  {
    match ReadExact(d, ds, zeroIsTimeout, t.readFailed, t.readTimeout)
    case Thrown(m) => Thrown(m)
    case Incomplete => Incomplete
    case Done(payload, d2) =>
      match ReadExact(d2, FOOTER_SIZE, zeroIsTimeout, t.readFailed, t.readTimeout)
      case Thrown(m) => Thrown(m)
      case Incomplete => Incomplete
      case Done(fb, d3) =>
        if DecodeFooter(fb, 0).magic != FOOTER_MAGIC then Thrown(t.badFooter)
        else
          BodySlices(d.input, ds);
          Done(payload, d3)
  }

  lemma BodySlices(s: seq<Byte>, ds: nat)
    requires |s| >= ds + FOOTER_SIZE
    ensures DecodeFooter(s[ds..][..FOOTER_SIZE], 0) == DecodeFooter(s, ds)
    ensures s[ds..][FOOTER_SIZE..] == s[ds + FOOTER_SIZE..]
  {
    assert s[ds..][..FOOTER_SIZE] == s[ds..ds + FOOTER_SIZE];
  }

  /** The input started with a whole frame carrying `magic`; `value` is its
      header and payload, and `after` is the device with the frame consumed
      (only the remaining read calls differ otherwise). */
  predicate FrameTaken(d: Device, magic: U32, value: (Header, seq<Byte>), after: Device) {
    && FrameAt(d.input, magic)
    && var ds := DecodeHeader(d.input).dataSize;
       && value == (DecodeHeader(d.input), d.input[HEADER_SIZE..HEADER_SIZE + ds])
       && after == d.(input := d.input[HEADER_SIZE + ds + FOOTER_SIZE..], calls := after.calls)
  }

  /** A frame read off a device: header (which must carry `magic`), exactly
      `data_size` payload bytes, and a footer whose magic is checked and whose
      CRC field is not looked at. */
  function RecvFrame(d: Device, magic: U32, zeroIsTimeout: bool, t: RecvTexts): (r: Io<(Header, seq<Byte>)>)
    ensures r.Thrown? ==> r.message in ReadTexts(t, zeroIsTimeout) + {t.badHeader, t.badFooter}
    ensures r.Done? ==> FrameTaken(d, magic, r.value, r.dev)
  {
    match ReadExact(d, HEADER_SIZE, zeroIsTimeout, t.readFailed, t.readTimeout)
    case Thrown(m) => Thrown(m)
    case Incomplete => Incomplete
    case Done(hb, d1) => RecvAfterHeader(d, hb, d1, magic, zeroIsTimeout, t)
  }

  /** The rest of RecvFrame once the header bytes `hb` are in. */
  function RecvAfterHeader(d: Device, hb: seq<Byte>, d1: Device, magic: U32, zeroIsTimeout: bool, t: RecvTexts)
    : (r: Io<(Header, seq<Byte>)>)
    requires HEADER_SIZE <= |d.input| && hb == d.input[..HEADER_SIZE]
    requires d1 == d.(input := d.input[HEADER_SIZE..], calls := d1.calls)
    ensures r.Thrown? ==> r.message in ReadTexts(t, zeroIsTimeout) + {t.badHeader, t.badFooter}
    ensures r.Done? ==> FrameTaken(d, magic, r.value, r.dev)
  {
    var h := DecodeHeader(hb);
    if h.magic != magic then Thrown(t.badHeader)
    else
      match RecvBody(d1, h.dataSize, zeroIsTimeout, t)
      case Thrown(m) => Thrown(m)
      case Incomplete => Incomplete
      case Done(payload, d3) =>
        FrameFromParts(d, magic, d1, payload, d3);
        Done((h, payload), d3)
  }

  /** The device-level form of HeaderThenBody: the header read and the body
      read together took a whole frame off the device. */
  lemma FrameFromParts(d: Device, magic: U32, d1: Device, payload: seq<Byte>, d3: Device)
    requires HEADER_SIZE <= |d.input| && DecodeHeader(d.input[..HEADER_SIZE]).magic == magic
    requires d1 == d.(input := d.input[HEADER_SIZE..], calls := d1.calls)
    requires var ds := DecodeHeader(d.input[..HEADER_SIZE]).dataSize;
      && |d1.input| >= ds + FOOTER_SIZE
      && DecodeFooter(d1.input, ds).magic == FOOTER_MAGIC
      && payload == d1.input[..ds]
      && d3 == d1.(input := d1.input[ds + FOOTER_SIZE..], calls := d3.calls)
    ensures FrameTaken(d, magic, (DecodeHeader(d.input[..HEADER_SIZE]), payload), d3)
  {
    HeaderThenBody(d.input, magic, payload, d3.input);
  }

  /** A header carrying `magic` followed by a body that RecvBody accepted
      make a whole frame at the front of the input. */
  lemma HeaderThenBody(s: seq<Byte>, magic: U32, payload: seq<Byte>, rest: seq<Byte>)
    requires |s| >= HEADER_SIZE && DecodeHeader(s[..HEADER_SIZE]).magic == magic
    requires var ds := DecodeHeader(s[..HEADER_SIZE]).dataSize;
      && |s[HEADER_SIZE..]| >= ds + FOOTER_SIZE
      && DecodeFooter(s[HEADER_SIZE..], ds).magic == FOOTER_MAGIC
      && payload == s[HEADER_SIZE..][..ds]
      && rest == s[HEADER_SIZE..][ds + FOOTER_SIZE..]
    ensures FrameAt(s, magic) && DecodeHeader(s[..HEADER_SIZE]) == DecodeHeader(s)
    ensures var ds := DecodeHeader(s).dataSize;
      && payload == s[HEADER_SIZE..HEADER_SIZE + ds]
      && rest == s[HEADER_SIZE + ds + FOOTER_SIZE..]
  {
    RecvSlices(s, DecodeHeader(s[..HEADER_SIZE]).dataSize);
  }

  /** The header read and the body read see consecutive slices of the input. */
  lemma RecvSlices(s: seq<Byte>, ds: nat)
    requires |s| >= HEADER_SIZE + ds + FOOTER_SIZE
    ensures DecodeHeader(s[..HEADER_SIZE]) == DecodeHeader(s)
    ensures s[HEADER_SIZE..][..ds] == s[HEADER_SIZE..HEADER_SIZE + ds]
    ensures DecodeFooter(s[HEADER_SIZE..], ds) == DecodeFooter(s, HEADER_SIZE + ds)
    ensures s[HEADER_SIZE..][ds + FOOTER_SIZE..] == s[HEADER_SIZE + ds + FOOTER_SIZE..]
  {
  }

  /** A well-formed frame on a responsive device is received, whatever the
      chunking of the reads. */
  lemma RecvFrameSucceeds(d: Device, magic: U32, zeroIsTimeout: bool, t: RecvTexts)
    requires FrameAt(d.input, magic)
    requires Responsive(d, HEADER_SIZE + DecodeHeader(d.input).dataSize + FOOTER_SIZE)
    ensures RecvFrame(d, magic, zeroIsTimeout, t).Done?
  {
    var n := DecodeHeader(d.input).dataSize;
    RecvSlices(d.input, n);
    ResponsiveAfterRead(d, HEADER_SIZE, n + FOOTER_SIZE, zeroIsTimeout, t.readFailed, t.readTimeout);
    var d1 := ReadExact(d, HEADER_SIZE, zeroIsTimeout, t.readFailed, t.readTimeout).dev;
    RecvBodySucceeds(d1, n, zeroIsTimeout, t);
  }

  lemma RecvBodySucceeds(d: Device, ds: nat, zeroIsTimeout: bool, t: RecvTexts)
    requires Responsive(d, ds + FOOTER_SIZE)
    requires DecodeFooter(d.input, ds).magic == FOOTER_MAGIC
    ensures RecvBody(d, ds, zeroIsTimeout, t).Done?
  {
    ResponsiveAfterRead(d, ds, FOOTER_SIZE, zeroIsTimeout, t.readFailed, t.readTimeout);
    var d2 := ReadExact(d, ds, zeroIsTimeout, t.readFailed, t.readTimeout).dev;
    ReadCompletes(d2, FOOTER_SIZE, zeroIsTimeout, t.readFailed, t.readTimeout);
    BodySlices(d.input, ds);
  }

  lemma HeaderOfPrefixBytes(s: seq<Byte>, t: seq<Byte>)
    requires |s| >= HEADER_SIZE
    ensures DecodeHeader(s + t) == DecodeHeader(s)
  {
  }

  /** The front of the input is a given frame: its header, payload and
      footer are read off the input. */
  lemma FrameAtFront(input: seq<Byte>, magic: U32, status: Byte, payload: seq<Byte>, crc: U32)
    requires |payload| < 0x1_0000
    requires |input| >= HEADER_SIZE + |payload| + FOOTER_SIZE
    requires input[..HEADER_SIZE + |payload| + FOOTER_SIZE] == SerializeFrame(magic, status, payload, crc)
    ensures DecodeHeader(input) == Header(magic, status, |payload|)
    ensures input[HEADER_SIZE..HEADER_SIZE + |payload|] == payload
    ensures DecodeFooter(input, HEADER_SIZE + |payload|) == Footer(crc, FOOTER_MAGIC)
  {
    var f := SerializeFrame(magic, status, payload, crc);
    SerializeFrameParts(magic, status, payload, crc);
    var m := HEADER_SIZE + |payload| + FOOTER_SIZE;
    HeaderOfPrefixBytes(f, input[m..]);
    assert input == f + input[m..];
    assert input[HEADER_SIZE..HEADER_SIZE + |payload|] == f[HEADER_SIZE..HEADER_SIZE + |payload|];
    assert DecodeFooter(input, HEADER_SIZE + |payload|) == DecodeFooter(f, HEADER_SIZE + |payload|);
  }

  /** Reading back a serialized frame on a responsive device: the header and
      the payload come out as they were sent, whatever the CRC field held. */
  lemma RecvFrameRoundTrip(d: Device, magic: U32, zeroIsTimeout: bool, t: RecvTexts,
                           status: Byte, payload: seq<Byte>, crc: U32)
    requires |payload| < 0x1_0000
    requires Responsive(d, HEADER_SIZE + |payload| + FOOTER_SIZE)
    requires d.input[..HEADER_SIZE + |payload| + FOOTER_SIZE] == SerializeFrame(magic, status, payload, crc)
    ensures var r := RecvFrame(d, magic, zeroIsTimeout, t);
      r.Done? && r.value == (Header(magic, status, |payload|), payload)
  {
    FrameAtFront(d.input, magic, status, payload, crc);
    RecvFrameSucceeds(d, magic, zeroIsTimeout, t);
  }
}

=== FILE: hostlib.dfy ===
/** The second-generation host library (lib/MLFProtoLib.cpp): request
    framing without a CRC, response parsing against the response magic,
    status-to-exception mapping, and the typed commands built on them. */
module HostLib {
  import opened Bytes
  import opened Wire
  import opened HostIo

  /** Every MLFException text starts with this prefix. */
  const EXCEPTION_PREFIX: string := "MLFException occurred: "

  function Exception(msg: string): string {
    EXCEPTION_PREFIX + msg
  }

  /** A failed read call stores errno: the text ends with its strerror
      explanation in brackets. */
  function ReadFailed(d: Device): string {
    Exception("failed to read data from MLF Controller") + " [" + d.errnoText + "]"
  }

  const READ_TIMEOUT: string := Exception("failed to read data from MLF Controller [Timeout]")
  const BAD_HEADER_MAGIC: string := Exception("invalid header magic was received from MLF Controller")
  const BAD_FOOTER_MAGIC: string := Exception("invalid footer magic was received from MLF Controller")
  const CMD_FAILED: string := "contoller failed to process command"
  const GET_INFO_FAILED: string := Exception("failed to get info from MLF Controller")
  const ON_STATE_FAILED: string := Exception("Failed to request on_state - invalid response size")
  const BRIGHTNESS_FAILED: string := Exception("Failed to get brightness - invalid response size")
  const EFFECT_FAILED: string := Exception("Failed to get effect - invalid response size")

  /** `_read`, where a zero-byte read is a timeout. */
  function Read(d: Device, len: nat): (r: Io<seq<Byte>>)
    ensures r.Done? ==> len <= |d.input| && r.value == d.input[..len] && r.dev.input == d.input[len..]
    ensures r.Thrown? ==> r.message in {ReadFailed(d), READ_TIMEOUT}
    ensures len > 0 && d.calls != [] && d.calls[0] < 0 ==>
              r == Thrown(Exception("failed to read data from MLF Controller") + " [" + d.errnoText + "]")
    ensures len > 0 && d.calls != [] && d.calls[0] == 0 ==> r == Thrown(READ_TIMEOUT)
  {
    ReadExact(d, len, true, ReadFailed(d), READ_TIMEOUT)
  }

  /** `_sendData`: request magic, the command and length narrowed to their
      header fields, the body, and a footer whose CRC field stays zero. */
  function SendData(cmd: int, data: seq<Byte>): (r: seq<Byte>)
    ensures |r| == HEADER_SIZE + |data| + FOOTER_SIZE
    ensures DecodeHeader(r) == Header(HEADER_MAGIC, ToByte(cmd), ToU16(|data|))
    ensures r[HEADER_SIZE..HEADER_SIZE + |data|] == data
    ensures DecodeFooter(r, HEADER_SIZE + |data|) == Footer(0, FOOTER_MAGIC)
  {
    var h := Header(HEADER_MAGIC, ToByte(cmd), ToU16(|data|));
    var r := EncodeHeader(h) + data + EncodeFooter(Footer(0, FOOTER_MAGIC));
    HeaderRoundTrip(h);
    assert r[..HEADER_SIZE] == EncodeHeader(h);
    HeaderOfPrefixBytes(r[..HEADER_SIZE], r[HEADER_SIZE..]);
    assert r[..HEADER_SIZE] + r[HEADER_SIZE..] == r;
    FooterRoundTrip(Footer(0, FOOTER_MAGIC), EncodeHeader(h) + data, []);
    assert EncodeHeader(h) + data + EncodeFooter(Footer(0, FOOTER_MAGIC)) + [] == r;
    r
  }

  /** For bodies that fit the 16-bit length field, the request is exactly the
      serialized frame with a zero CRC. */
  lemma SendDataIsFrame(cmd: int, data: seq<Byte>)
    requires |data| < 0x1_0000
    ensures SendData(cmd, data) == SerializeFrame(HEADER_MAGIC, ToByte(cmd), data, 0)
  {
  }

  /** A response as `_recvData` hands it on: the status byte and, when the
      caller gave one, its buffer after the copy-out. */
  datatype Received = Received(status: Byte, caller: Option<CallerBuffer>)

  /** The texts `_recvData` may throw on device `d`. */
  function Texts(d: Device): RecvTexts {
    RecvTexts(ReadFailed(d), READ_TIMEOUT, BAD_HEADER_MAGIC, BAD_FOOTER_MAGIC)
  }

  /** `_recvData`: a frame carrying the response magic, then the copy-out
      of min(capacity, data_size) bytes with the size word set to
      data_size; the status is the header's error code. */
  function RecvData(d: Device, caller: Option<CallerBuffer>): (r: Io<Received>)
    requires CallerOk(caller)
    ensures r.Thrown? ==> r.message in {ReadFailed(d), READ_TIMEOUT, BAD_HEADER_MAGIC, BAD_FOOTER_MAGIC}
    ensures var f := RecvFrame(d, RESP_HEADER_MAGIC, true, Texts(d));
      && (r.Done? <==> f.Done?)
      && (f.Done? ==> && r.dev == f.dev
                      && r.value.status == f.value.0.selector
                      && (caller.None? ==> r.value.caller.None?)
                      && (caller.Some? ==> r.value.caller == Some(CopyOut(caller.value, f.value.1))))
  {
    match RecvFrame(d, RESP_HEADER_MAGIC, true, Texts(d))
    case Thrown(m) => Thrown(m)
    case Incomplete => Incomplete
    case Done((h, payload), d1) =>
      Done(Received(h.selector, if caller.Some? then Some(CopyOut(caller.value, payload)) else None), d1)
  }

  /** Parsing a serialized response: a device that answers with a response
      frame (any CRC field) yields its status and payload, whatever the read
      chunking. */
  lemma RecvDataRoundTrip(d: Device, status: Byte, payload: seq<Byte>, crc: U32, caller: Option<CallerBuffer>)
    requires |payload| < 0x1_0000 && CallerOk(caller)
    requires Responsive(d, HEADER_SIZE + |payload| + FOOTER_SIZE)
    requires d.input[..HEADER_SIZE + |payload| + FOOTER_SIZE] == SerializeFrame(RESP_HEADER_MAGIC, status, payload, crc)
    ensures var r := RecvData(d, caller);
      && r.Done?
      && r.value.status == status
      && r.value.caller == (if caller.Some? then Some(CopyOut(caller.value, payload)) else None)
  {
    RecvFrameRoundTrip(d, RESP_HEADER_MAGIC, true, Texts(d), status, payload, crc);
  }

  /** A request frame echoed back (request magic) is refused. */
  lemma RequestMagicRefused(d: Device, caller: Option<CallerBuffer>)
    requires CallerOk(caller) && |d.input| >= HEADER_SIZE && DecodeHeader(d.input).magic == HEADER_MAGIC
    ensures !RecvData(d, caller).Done?
  {
  }

  /** The explanation errorToException attaches to a status code. */
  function ErrorText(code: int): (s: string)
    ensures code == InvalidCmd.Code() ==> s == "invalid command"
    ensures code == InvalidHeader.Code() ==> s == "malformed header"
    ensures code == InvalidData.Code() ==> s == "invalid data"
    ensures code == InvalidFooter.Code() ==> s == "malformed footer"
    ensures code == NotReady.Code() ==> s == "device not ready"
    ensures code == Timeout.Code() ==> s == "timeout"
    ensures code == DataTooLarge.Code() ==> s == "data too large"
    ensures (code !in {InvalidCmd.Code(), InvalidHeader.Code(), InvalidData.Code(), InvalidFooter.Code(),
                       NotReady.Code(), Timeout.Code(), DataTooLarge.Code()}) ==> s == "unknown error"
  {
    if code == InvalidCmd.Code() then "invalid command"
    else if code == InvalidHeader.Code() then "malformed header"
    else if code == InvalidData.Code() then "invalid data"
    else if code == InvalidFooter.Code() then "malformed footer"
    else if code == NotReady.Code() then "device not ready"
    else if code == Timeout.Code() then "timeout"
    else if code == DataTooLarge.Code() then "data too large"
    else "unknown error"
  }

  /** errorToException always throws; its text is the message followed by
      the code's explanation. */
  function ErrorToException<T>(message: string, code: int): (r: Io<T>)
    ensures r.Thrown? && r.message == Exception(message + ErrorText(code))
  {
    Thrown(Exception(message + ErrorText(code)))
  }

  /** CRC_FAIL and PING have no text of their own. */
  lemma UnlistedCodesUnknown()
    ensures ErrorText(CrcFail.Code()) == "unknown error"
    ensures ErrorText(Ping.Code()) == "unknown error"
  {
  }

  /** `invokeCmd`: send the request, receive the response, and throw unless
      the status is OK. */
  function InvokeCmd(d: Device, cmd: int, data: seq<Byte>, caller: Option<CallerBuffer>): (r: Io<Option<CallerBuffer>>)
    requires CallerOk(caller)
    ensures var rv := RecvData(WriteAll(d, SendData(cmd, data)), caller);
      && (rv.Done? && rv.value.status == Ok.Code() ==> r == Done(rv.value.caller, rv.dev))
      && (rv.Done? && rv.value.status != Ok.Code() ==>
            r == Thrown(Exception(CMD_FAILED + ErrorText(rv.value.status))))
      && (!rv.Done? ==> r == match rv case Thrown(m) => Thrown(m) case _ => Incomplete)
    ensures r.Done? ==> r.dev.output == d.output + SendData(cmd, data)
  {
    var d1 := WriteAll(d, SendData(cmd, data));
    match RecvData(d1, caller)
    case Thrown(m) => Thrown(m)
    case Incomplete => Incomplete
    case Done(rcv, d2) =>
      if rcv.status != Ok.Code() then ErrorToException(CMD_FAILED, rcv.status)
      else Done(rcv.caller, d2)
  }

  /** Information the constructor reads from the controller. */
  datatype Info = Info(fwVersion: Byte, ledsTop: U16, ledsBottom: U16)

  /** The constructor's GET_INFO exchange: the response must be exactly the
      size of the info struct. `stale` is the uninitialised struct. */
  function Connect(d: Device, stale: seq<Byte>): (r: Io<Info>)
    requires |stale| == GET_INFO_LEN
    ensures var inv := InvokeCmd(d, BGetInfo.Id(), [], Some(CallerBuffer(stale, GET_INFO_LEN)));
      && (inv.Done? && inv.value.value.size != GET_INFO_LEN ==> r == Thrown(GET_INFO_FAILED))
      && (inv.Done? && inv.value.value.size == GET_INFO_LEN ==> r.Done?)
      && (inv.Thrown? ==> r == Thrown(inv.message))
  {
    match InvokeCmd(d, BGetInfo.Id(), [], Some(CallerBuffer(stale, GET_INFO_LEN)))
    case Thrown(m) => Thrown(m)
    case Incomplete => Incomplete
    case Done(c, d1) =>
      if c.value.size != GET_INFO_LEN then Thrown(GET_INFO_FAILED)
      else
        var g := DecodeGetInfo(c.value.contents);
        Done(Info(g.fwVersion, g.ledsTop, g.ledsBottom), d1)
  }

  /** A controller that answers GET_INFO with OK and a get_info payload is
      read back exactly; the stale struct does not leak through. */
  lemma ConnectRoundTrip(d: Device, g: GetInfoResp, crc: U32, stale: seq<Byte>)
    requires |stale| == GET_INFO_LEN
    requires Responsive(d, HEADER_SIZE + GET_INFO_LEN + FOOTER_SIZE)
    requires d.input[..HEADER_SIZE + GET_INFO_LEN + FOOTER_SIZE] ==
             SerializeFrame(RESP_HEADER_MAGIC, Ok.Code(), EncodeGetInfo(g), crc)
    ensures var r := Connect(d, stale);
      r.Done? && r.value == Info(g.fwVersion, g.ledsTop, g.ledsBottom)
  {
    var p := EncodeGetInfo(g);
    var d1 := WriteAll(d, SendData(BGetInfo.Id(), []));
    RecvDataRoundTrip(d1, Ok.Code(), p, crc, Some(CallerBuffer(stale, GET_INFO_LEN)));
    var c := CopyOut(CallerBuffer(stale, GET_INFO_LEN), p);
    assert c.contents == p;
    GetInfoRoundTrip(g);
  }

  /** `isTurnedOn`: the state byte normalised to 0 or 1; a short response
      throws. */
  function IsTurnedOn(d: Device, stale: Byte): (r: Io<Byte>)
    ensures var inv := InvokeCmd(d, BGetOnState.Id(), [], Some(CallerBuffer([stale], GET_ON_STATE_LEN)));
      && (inv.Done? && inv.value.value.size < GET_ON_STATE_LEN ==> r == Thrown(ON_STATE_FAILED))
      && (inv.Done? && inv.value.value.size >= GET_ON_STATE_LEN ==>
            r.Done? && r.value == (if inv.value.value.contents[0] != 0 then 1 else 0))
    ensures r.Done? ==> r.value in {0, 1}
  {
    match InvokeCmd(d, BGetOnState.Id(), [], Some(CallerBuffer([stale], GET_ON_STATE_LEN)))
    case Thrown(m) => Thrown(m)
    case Incomplete => Incomplete
    case Done(c, d1) =>
      if c.value.size < GET_ON_STATE_LEN then Thrown(ON_STATE_FAILED)
      else Done(if c.value.contents[0] != 0 then 1 else 0, d1)
  }

  /** `getBrightness`: the raw brightness byte; a short response throws. */
  function GetBrightness(d: Device): (r: Io<Byte>)
    ensures var inv := InvokeCmd(d, BGetBrightness.Id(), [], Some(CallerBuffer([0], GET_BRIGHTNESS_LEN)));
      && (inv.Done? && inv.value.value.size < GET_BRIGHTNESS_LEN ==> r == Thrown(BRIGHTNESS_FAILED))
      && (inv.Done? && inv.value.value.size >= GET_BRIGHTNESS_LEN ==>
            r == Done(inv.value.value.contents[0], inv.dev))
  {
    match InvokeCmd(d, BGetBrightness.Id(), [], Some(CallerBuffer([0], GET_BRIGHTNESS_LEN)))
    case Thrown(m) => Thrown(m)
    case Incomplete => Incomplete
    case Done(c, d1) =>
      if c.value.size < GET_BRIGHTNESS_LEN then Thrown(BRIGHTNESS_FAILED)
      else Done(c.value.contents[0], d1)
  }

  /** `getEffect`: effect, speed and colour; a short response throws. */
  function GetEffect(d: Device): (r: Io<GetEffectResp>)
    ensures var inv := InvokeCmd(d, BGetEffect.Id(), [], Some(CallerBuffer([0, 0, 0, 0, 0, 0], GET_EFFECT_LEN)));
      && (inv.Done? && inv.value.value.size < GET_EFFECT_LEN ==> r == Thrown(EFFECT_FAILED))
      && (inv.Done? && inv.value.value.size >= GET_EFFECT_LEN ==>
            r == Done(DecodeGetEffect(inv.value.value.contents), inv.dev))
  {
    match InvokeCmd(d, BGetEffect.Id(), [], Some(CallerBuffer([0, 0, 0, 0, 0, 0], GET_EFFECT_LEN)))
    case Thrown(m) => Thrown(m)
    case Incomplete => Incomplete
    case Done(c, d1) =>
      if c.value.size < GET_EFFECT_LEN then Thrown(EFFECT_FAILED)
      else Done(DecodeGetEffect(c.value.contents), d1)
  }

  /** `setBrightness`: the argument narrowed to a byte, for both strips. */
  function SetBrightness(d: Device, brightness: int): (r: Io<Option<CallerBuffer>>)
    ensures r.Done? ==>
      r.dev.output == d.output + SendData(BSetBrightness.Id(), EncodeSetBrightness(SetBrightnessReq(ToByte(brightness), 3)))
  {
    InvokeCmd(d, BSetBrightness.Id(), EncodeSetBrightness(SetBrightnessReq(ToByte(brightness), 3)), None)
  }

  /** What setBrightness writes decodes to the argument modulo 256, for both
      strips. */
  lemma SetBrightnessRequestDecodes(d: Device, brightness: int)
    ensures var r := SetBrightness(d, brightness);
      r.Done? ==> && |r.dev.output| == |d.output| + HEADER_SIZE + SET_BRIGHTNESS_LEN + FOOTER_SIZE
                  && var f := r.dev.output[|d.output|..];
                  && DecodeHeader(f) == Header(HEADER_MAGIC, BSetBrightness.Id(), SET_BRIGHTNESS_LEN)
                  && DecodeSetBrightness(f[HEADER_SIZE..]) == SetBrightnessReq(brightness % 256, STRIP_TOP + STRIP_BOTTOM)
  {
    var req := SetBrightnessReq(ToByte(brightness), 3);
    var f := SendData(BSetBrightness.Id(), EncodeSetBrightness(req));
    SendDataDecodes(BSetBrightness.Id(), EncodeSetBrightness(req));
    SetBrightnessRoundTrip(req);
    var r := SetBrightness(d, brightness);
    assert DecodeHeader(f) == Header(HEADER_MAGIC, BSetBrightness.Id(), SET_BRIGHTNESS_LEN);
    if r.Done? {
      assert r.dev.output == d.output + f;
      assert r.dev.output[|d.output|..] == f;
    }
  }

  /** The payload of a request sits right after its header. */
  lemma SendDataDecodes(cmd: int, data: seq<Byte>)
    requires |data| == SET_BRIGHTNESS_LEN
    ensures DecodeSetBrightness(SendData(cmd, data)[HEADER_SIZE..]) == DecodeSetBrightness(data)
  {
    var f := SendData(cmd, data);
    assert f[HEADER_SIZE..][0] == data[0] && f[HEADER_SIZE..][1] == data[1];
  }

  /** `setEffect`: each argument narrowed to its field. */
  function SetEffect(d: Device, effect: int, speed: int, strip: int, color: int): (r: Io<Option<CallerBuffer>>)
    ensures r.Done? ==>
      r.dev.output == d.output + SendData(BSetEffect.Id(), EncodeSetEffect(SetEffectReq(ToByte(effect), ToByte(speed), ToByte(strip), ToU32(color))))
  {
    InvokeCmd(d, BSetEffect.Id(), EncodeSetEffect(SetEffectReq(ToByte(effect), ToByte(speed), ToByte(strip), ToU32(color))), None)
  }

  /** `setColors`: a strip byte (left uninitialised by the library, so a
      parameter here) followed by each colour as a 32-bit word. */
  function SetColors(d: Device, colors: seq<int>, strip: Byte): (r: Io<Option<CallerBuffer>>)
    ensures var body := EncodeSetColor(SetColorReq(strip, seq(|colors|, i requires 0 <= i < |colors| => ToU32(colors[i]))));
      && |body| == 1 + 4 * |colors|
      && (r.Done? ==> r.dev.output == d.output + SendData(BSetColor.Id(), body))
  {
    var words := seq(|colors|, i requires 0 <= i < |colors| => ToU32(colors[i]));
    InvokeCmd(d, BSetColor.Id(), EncodeSetColor(SetColorReq(strip, words)), None)
  }

  /** `turnOn` / `turnOff`: requests without a body. */
  function TurnOn(d: Device): (r: Io<Option<CallerBuffer>>)
    ensures r.Done? ==> r.dev.output == d.output + SendData(BTurnOn.Id(), [])
  {
    InvokeCmd(d, BTurnOn.Id(), [], None)
  }

  function TurnOff(d: Device): (r: Io<Option<CallerBuffer>>)
    ensures r.Done? ==> r.dev.output == d.output + SendData(BTurnOff.Id(), [])
  {
    InvokeCmd(d, BTurnOff.Id(), [], None)
  }

  /** A controller that reports a non-OK status always makes the command
      throw, with that status's explanation. */
  lemma NonOkStatusThrows(d: Device, cmd: int, data: seq<Byte>, status: Byte, crc: U32)
    requires status != Ok.Code()
    requires Responsive(WriteAll(d, SendData(cmd, data)), HEADER_SIZE + FOOTER_SIZE)
    requires d.input[..HEADER_SIZE + FOOTER_SIZE] == SerializeFrame(RESP_HEADER_MAGIC, status, [], crc)
    ensures InvokeCmd(d, cmd, data, None) == Thrown(Exception(CMD_FAILED + ErrorText(status)))
  {
    RecvDataRoundTrip(WriteAll(d, SendData(cmd, data)), status, [], crc, None);
  }
}

=== FILE: hostlib_crc.dfy ===
/** The first-generation host library (MLF_Proto_Lib/MLFProtoLib.cpp): one
    magic for both directions, a CRC over header and body in every request
    footer, a CRC on responses that is computed but never enforced, and a
    `_read` loop that retries zero-byte reads instead of timing out. */
module HostLibCrc {
  import opened Bytes
  import opened Wire
  import opened HostIo

  /** The library's own spelling of its error texts. */
  const READ_FAILED: string := "Failed to write data"
  const BAD_HEADER_MAGIC: string := "Invalid header magic was received from MLF Controller"
  const BAD_FOOTER_MAGIC: string := "Invalid footer magic was received from MLF Controller"
  const SET_BRIGHTNESS_FAILED: string := "MLF_CMD_SET_BRIGHTNESS failed"
  const SET_EFFECT_FAILED: string := "MLD_CMD_SET_EFFECT failed"

  /** `_read` without a timeout: a zero-byte read is tried again. */
  function Read(d: Device, len: nat): (r: Io<seq<Byte>>)
    ensures r.Done? ==> len <= |d.input| && r.value == d.input[..len] && r.dev.input == d.input[len..]
    ensures r.Thrown? ==> r.message == READ_FAILED
  {
    ReadExact(d, len, false, READ_FAILED, READ_FAILED)
  }

  /** Zero-byte reads never end the loop: with the bytes present, a read
      that meets only zero returns eventually completes. */
  lemma ZeroReadsAreRetried(d: Device, len: nat)
    requires 0 < len <= |d.input| && |d.calls| >= 2 && d.calls[0] == 0 && d.calls[1] >= len
    ensures Read(d, len).Done?
  {
    assert d.input[0..] == d.input;
    var d1 := d.(calls := d.calls[1..]);
    assert d1.calls[0] >= len;
    var d2 := d1.(calls := d1.calls[1..], input := d1.input[len..]);
    assert ReadExact(d2, 0, false, READ_FAILED, READ_FAILED).Done?;
    assert ReadExact(d1, len, false, READ_FAILED, READ_FAILED).Done?;
  }

  /** `_sendData`: header, body, and a footer carrying the CRC of header and
      body. */
  function SendData(crc: seq<Byte> -> U32, cmd: int, data: seq<Byte>): (r: seq<Byte>)
    requires |data| < 0x1_0000
    ensures |r| == HEADER_SIZE + |data| + FOOTER_SIZE
    ensures DecodeHeader(r) == Header(HEADER_MAGIC, ToByte(cmd), |data|)
    ensures r[HEADER_SIZE..HEADER_SIZE + |data|] == data
    ensures DecodeFooter(r, HEADER_SIZE + |data|) == Footer(crc(r[..HEADER_SIZE + |data|]), FOOTER_MAGIC)
  {
    var h := EncodeHeader(Header(HEADER_MAGIC, ToByte(cmd), |data|));
    var c := crc(h + data);
    SerializeFrameParts(HEADER_MAGIC, ToByte(cmd), data, c);
    var r := SerializeFrame(HEADER_MAGIC, ToByte(cmd), data, c);
    assert r[..HEADER_SIZE + |data|] == h + data;
    r
  }

  const TEXTS: RecvTexts := RecvTexts(READ_FAILED, READ_FAILED, BAD_HEADER_MAGIC, BAD_FOOTER_MAGIC)

  /** `_recvData`: like the newer library's, but the header must carry the
      request magic and zero-byte reads are retried. The footer CRC is
      computed by the library and then disregarded. Returns the status and,
      when given, the caller's buffer after the copy-out. */
  function RecvData(d: Device, caller: Option<CallerBuffer>): (r: Io<(Byte, Option<CallerBuffer>)>)
    requires CallerOk(caller)
    ensures r.Thrown? ==> r.message in {READ_FAILED, BAD_HEADER_MAGIC, BAD_FOOTER_MAGIC}
    ensures var f := RecvFrame(d, HEADER_MAGIC, false, TEXTS);
      && (r.Done? <==> f.Done?)
      && (f.Done? ==> && r.dev == f.dev
                      && r.value.0 == f.value.0.selector
                      && (caller.None? ==> r.value.1.None?)
                      && (caller.Some? ==> r.value.1 == Some(CopyOut(caller.value, f.value.1))))
  {
    match RecvFrame(d, HEADER_MAGIC, false, TEXTS)
    case Thrown(m) => Thrown(m)
    case Incomplete => Incomplete
    case Done((h, payload), d1) =>
      Done((h.selector, if caller.Some? then Some(CopyOut(caller.value, payload)) else None), d1)
  }

  /** A response frame is received with its status and payload whatever its
      CRC field holds, in particular when it disagrees with the CRC of the
      header and payload. */
  lemma CrcMismatchIgnored(d: Device, crc: seq<Byte> -> U32, status: Byte, payload: seq<Byte>, field: U32,
                           caller: Option<CallerBuffer>)
    requires |payload| < 0x1_0000 && CallerOk(caller)
    requires Responsive(d, HEADER_SIZE + |payload| + FOOTER_SIZE)
    requires d.input[..HEADER_SIZE + |payload| + FOOTER_SIZE] == SerializeFrame(HEADER_MAGIC, status, payload, field)
    requires field != crc(EncodeHeader(Header(HEADER_MAGIC, status, |payload|)) + payload)
    ensures var r := RecvData(d, caller);
      && r.Done?
      && r.value.0 == status
      && r.value.1 == (if caller.Some? then Some(CopyOut(caller.value, payload)) else None)
  {
    RecvFrameRoundTrip(d, HEADER_MAGIC, false, TEXTS, status, payload, field);
  }

  /** `invokeCmd`: send, receive, and hand the status back unexamined. */
  function InvokeCmd(d: Device, crc: seq<Byte> -> U32, cmd: int, data: seq<Byte>): (r: Io<Byte>)
    requires |data| < 0x1_0000
    ensures var rv := RecvData(WriteAll(d, SendData(crc, cmd, data)), None);
      && (rv.Done? ==> r == Done(rv.value.0, rv.dev))
      && (rv.Thrown? ==> r == Thrown(rv.message))
    ensures r.Done? ==> r.dev.output == d.output + SendData(crc, cmd, data)
  {
    match RecvData(WriteAll(d, SendData(crc, cmd, data)), None)
    case Thrown(m) => Thrown(m)
    case Incomplete => Incomplete
    case Done(v, d2) => Done(v.0, d2)
  }

  /** `turnOff`: the status is not examined. */
  function TurnOff(d: Device, crc: seq<Byte> -> U32): (r: Io<Byte>)
    ensures r.Done? ==> r.dev.output == d.output + SendData(crc, Command.TurnOff.Id(), [])
    ensures r.Thrown? ==> r.message in {READ_FAILED, BAD_HEADER_MAGIC, BAD_FOOTER_MAGIC}
  {
    InvokeCmd(d, crc, Command.TurnOff.Id(), [])
  }

  /** `setBrightness`: brightness 50 on both strips, whatever is asked for;
      a non-OK status throws. */
  function SetBrightness(d: Device, crc: seq<Byte> -> U32, brightness: int): (r: Io<()>)
    ensures var inv := InvokeCmd(d, crc, Command.SetBrightness.Id(), EncodeSetBrightness(SetBrightnessReq(50, 3)));
      && (inv.Done? && inv.value != Ok.Code() ==> r == Thrown(SET_BRIGHTNESS_FAILED))
      && (inv.Done? && inv.value == Ok.Code() ==> r == Done((), inv.dev))
  {
    match InvokeCmd(d, crc, Command.SetBrightness.Id(), EncodeSetBrightness(SetBrightnessReq(50, 3)))
    case Thrown(m) => Thrown(m)
    case Incomplete => Incomplete
    case Done(status, d2) => if status != Ok.Code() then Thrown(SET_BRIGHTNESS_FAILED) else Done((), d2)
  }

  lemma SetBrightnessIgnoresArgument(d: Device, crc: seq<Byte> -> U32, a: int, b: int)
    ensures SetBrightness(d, crc, a) == SetBrightness(d, crc, b)
  {
  }

  /** `setEffect`: each argument narrowed to its field; a non-OK status
      throws. */
  function SetEffect(d: Device, crc: seq<Byte> -> U32, effect: int, speed: int, strip: int, color: int): (r: Io<()>)
    ensures var inv := InvokeCmd(d, crc, Command.SetEffect.Id(),
                                 EncodeSetEffect(SetEffectReq(ToByte(effect), ToByte(speed), ToByte(strip), ToU32(color))));
      && (inv.Done? && inv.value != Ok.Code() ==> r == Thrown(SET_EFFECT_FAILED))
      && (inv.Done? && inv.value == Ok.Code() ==> r == Done((), inv.dev))
  {
    match InvokeCmd(d, crc, Command.SetEffect.Id(),
                    EncodeSetEffect(SetEffectReq(ToByte(effect), ToByte(speed), ToByte(strip), ToU32(color))))
    case Thrown(m) => Thrown(m)
    case Incomplete => Incomplete
    case Done(status, d2) => if status != Ok.Code() then Thrown(SET_EFFECT_FAILED) else Done((), d2)
  }
}

=== FILE: invoker.dfy ===
/** The bridge-side command invoker of the UART generation (mlf_comm.c):
    a single-slot response buffer filled by the HANDLE_RESPONSE handler, a
    send that waits for that slot with a timeout, and the typed getters and
    setters built on it. The wait itself is a parameter: `arrival` is the
    payload of the response that signalled the waiter in time, or None when
    the 100 ms wait elapsed. */
module MlfComm {
  import opened Bytes
  import opened Wire
  import opened Dispatcher

  /** mlf_response_buffer / mlf_response_buffer_size. A zero-length response
      leaves the buffer null, so `buffer` is None with `size` 0. */
  datatype ResponseSlot = ResponseSlot(buffer: Option<seq<Byte>>, size: nat)

  const EMPTY_SLOT: ResponseSlot := ResponseSlot(None, 0)

  /** The bytes a slot holds (a null buffer reads as nothing). */
  function SlotBytes(slot: ResponseSlot): seq<Byte> {
    if slot.buffer.Some? then slot.buffer.value else []
  }

  /** mlf_response_handler, as a handler of the dispatcher's HANDLE_RESPONSE
      slot: refuses while an earlier response is unconsumed, otherwise
      stores a copy of the payload and its size. */
  function ResponseHandler(slot: ResponseSlot, data: seq<Byte>): (r: Reply<ResponseSlot>)
    ensures slot.buffer.Some? ==> r.state == slot && r.status == NotReady
    ensures slot.buffer.None? ==> r.status == Ok && r.state.size == |data| && SlotBytes(r.state) == data
    ensures slot.buffer.None? ==> (r.state.buffer.None? <==> data == [])
    ensures r.response == []
  {
    if slot.buffer.Some? then Reply(slot, NotReady, [])
    else Reply(ResponseSlot(if |data| != 0 then Some(data) else None, |data|), Ok, [])
  }

  /** A response consumed from the slot is read back unchanged, whatever its
      length. */
  lemma StoredResponseReadBack(data: seq<Byte>)
    ensures var s := ResponseHandler(EMPTY_SLOT, data).state;
      SlotBytes(s) == data && s.size == |data| && (s.buffer.None? <==> data == [])
  {
  }

  /** A zero-length response leaves the buffer null, so a second response
      arriving before the slot is drained is not refused but overwrites it. */
  lemma EmptyResponseDoesNotLockSlot(d1: seq<Byte>, d2: seq<Byte>)
    requires d1 == [] && d2 != []
    ensures var s1 := ResponseHandler(EMPTY_SLOT, d1).state;
      ResponseHandler(s1, d2).status == Ok && SlotBytes(ResponseHandler(s1, d2).state) == d2
  {
  }

  datatype SendResult = SendResult(ret: int, slot: ResponseSlot, caller: Option<CallerBuffer>, request: Transmission)

  /** MLF_Comm_sendCmd: empty the slot, send the request, wait; on timeout
      return -1 leaving the caller's buffer alone; otherwise copy out the
      response, drain the slot and return 0. */
  function SendCmd(slot: ResponseSlot, cmd: Byte, data: seq<Byte>, transport: Transport,
                   arrival: Option<seq<Byte>>, caller: Option<CallerBuffer>): (r: SendResult)
    requires |data| < 0x1_0000 && CallerOk(caller)
    ensures r.request.frame == SerializeFrame(HEADER_MAGIC, cmd, data, 0)
    ensures r.ret == -1 <==> arrival.None?
    ensures r.ret == 0 <==> arrival.Some?
    ensures arrival.None? ==> r.caller == caller && r.slot.buffer.None?
    ensures arrival.Some? ==> r.slot == EMPTY_SLOT
    ensures arrival.Some? && caller.Some? ==> r.caller == Some(CopyOut(caller.value, arrival.value))
    ensures caller.None? ==> r.caller.None?
  {
    var cleared := slot.(buffer := None);
    var request := Dispatcher.SendCmd(ESP_CONFIG, cmd, data, transport);
    match arrival
    case None => SendResult(-1, cleared, caller, request)
    case Some(payload) =>
      var filled := ResponseHandler(cleared, payload).state;
      var out := if caller.Some? then Some(CopyOut(caller.value, SlotBytes(filled))) else None;
      SendResult(0, EMPTY_SLOT, out, request)
  }

  /** A caller detects truncation by comparing the size word it gets back
      with the capacity it passed in. */
  lemma TruncationDetectable(slot: ResponseSlot, cmd: Byte, data: seq<Byte>, transport: Transport,
                             payload: seq<Byte>, c: CallerBuffer)
    requires |data| < 0x1_0000 && c.size <= |c.contents|
    ensures var r := SendCmd(slot, cmd, data, transport, Some(payload), Some(c)).caller.value;
      && (r.size > c.size <==> |payload| > c.size)
      && r.contents[..Min(c.size, |payload|)] == payload[..Min(c.size, |payload|)]
  {
  }

  // ---------------------------------------------------------------------
  // Typed commands

  /** The brightness scale of the getter: 0..255 to 0..100, truncating. */
  function ScaleBrightness(raw: Byte): (pct: nat)
    ensures pct <= 100
    ensures raw == 0 ==> pct == 0
    ensures raw == 255 ==> pct == 100
    ensures pct * 255 <= raw * 100 < (pct + 1) * 255
  {
    raw * 100 / 255
  }

  lemma ScaleBrightnessMonotone(a: Byte, b: Byte)
    requires a <= b
    ensures ScaleBrightness(a) <= ScaleBrightness(b)
  {
  }

  /** A getter's outcome: 0 with the decoded value, or INVALID_HEADER for a
      response shorter than the expected struct. */
  datatype Got<T> = Got(ret: int, value: Option<T>, slot: ResponseSlot)

  /** MLF_Comm_GetBrightness. `stale` is the uninitialised content of the
      one-byte stack buffer; the return of the send is not consulted. */
  function GetBrightness(slot: ResponseSlot, transport: Transport, arrival: Option<seq<Byte>>, stale: seq<Byte>): (r: Got<nat>)
    requires |stale| == GET_BRIGHTNESS_LEN
    ensures arrival.Some? && |arrival.value| < GET_BRIGHTNESS_LEN ==>
              r.ret == InvalidHeader.Code() && r.value.None?
    ensures arrival.Some? && |arrival.value| >= GET_BRIGHTNESS_LEN ==>
              r.ret == 0 && r.value == Some(ScaleBrightness(arrival.value[0]))
    ensures r.value.Some? ==> r.value.value <= 100
  {
    var s := SendCmd(slot, BGetBrightness.Id(), [], transport, arrival, Some(CallerBuffer(stale, GET_BRIGHTNESS_LEN)));
    var c := s.caller.value;
    if c.size < GET_BRIGHTNESS_LEN then Got(InvalidHeader.Code(), None, s.slot)
    else Got(0, Some(ScaleBrightness(c.contents[0])), s.slot)
  }

  /** Because the send's -1 is ignored and the size word keeps the capacity
      on timeout, a timed-out GetBrightness succeeds with the stale byte. */
  lemma GetBrightnessTimeoutReadsStale(slot: ResponseSlot, transport: Transport, stale: seq<Byte>)
    requires |stale| == GET_BRIGHTNESS_LEN
    ensures GetBrightness(slot, transport, None, stale).ret == 0
    ensures GetBrightness(slot, transport, None, stale).value == Some(ScaleBrightness(stale[0]))
  {
  }

  /** MLF_Comm_GetEffect. */
  function GetEffect(slot: ResponseSlot, transport: Transport, arrival: Option<seq<Byte>>, stale: seq<Byte>): (r: Got<GetEffectResp>)
    requires |stale| == GET_EFFECT_LEN
    ensures arrival.Some? && |arrival.value| < GET_EFFECT_LEN ==>
              r.ret == InvalidHeader.Code() && r.value.None?
    ensures arrival.Some? && |arrival.value| >= GET_EFFECT_LEN ==>
              r.ret == 0 && r.value == Some(DecodeGetEffect(arrival.value))
    ensures arrival.None? ==> r.ret == 0 && r.value == Some(DecodeGetEffect(stale))
  {
    var s := SendCmd(slot, BGetEffect.Id(), [], transport, arrival, Some(CallerBuffer(stale, GET_EFFECT_LEN)));
    var c := s.caller.value;
    if c.size < GET_EFFECT_LEN then Got(InvalidHeader.Code(), None, s.slot)
    else
      assert arrival.Some? ==> c.contents == arrival.value[..GET_EFFECT_LEN];
      Got(0, Some(DecodeGetEffect(c.contents)), s.slot)
  }

  /** A controller's effect reply, encoded and read back by the getter. */
  lemma GetEffectRoundTrip(slot: ResponseSlot, transport: Transport, g: GetEffectResp, stale: seq<Byte>)
    requires |stale| == GET_EFFECT_LEN
    ensures GetEffect(slot, transport, Some(EncodeGetEffect(g)), stale) == Got(0, Some(g), EMPTY_SLOT)
  {
    Wire.GetEffectRoundTrip(g);
  }

  /** MLF_Comm_GetOnState: the state byte normalised to 0 or 1. As with the
      other getters the send's -1 is ignored, so a timeout normalises the
      uninitialised byte, here `stale`, and returns 0. */
  function GetOnState(slot: ResponseSlot, transport: Transport, arrival: Option<seq<Byte>>, stale: seq<Byte>): (r: Got<Byte>)
    requires |stale| == GET_ON_STATE_LEN
    ensures arrival.Some? && |arrival.value| < GET_ON_STATE_LEN ==>
              r.ret == InvalidHeader.Code() && r.value.None?
    ensures arrival.Some? && |arrival.value| >= GET_ON_STATE_LEN ==>
              r.ret == 0 && r.value == Some(if arrival.value[0] != 0 then 1 else 0)
    ensures arrival.None? ==> r.ret == 0 && r.value == Some(if stale[0] != 0 then 1 else 0)
    ensures r.value.Some? ==> r.value.value in {0, 1}
  {
    var s := SendCmd(slot, BGetOnState.Id(), [], transport, arrival, Some(CallerBuffer(stale, GET_ON_STATE_LEN)));
    var c := s.caller.value;
    if c.size < GET_ON_STATE_LEN then Got(InvalidHeader.Code(), None, s.slot)
    else Got(0, Some(if c.contents[0] != 0 then 1 else 0), s.slot)
  }

  /** MLF_Comm_SetBrightness: the 16-bit argument is narrowed into the
      one-byte field, for both strips. The send's own result is ignored: the
      setter returns 0 even when no response arrives. */
  function SetBrightness(slot: ResponseSlot, brightness: U16, transport: Transport, arrival: Option<seq<Byte>>): (r: SendResult)
    ensures r.request.frame ==
      SerializeFrame(HEADER_MAGIC, BSetBrightness.Id(), EncodeSetBrightness(SetBrightnessReq(ToByte(brightness), 3)), 0)
    ensures r.caller.None?
    ensures r.ret == 0
    ensures arrival.Some? ==> r.slot == EMPTY_SLOT
    ensures arrival.None? ==> r.slot.buffer.None?
  {
    SendCmd(slot, BSetBrightness.Id(), EncodeSetBrightness(SetBrightnessReq(ToByte(brightness), 3)), transport, arrival, None).(ret := 0)
  }

  /** The request SetBrightness sends decodes to the argument's low byte,
      addressed to both strips. */
  lemma SetBrightnessRequestDecodes(slot: ResponseSlot, brightness: U16, transport: Transport, arrival: Option<seq<Byte>>)
    ensures var f := SetBrightness(slot, brightness, transport, arrival).request.frame;
      && DecodeHeader(f) == Header(HEADER_MAGIC, BSetBrightness.Id(), SET_BRIGHTNESS_LEN)
      && DecodeSetBrightness(f[HEADER_SIZE..]) == SetBrightnessReq(brightness % 256, STRIP_TOP + STRIP_BOTTOM)
  {
    var p := EncodeSetBrightness(SetBrightnessReq(ToByte(brightness), 3));
    SerializeFrameParts(HEADER_MAGIC, BSetBrightness.Id(), p, 0);
    var f := SerializeFrame(HEADER_MAGIC, BSetBrightness.Id(), p, 0);
    SetBrightnessRoundTrip(SetBrightnessReq(ToByte(brightness), 3));
    assert f[HEADER_SIZE..][..SET_BRIGHTNESS_LEN] == p;
  }

  /** MLF_Comm_SetEffect: the arguments as given; returns 0 whatever the
      send does. */
  function SetEffect(slot: ResponseSlot, mode: Byte, speed: Byte, strip: Byte, color: U32,
                     transport: Transport, arrival: Option<seq<Byte>>): (r: SendResult)
    ensures r.request.frame ==
      SerializeFrame(HEADER_MAGIC, BSetEffect.Id(), EncodeSetEffect(SetEffectReq(mode, speed, strip, color)), 0)
    ensures r.caller.None?
    ensures r.ret == 0
    ensures arrival.Some? ==> r.slot == EMPTY_SLOT
    ensures arrival.None? ==> r.slot.buffer.None?
  {
    SendCmd(slot, BSetEffect.Id(), EncodeSetEffect(SetEffectReq(mode, speed, strip, color)), transport, arrival, None).(ret := 0)
  }

  /** The request SetEffect sends decodes to its arguments. */
  lemma SetEffectRequestDecodes(slot: ResponseSlot, mode: Byte, speed: Byte, strip: Byte, color: U32,
                                transport: Transport, arrival: Option<seq<Byte>>)
    ensures var f := SetEffect(slot, mode, speed, strip, color, transport, arrival).request.frame;
      && DecodeHeader(f) == Header(HEADER_MAGIC, BSetEffect.Id(), SET_EFFECT_LEN)
      && DecodeSetEffect(f[HEADER_SIZE..]) == SetEffectReq(mode, speed, strip, color)
  {
    var p := EncodeSetEffect(SetEffectReq(mode, speed, strip, color));
    SerializeFrameParts(HEADER_MAGIC, BSetEffect.Id(), p, 0);
    var f := SerializeFrame(HEADER_MAGIC, BSetEffect.Id(), p, 0);
    SetEffectRoundTrip(SetEffectReq(mode, speed, strip, color));
    assert f[HEADER_SIZE..][..SET_EFFECT_LEN] == p;
  }

  /** MLF_Comm_TurnOff / MLF_Comm_TurnOn: empty requests; like the other
      setters they return 0 whether or not a response arrives. */
  function TurnOff(slot: ResponseSlot, transport: Transport, arrival: Option<seq<Byte>>): (r: SendResult)
    ensures |r.request.frame| == HEADER_SIZE + FOOTER_SIZE
    ensures DecodeHeader(r.request.frame) == Header(HEADER_MAGIC, BTurnOff.Id(), 0)
    ensures r.ret == 0
    ensures arrival.Some? ==> r.slot == EMPTY_SLOT
    ensures arrival.None? ==> r.slot.buffer.None?
  {
    SerializeFrameParts(HEADER_MAGIC, BTurnOff.Id(), [], 0);
    SendCmd(slot, BTurnOff.Id(), [], transport, arrival, None).(ret := 0)
  }

  function TurnOn(slot: ResponseSlot, transport: Transport, arrival: Option<seq<Byte>>): (r: SendResult)
    ensures |r.request.frame| == HEADER_SIZE + FOOTER_SIZE
    ensures DecodeHeader(r.request.frame) == Header(HEADER_MAGIC, BTurnOn.Id(), 0)
    ensures r.ret == 0
    ensures arrival.Some? ==> r.slot == EMPTY_SLOT
    ensures arrival.None? ==> r.slot.buffer.None?
  {
    SerializeFrameParts(HEADER_MAGIC, BTurnOn.Id(), [], 0);
    SendCmd(slot, BTurnOn.Id(), [], transport, arrival, None).(ret := 0)
  }
}

=== FILE: reassembler.dfy ===
/** The packet buffer of both firmware variants (packet_buffer_*): it
    accumulates transport chunks into one complete frame, validating the
    header once and deciding completion from the declared data_size. */
module Reassembler {
  import opened Bytes
  import opened Wire

  /** Ticks after which a partial frame is considered stale. */
  const PACKET_BUFFER_MAX_DELAY: nat := 1000
  /** Capacity of the buffer: the largest payload plus header and footer. */
  const PACKET_BUFFER_MAX_SIZE: nat := MAX_DATA_SIZE + HEADER_SIZE + FOOTER_SIZE

  datatype PacketBuffer = PacketBuffer(bytes: seq<Byte>, headerValidated: bool, timeLastPacket: U32)

  /** The buffer after packet_buffer_clear. */
  const EMPTY: PacketBuffer := PacketBuffer([], false, 0)

  /** What an append does besides updating the buffer: nothing, an error
      reply written to the host, or a complete frame handed to the mailbox. */
  datatype Event = Quiet | ErrorReply(code: Status) | Submitted(frame: seq<Byte>)

  datatype AppendResult = AppendResult(buffer: PacketBuffer, ret: int, event: Event)

  /** A zero timestamp means "no partial frame timed"; the tick counter is a
      32-bit value, so the elapsed time wraps around. */
  predicate Overtime(pkt: PacketBuffer, now: U32) {
    pkt.timeLastPacket != 0 && ToU32(now - pkt.timeLastPacket) >= PACKET_BUFFER_MAX_DELAY
  }

  /** The total length a buffer must reach before its footer is checked. */
  function FrameLength(bytes: seq<Byte>): nat
    requires |bytes| >= HEADER_SIZE
  {
    HEADER_SIZE + ReadU16(bytes, 5) + FOOTER_SIZE
  }

  /** MLF_validate_header: magic, then command range (requests only), then
      data_size; None means the header is acceptable. */
  function ValidateHeader(cfg: Config, h: Header): (r: Option<Status>)
    ensures r.Some? ==> r.value in {InvalidHeader, InvalidCmd, DataTooLarge}
    ensures r == Some(InvalidCmd) <==> h.magic == HEADER_MAGIC && h.selector >= cfg.cmdMax
    ensures r == Some(InvalidHeader) <==> h.magic != HEADER_MAGIC && !(cfg.acceptResponses && h.magic == cfg.respMagic)
    ensures r == Some(DataTooLarge) <==>
      && (h.magic == HEADER_MAGIC || (cfg.acceptResponses && h.magic == cfg.respMagic))
      && (h.magic == HEADER_MAGIC ==> h.selector < cfg.cmdMax)
      && h.dataSize > MAX_DATA_SIZE
    ensures r.None? <==>
      && (h.magic == HEADER_MAGIC || (cfg.acceptResponses && h.magic == cfg.respMagic))
      && (h.magic == HEADER_MAGIC ==> h.selector < cfg.cmdMax)
      && h.dataSize <= MAX_DATA_SIZE
  {
    if h.magic == HEADER_MAGIC && h.selector >= cfg.cmdMax then Some(InvalidCmd)
    else if h.magic != HEADER_MAGIC && !(cfg.acceptResponses && h.magic == cfg.respMagic) then Some(InvalidHeader)
    else if h.dataSize > MAX_DATA_SIZE then Some(DataTooLarge)
    else None
  }

  predicate HeaderOk(cfg: Config, h: Header) {
    ValidateHeader(cfg, h).None?
  }

  /** MLF_validate_footer: only the footer magic decides; the USB variant
      also computes a CRC over header and payload but ignores a mismatch. */
  function ValidateFooter(bytes: seq<Byte>): (r: Option<Status>)
    requires |bytes| >= HEADER_SIZE && |bytes| >= FrameLength(bytes)
    ensures r.None? <==> DecodeFooter(bytes, HEADER_SIZE + ReadU16(bytes, 5)).magic == FOOTER_MAGIC
    ensures r.Some? ==> r.value == InvalidFooter
  {
    if ReadU32(bytes, HEADER_SIZE + ReadU16(bytes, 5) + 4) != FOOTER_MAGIC then Some(InvalidFooter) else None
  }

  /** A frame the reassembler may hand over: valid header, at least as long as
      its declared length, correct footer magic, and within the buffer. */
  predicate CompleteFrame(cfg: Config, f: seq<Byte>) {
    && |f| >= HEADER_SIZE
    && HeaderOk(cfg, DecodeHeader(f))
    && |f| >= FrameLength(f)
    && DecodeFooter(f, HEADER_SIZE + ReadU16(f, 5)).magic == FOOTER_MAGIC
    && |f| < PACKET_BUFFER_MAX_SIZE
  }

  /** The states the buffer can be in between appends. */
  predicate Inv(cfg: Config, pkt: PacketBuffer) {
    && |pkt.bytes| < PACKET_BUFFER_MAX_SIZE
    && (pkt.headerValidated <==> |pkt.bytes| >= HEADER_SIZE)
    && (pkt.headerValidated ==>
          HeaderOk(cfg, DecodeHeader(pkt.bytes)) && |pkt.bytes| < FrameLength(pkt.bytes))
  }

  /** The buffer an append starts from once staleness has been handled. */
  function Fresh(pkt: PacketBuffer, now: U32): PacketBuffer {
    if Overtime(pkt, now) then EMPTY else pkt
  }

  /** packet_buffer_append. */
  function Append(cfg: Config, pkt: PacketBuffer, chunk: seq<Byte>, now: U32): (r: AppendResult)
    ensures |chunk| == 0 ==> r == AppendResult(pkt, 0, Quiet)
    ensures r.ret == -1 <==> r.event.ErrorReply?
    ensures r.ret == 0 || r.ret == -1
    ensures !r.event.Quiet? ==> r.buffer == EMPTY
    ensures |chunk| > 0 && |Fresh(pkt, now).bytes| + |chunk| >= PACKET_BUFFER_MAX_SIZE ==>
              r == AppendResult(EMPTY, -1, ErrorReply(DataTooLarge))
    ensures |chunk| > 0 && r.event.Quiet? ==>
              r.buffer.bytes == Fresh(pkt, now).bytes + chunk && r.buffer.timeLastPacket == now
    ensures r.event.Submitted? ==> r.event.frame == Fresh(pkt, now).bytes + chunk
    // the chunk that first completes the header, when validation rejects it
    ensures var base := Fresh(pkt, now); var bytes := base.bytes + chunk;
      |chunk| > 0 && |bytes| < PACKET_BUFFER_MAX_SIZE && !base.headerValidated && |bytes| >= HEADER_SIZE
      && ValidateHeader(cfg, DecodeHeader(bytes)).Some? ==>
        r == AppendResult(EMPTY, -1, ErrorReply(ValidateHeader(cfg, DecodeHeader(bytes)).value))
    // a frame of its declared length whose header passed: the footer magic decides
    ensures var base := Fresh(pkt, now); var bytes := base.bytes + chunk;
      |chunk| > 0 && |bytes| < PACKET_BUFFER_MAX_SIZE && |bytes| >= HEADER_SIZE
      && (base.headerValidated || HeaderOk(cfg, DecodeHeader(bytes))) && |bytes| >= FrameLength(bytes) ==>
        r == (if DecodeFooter(bytes, HEADER_SIZE + ReadU16(bytes, 5)).magic == FOOTER_MAGIC
              then AppendResult(EMPTY, 0, Submitted(bytes))
              else AppendResult(EMPTY, -1, ErrorReply(InvalidFooter)))
  {
    if |chunk| == 0 then AppendResult(pkt, 0, Quiet)
    else
      var base := Fresh(pkt, now);
      if |base.bytes| + |chunk| >= PACKET_BUFFER_MAX_SIZE then
        AppendResult(EMPTY, -1, ErrorReply(DataTooLarge))
      else
        var bytes := base.bytes + chunk;
        var headerError :=
          if !base.headerValidated && |bytes| >= HEADER_SIZE then ValidateHeader(cfg, DecodeHeader(bytes))
          else None;
        if headerError.Some? then AppendResult(EMPTY, -1, ErrorReply(headerError.value))
        else if |bytes| >= HEADER_SIZE && |bytes| >= FrameLength(bytes) then
          match ValidateFooter(bytes)
          case Some(e) => AppendResult(EMPTY, -1, ErrorReply(e))
          case None => AppendResult(EMPTY, 0, Submitted(bytes))
        else
          AppendResult(PacketBuffer(bytes, base.headerValidated || |bytes| >= HEADER_SIZE, now), 0, Quiet)
  }

  lemma EmptyInv(cfg: Config)
    ensures Inv(cfg, EMPTY)
  {
  }

  lemma HeaderOfPrefix(s: seq<Byte>, t: seq<Byte>)
    requires |s| >= HEADER_SIZE
    ensures DecodeHeader(s + t) == DecodeHeader(s)
    ensures FrameLength(s + t) == FrameLength(s)
  {
    assert (s + t)[..HEADER_SIZE] == s[..HEADER_SIZE];
  }

  /** Appending keeps the buffer invariant, so the buffer never reaches its
      capacity, and every frame handed over is a complete, validated frame. */
  lemma AppendPreservesInv(cfg: Config, pkt: PacketBuffer, chunk: seq<Byte>, now: U32)
    requires Inv(cfg, pkt)
    ensures var r := Append(cfg, pkt, chunk, now);
      && Inv(cfg, r.buffer)
      && |r.buffer.bytes| < PACKET_BUFFER_MAX_SIZE
      && (r.event.Submitted? ==> CompleteFrame(cfg, r.event.frame))
  {
    var r := Append(cfg, pkt, chunk, now);
    if |chunk| > 0 {
      var base := Fresh(pkt, now);
      assert Inv(cfg, base);
      if |base.bytes| + |chunk| < PACKET_BUFFER_MAX_SIZE {
        var bytes := base.bytes + chunk;
        if base.headerValidated {
          HeaderOfPrefix(base.bytes, chunk);
        }
        if r.event.Submitted? {
          assert r.event.frame == bytes;
        }
      }
    }
  }

  /** A stale partial frame is discarded: the append behaves exactly as on an
      empty buffer. */
  lemma StaleBufferDiscarded(cfg: Config, pkt: PacketBuffer, chunk: seq<Byte>, now: U32)
    requires |chunk| > 0 && Overtime(pkt, now)
    ensures Append(cfg, pkt, chunk, now) == Append(cfg, EMPTY, chunk, now)
  {
  }

  /** Once validated, the header is not checked again: a later append cannot
      report an invalid magic or command unless the buffer went stale. */
  lemma HeaderValidatedOnce(cfg: Config, pkt: PacketBuffer, chunk: seq<Byte>, now: U32)
    requires Inv(cfg, pkt) && pkt.headerValidated && !Overtime(pkt, now)
    ensures Append(cfg, pkt, chunk, now).event !in {ErrorReply(InvalidHeader), ErrorReply(InvalidCmd)}
  {
  }

  /** A request header declaring the maximum payload of 2048 bytes is
      accepted by the header check ... */
  lemma MaxPayloadHeaderAccepted(cfg: Config, cmd: Byte)
    requires cmd < cfg.cmdMax
    ensures HeaderOk(cfg, Header(HEADER_MAGIC, cmd, MAX_DATA_SIZE))
  {
  }

  /** ... but because the overflow test is `size + len >= capacity`, a frame
      carrying 2048 payload bytes is never handed over, whatever the chunks. */
  lemma MaxPayloadFrameNeverSubmitted(
    cfg: Config, pkt: PacketBuffer, chunk: seq<Byte>, now: U32,
    magic: U32, selector: Byte, payload: seq<Byte>, crc: U32)
    requires Inv(cfg, pkt)
    requires |payload| == MAX_DATA_SIZE
    ensures Append(cfg, pkt, chunk, now).event != Submitted(SerializeFrame(magic, selector, payload, crc))
  {
    AppendPreservesInv(cfg, pkt, chunk, now);
  }

  // ---------------------------------------------------------------------
  // Feeding a sequence of chunks

  function Flatten(chunks: seq<seq<Byte>>): seq<Byte> {
    if chunks == [] then [] else chunks[0] + Flatten(chunks[1..])
  }

  /** Appends chunk j at tick ticks[j], collecting the non-quiet events. */
  function FeedAll(cfg: Config, pkt: PacketBuffer, chunks: seq<seq<Byte>>, ticks: seq<U32>): (PacketBuffer, seq<Event>)
    requires |ticks| == |chunks|
    decreases |chunks|
  {
    if chunks == [] then (pkt, [])
    else
      var r := Append(cfg, pkt, chunks[0], ticks[0]);
      var (b, evs) := FeedAll(cfg, r.buffer, chunks[1..], ticks[1..]);
      (b, (if r.event.Quiet? then [] else [r.event]) + evs)
  }

  /** No non-empty chunk finds the buffer stale: each arrives less than
      PACKET_BUFFER_MAX_DELAY ticks (modulo 2^32) after the previous non-empty
      one, whose tick is the buffer's timestamp; a zero `stamp` is never
      stale. Empty chunks return before the staleness test. */
  predicate OnTime(stamp: U32, chunks: seq<seq<Byte>>, ticks: seq<U32>)
    requires |ticks| == |chunks|
    decreases |chunks|
  {
    if chunks == [] then true
    else if |chunks[0]| == 0 then OnTime(stamp, chunks[1..], ticks[1..])
    else (stamp == 0 || ToU32(ticks[0] - stamp) < PACKET_BUFFER_MAX_DELAY) && OnTime(ticks[0], chunks[1..], ticks[1..])
  }

  /** The first non-empty chunk finds `pkt` stale. */
  predicate StaleOnArrival(pkt: PacketBuffer, chunks: seq<seq<Byte>>, ticks: seq<U32>)
    requires |ticks| == |chunks|
    decreases |chunks|
  {
    if chunks == [] then false
    else if |chunks[0]| == 0 then StaleOnArrival(pkt, chunks[1..], ticks[1..])
    else Overtime(pkt, ticks[0])
  }

  /** Chunks that all arrive at one tick are on time. */
  lemma {:induction false} SameTickOnTime(stamp: U32, chunks: seq<seq<Byte>>, now: U32)
    requires stamp == 0 || stamp == now
    ensures OnTime(stamp, chunks, seq(|chunks|, _ => now))
    decreases |chunks|
  {
    if chunks != [] {
      var ticks := seq(|chunks|, _ => now);
      assert ticks[1..] == seq(|chunks| - 1, _ => now);
      SameTickOnTime(if |chunks[0]| == 0 then stamp else now, chunks[1..], now);
    }
  }

  lemma {:induction false} FeedEmptyChunks(cfg: Config, pkt: PacketBuffer, chunks: seq<seq<Byte>>, ticks: seq<U32>)
    requires |ticks| == |chunks| && Flatten(chunks) == []
    ensures FeedAll(cfg, pkt, chunks, ticks) == (pkt, [])
  {
    if chunks != [] {
      assert |chunks[0]| == 0;
      FeedEmptyChunks(cfg, pkt, chunks[1..], ticks[1..]);
    }
  }

  /** A frame exactly as long as its header declares. */
  predicate ExactFrame(cfg: Config, f: seq<Byte>) {
    CompleteFrame(cfg, f) && |f| == FrameLength(f)
  }

  /** The state before a chunk of an exact frame arrives: the buffer holds the
      frame's first k bytes, its header flag set once 7 of them are in. */
  predicate HoldsPrefix(frame: seq<Byte>, k: nat, pkt: PacketBuffer) {
    && k <= |frame|
    && pkt.bytes == frame[..k]
    && pkt.headerValidated == (k >= HEADER_SIZE)
  }

  /** The header check and the length test see the frame's own header as soon
      as a prefix of 7 bytes or more is buffered. */
  lemma PrefixHeader(cfg: Config, frame: seq<Byte>, k': nat)
    requires ExactFrame(cfg, frame)
    requires HEADER_SIZE <= k' <= |frame|
    ensures HeaderOk(cfg, DecodeHeader(frame[..k']))
    ensures FrameLength(frame[..k']) == |frame|
  {
    HeaderOfPrefix(frame[..k'], frame[k'..]);
    assert frame[..k'] + frame[k'..] == frame;
  }

  /** A chunk that stops short of the frame's end, arriving in time, is
      buffered quietly and timestamped. */
  lemma AppendFrameMiddle(cfg: Config, frame: seq<Byte>, k: nat, pkt: PacketBuffer, c: seq<Byte>, now: U32)
    requires ExactFrame(cfg, frame) && HoldsPrefix(frame, k, pkt) && !Overtime(pkt, now)
    requires 0 < |c| && k + |c| < |frame| && c == frame[k..k + |c|]
    ensures Append(cfg, pkt, c, now) ==
      AppendResult(PacketBuffer(frame[..k + |c|], k + |c| >= HEADER_SIZE, now), 0, Quiet)
  {
    var k' := k + |c|;
    assert Fresh(pkt, now) == pkt;
    var bytes := pkt.bytes + c;
    assert bytes == frame[..k'] by {
      assert frame[..k'] == frame[..k] + frame[k..k'];
    }
    if k' >= HEADER_SIZE {
      PrefixHeader(cfg, frame, k');
    }
  }

  /** The chunk that reaches the frame's end, arriving in time, hands the
      frame over. */
  lemma AppendFrameEnd(cfg: Config, frame: seq<Byte>, k: nat, pkt: PacketBuffer, c: seq<Byte>, now: U32)
    requires ExactFrame(cfg, frame) && HoldsPrefix(frame, k, pkt) && !Overtime(pkt, now)
    requires 0 < |c| && k + |c| == |frame| && c == frame[k..]
    ensures Append(cfg, pkt, c, now) == AppendResult(EMPTY, 0, Submitted(frame))
  {
    assert pkt.bytes + c == frame by {
      assert frame == frame[..k] + frame[k..];
    }
    AppendCompletes(cfg, pkt, c, now, frame);
  }

  /** A buffer that is not stale and whose bytes with the chunk make the
      exact frame `frame` hands that frame over. */
  lemma AppendCompletes(cfg: Config, pkt: PacketBuffer, c: seq<Byte>, now: U32, frame: seq<Byte>)
    requires 0 < |c| && !Overtime(pkt, now)
    requires ExactFrame(cfg, frame) && pkt.bytes + c == frame
    ensures Append(cfg, pkt, c, now) == AppendResult(EMPTY, 0, Submitted(frame))
  {
    assert Fresh(pkt, now) == pkt;
    assert ValidateHeader(cfg, DecodeHeader(frame)) == None;
    assert ValidateFooter(frame) == None;
  }

  /** A quiet first chunk contributes nothing but the new buffer. */
  lemma FeedQuietStep(cfg: Config, pkt: PacketBuffer, chunks: seq<seq<Byte>>, ticks: seq<U32>, b: PacketBuffer)
    requires |ticks| == |chunks| && chunks != []
    requires Append(cfg, pkt, chunks[0], ticks[0]) == AppendResult(b, 0, Quiet)
    ensures FeedAll(cfg, pkt, chunks, ticks) == FeedAll(cfg, b, chunks[1..], ticks[1..])
  {
    assert [] + FeedAll(cfg, b, chunks[1..], ticks[1..]).1 == FeedAll(cfg, b, chunks[1..], ticks[1..]).1;
  }

  /** A first chunk that completes a frame, followed only by empty chunks. */
  lemma FeedSubmitStep(cfg: Config, pkt: PacketBuffer, chunks: seq<seq<Byte>>, ticks: seq<U32>, f: seq<Byte>)
    requires |ticks| == |chunks| && chunks != []
    requires Append(cfg, pkt, chunks[0], ticks[0]) == AppendResult(EMPTY, 0, Submitted(f))
    requires Flatten(chunks[1..]) == []
    ensures FeedAll(cfg, pkt, chunks, ticks) == (EMPTY, [Submitted(f)])
  {
    FeedEmptyChunks(cfg, EMPTY, chunks[1..], ticks[1..]);
    assert [Submitted(f)] + [] == [Submitted(f)];
  }

  /** The first chunk of the rest of an exact frame either finishes the
      frame, or leaves a longer prefix buffered, timestamped so that the
      remaining chunks are still on time. */
  lemma PrefixStep(cfg: Config, frame: seq<Byte>, k: nat, pkt: PacketBuffer, chunks: seq<seq<Byte>>, ticks: seq<U32>)
    returns (done: bool, k': nat, b: PacketBuffer)
    requires ExactFrame(cfg, frame) && |ticks| == |chunks|
    requires k < |frame| && HoldsPrefix(frame, k, pkt) && OnTime(pkt.timeLastPacket, chunks, ticks)
    requires Flatten(chunks) == frame[k..]
    ensures chunks != []
    ensures done ==> FeedAll(cfg, pkt, chunks, ticks) == (EMPTY, [Submitted(frame)])
    ensures !done ==> && k' < |frame| && HoldsPrefix(frame, k', b)
                      && OnTime(b.timeLastPacket, chunks[1..], ticks[1..])
                      && Flatten(chunks[1..]) == frame[k'..]
                      && FeedAll(cfg, pkt, chunks, ticks) == FeedAll(cfg, b, chunks[1..], ticks[1..])
  {
    FlattenFront(chunks, frame, k);
    var c := chunks[0];
    k' := k + |c|;
    if |c| == 0 {
      done, b := false, pkt;
      FeedQuietStep(cfg, pkt, chunks, ticks, pkt);
    } else if k' == |frame| {
      done, b := true, EMPTY;
      AppendFrameEnd(cfg, frame, k, pkt, c, ticks[0]);
      FeedSubmitStep(cfg, pkt, chunks, ticks, frame);
    } else {
      done, b := false, PacketBuffer(frame[..k'], k' >= HEADER_SIZE, ticks[0]);
      AppendFrameMiddle(cfg, frame, k, pkt, c, ticks[0]);
      FeedQuietStep(cfg, pkt, chunks, ticks, b);
    }
  }

  /** The first chunk of a chunking of `frame[k..]` is the next slice of the
      frame, and the other chunks carry the rest. */
  lemma FlattenFront(chunks: seq<seq<Byte>>, frame: seq<Byte>, k: nat)
    requires k < |frame| && Flatten(chunks) == frame[k..]
    ensures chunks != [] && k + |chunks[0]| <= |frame|
    ensures chunks[0] == frame[k..k + |chunks[0]|]
    ensures Flatten(chunks[1..]) == frame[k + |chunks[0]|..]
  {
    var c := chunks[0];
    assert frame[k..] == c + Flatten(chunks[1..]);
    assert c == frame[k..][..|c|];
    assert Flatten(chunks[1..]) == frame[k..][|c|..];
  }

  lemma {:induction false} FeedFromPrefix(
    cfg: Config, frame: seq<Byte>, k: nat, pkt: PacketBuffer, chunks: seq<seq<Byte>>, ticks: seq<U32>)
    requires ExactFrame(cfg, frame) && |ticks| == |chunks|
    requires k < |frame| && HoldsPrefix(frame, k, pkt) && OnTime(pkt.timeLastPacket, chunks, ticks)
    requires Flatten(chunks) == frame[k..]
    ensures FeedAll(cfg, pkt, chunks, ticks) == (EMPTY, [Submitted(frame)])
    decreases |chunks|
  {
    var done, k', b := PrefixStep(cfg, frame, k, pkt, chunks, ticks);
    if !done {
      FeedFromPrefix(cfg, frame, k', b, chunks[1..], ticks[1..]);
    }
  }

  lemma {:induction false} FeedStaleStart(cfg: Config, pkt: PacketBuffer, chunks: seq<seq<Byte>>, ticks: seq<U32>)
    requires |ticks| == |chunks| && StaleOnArrival(pkt, chunks, ticks)
    ensures FeedAll(cfg, pkt, chunks, ticks) == FeedAll(cfg, EMPTY, chunks, ticks)
  {
    if |chunks[0]| == 0 {
      FeedStaleStart(cfg, pkt, chunks[1..], ticks[1..]);
    } else {
      StaleBufferDiscarded(cfg, pkt, chunks[0], ticks[0]);
    }
  }

  /** Framing round trip: a serialized frame with an acceptable header and a
      payload below 2048 bytes, fed in any chunking (one byte at a time
      included) at any ticks that keep each chunk within the staleness delay
      of the previous one, into an empty buffer or one that is stale when the
      first bytes arrive, yields exactly one frame, equal to the one sent,
      whatever its CRC field, and leaves the buffer empty. */
  lemma FramingRoundTrip(
    cfg: Config, pkt: PacketBuffer, magic: U32, selector: Byte, payload: seq<Byte>, crc: U32,
    chunks: seq<seq<Byte>>, ticks: seq<U32>)
    requires |ticks| == |chunks|
    requires pkt == EMPTY || StaleOnArrival(pkt, chunks, ticks)
    requires OnTime(0, chunks, ticks)
    requires |payload| < MAX_DATA_SIZE
    requires HeaderOk(cfg, Header(magic, selector, |payload|))
    requires Flatten(chunks) == SerializeFrame(magic, selector, payload, crc)
    ensures FeedAll(cfg, pkt, chunks, ticks) == (EMPTY, [Submitted(SerializeFrame(magic, selector, payload, crc))])
  {
    var frame := SerializeFrame(magic, selector, payload, crc);
    SerializeFrameParts(magic, selector, payload, crc);
    assert ExactFrame(cfg, frame);
    if pkt != EMPTY {
      FeedStaleStart(cfg, pkt, chunks, ticks);
    }
    assert frame[0..] == frame;
    FeedFromPrefix(cfg, frame, 0, EMPTY, chunks, ticks);
  }
}

=== FILE: wire.dfy ===
/** The MLF wire format: magic numbers, command ids, status codes, the packed
    7-byte header, the 8-byte footer and the command payload structs. */
module Wire {
  import opened Bytes

  const HEADER_MAGIC: U32 := 0x004D_4C46
  /** Response magic of the second firmware generation (the UART bridge and
      the newer host library); its defining header is not part of this model. */
  const RESP_HEADER_MAGIC: U32 := 0x0052_4C4D
  const FOOTER_MAGIC: U32 := 0x7364_656C
  const MAX_DATA_SIZE: nat := 2048

  /** sizeof of the packed header and footer structs. */
  const HEADER_SIZE: nat := 7
  const FOOTER_SIZE: nat := 8

  /** Command ids of the USB controller (enum MLF_commands). */
  datatype Command =
    | TurnOff | GetInfo | FeaturePing | FeaturePingConfig
    | SetBrightness | SetColor | SetEffect
  {
    function Id(): Byte {
      match this
      case TurnOff => 0
      case GetInfo => 1
      case FeaturePing => 2
      case FeaturePingConfig => 3
      case SetBrightness => 4
      case SetColor => 5
      case SetEffect => 6
    }
  }

  /** MLF_CMD_MAX, the exclusive upper bound of command ids. */
  const CMD_MAX: nat := 7

  function CommandOfId(id: int): (r: Option<Command>)
    ensures r.Some? <==> 0 <= id < CMD_MAX
    ensures r.Some? ==> r.value.Id() == id
  {
    if id == 0 then Some(TurnOff)
    else if id == 1 then Some(GetInfo)
    else if id == 2 then Some(FeaturePing)
    else if id == 3 then Some(FeaturePingConfig)
    else if id == 4 then Some(SetBrightness)
    else if id == 5 then Some(SetColor)
    else if id == 6 then Some(SetEffect)
    else None
  }

  lemma CommandIdsBelowMax(c: Command)
    ensures c.Id() < CMD_MAX
    ensures CommandOfId(c.Id()) == Some(c)
  {
  }

  /** Status and error codes carried in the selector byte of a response. */
  datatype Status =
    | Ok | Ping
    | CrcFail | InvalidCmd | InvalidHeader | InvalidData | InvalidFooter
    | NotReady | Timeout | DataTooLarge
  {
    function Code(): Byte {
      match this
      case Ok => 0
      case Ping => 1
      case CrcFail => 128
      case InvalidCmd => 129
      case InvalidHeader => 130
      case InvalidData => 131
      case InvalidFooter => 132
      case NotReady => 133
      case Timeout => 134
      case DataTooLarge => 135
    }

    predicate IsError() {
      !(Ok? || Ping?)
    }
  }

  function StatusOfCode(code: int): (r: Option<Status>)
    ensures r.Some? ==> r.value.Code() == code
  {
    if code == 0 then Some(Ok)
    else if code == 1 then Some(Ping)
    else if code == 128 then Some(CrcFail)
    else if code == 129 then Some(InvalidCmd)
    else if code == 130 then Some(InvalidHeader)
    else if code == 131 then Some(InvalidData)
    else if code == 132 then Some(InvalidFooter)
    else if code == 133 then Some(NotReady)
    else if code == 134 then Some(Timeout)
    else if code == 135 then Some(DataTooLarge)
    else None
  }

  /** OK is 0, PING is 1, and the error codes are exactly 128..135. */
  lemma StatusCodes(s: Status)
    ensures StatusOfCode(s.Code()) == Some(s)
    ensures s.IsError() <==> 128 <= s.Code() <= 135
    ensures !s.IsError() <==> s.Code() <= 1
  {
  }

  lemma StatusCodeKnown(code: int)
    ensures StatusOfCode(code).Some? <==> code == 0 || code == 1 || 128 <= code <= 135
  {
  }

  /** Request and response headers share this packed layout:
      magic(4) | cmd or error_code(1) | data_size(2). */
  datatype Header = Header(magic: U32, selector: Byte, dataSize: U16)

  function EncodeHeader(h: Header): (r: seq<Byte>)
    ensures |r| == HEADER_SIZE
  {
    U32Bytes(h.magic) + [h.selector] + U16Bytes(h.dataSize)
  }

  function DecodeHeader(s: seq<Byte>): Header
    requires |s| >= HEADER_SIZE
  {
    Header(ReadU32(s, 0), s[4], ReadU16(s, 5))
  }

  lemma HeaderRoundTrip(h: Header)
    ensures DecodeHeader(EncodeHeader(h)) == h
  {
    var r := EncodeHeader(h);
    U32RoundTrip(h.magic);
    assert r[..4] == U32Bytes(h.magic);
    assert ReadU32(r, 0) == ReadU32(U32Bytes(h.magic), 0);
    U16RoundTrip(h.dataSize);
    assert ReadU16(r, 5) == ReadU16(U16Bytes(h.dataSize), 0);
  }

  lemma HeaderBytesRoundTrip(s: seq<Byte>)
    requires |s| >= HEADER_SIZE
    ensures EncodeHeader(DecodeHeader(s)) == s[..HEADER_SIZE]
  {
    U32BytesOfRead(s, 0);
    U16BytesOfRead(s, 5);
  }

  /** The footer: CRC first, then the footer magic. */
  datatype Footer = Footer(crc: U32, magic: U32)

  function EncodeFooter(f: Footer): (r: seq<Byte>)
    ensures |r| == FOOTER_SIZE
  {
    U32Bytes(f.crc) + U32Bytes(f.magic)
  }

  function DecodeFooter(s: seq<Byte>, off: nat): Footer
    requires off + FOOTER_SIZE <= |s|
  {
    Footer(ReadU32(s, off), ReadU32(s, off + 4))
  }

  lemma FooterRoundTrip(f: Footer, prefix: seq<Byte>, suffix: seq<Byte>)
    ensures DecodeFooter(prefix + EncodeFooter(f) + suffix, |prefix|) == f
  {
    var s := prefix + EncodeFooter(f) + suffix;
    var n := |prefix|;
    U32RoundTrip(f.crc);
    U32RoundTrip(f.magic);
    assert s[n..n + 4] == U32Bytes(f.crc);
    assert s[n + 4..n + 8] == U32Bytes(f.magic);
    assert ReadU32(s, n) == ReadU32(U32Bytes(f.crc), 0);
    assert ReadU32(s, n + 4) == ReadU32(U32Bytes(f.magic), 0);
  }

  /** A whole frame: header(magic, selector, |payload|) ++ payload ++ footer. */
  function SerializeFrame(magic: U32, selector: Byte, payload: seq<Byte>, crc: U32): (r: seq<Byte>)
    requires |payload| < 0x1_0000
    ensures |r| == HEADER_SIZE + |payload| + FOOTER_SIZE
  {
    EncodeHeader(Header(magic, selector, |payload|)) + payload + EncodeFooter(Footer(crc, FOOTER_MAGIC))
  }

  /** Reading a serialized frame back gives its header, payload and footer. */
  lemma SerializeFrameParts(magic: U32, selector: Byte, payload: seq<Byte>, crc: U32)
    requires |payload| < 0x1_0000
    ensures var r := SerializeFrame(magic, selector, payload, crc);
      && DecodeHeader(r) == Header(magic, selector, |payload|)
      && r[HEADER_SIZE..HEADER_SIZE + |payload|] == payload
      && DecodeFooter(r, HEADER_SIZE + |payload|) == Footer(crc, FOOTER_MAGIC)
  {
    var h := Header(magic, selector, |payload|);
    var r := SerializeFrame(magic, selector, payload, crc);
    HeaderRoundTrip(h);
    assert r[..HEADER_SIZE] == EncodeHeader(h);
    assert DecodeHeader(r) == DecodeHeader(r[..HEADER_SIZE]);
    FooterRoundTrip(Footer(crc, FOOTER_MAGIC), EncodeHeader(h) + payload, []);
    assert r == EncodeHeader(h) + payload + EncodeFooter(Footer(crc, FOOTER_MAGIC)) + [];
  }

  /** The two protocol generations differ in these parameters. */
  datatype Config = Config(
    respMagic: U32,         // magic stamped on responses
    acceptResponses: bool,  // whether inbound frames may carry respMagic
    retryBudget: nat,       // write attempts for a data response or a command
    cmdMax: nat,            // exclusive bound on inbound command ids
    crcInFooter: bool,      // whether outbound footers carry a CRC
    maxOutput: Option<nat>  // largest outbound frame, if bounded
  )

  /** The USB controller: one magic for both directions, CRC footers,
      request-only inbound headers, 30 attempts per response. */
  const STM32_CONFIG: Config := Config(HEADER_MAGIC, false, 30, CMD_MAX, true, None)

  /** The UART bridge generation: a distinct response magic accepted inbound,
      6 attempts, no CRC, outbound frames bounded by MAX_OUTPUT_SIZE. */
  const ESP_CMD_MAX: nat := 9
  const ESP_CONFIG: Config :=
    Config(RESP_HEADER_MAGIC, true, 6, ESP_CMD_MAX, false, Some(HEADER_SIZE + FOOTER_SIZE + 1024))

  /** Command ids of the second generation, in their declared order; the
      reserved handler slot for inbound responses is not a wire id. */
  datatype BridgeCommand =
    | BTurnOff | BTurnOn | BGetInfo | BSetBrightness | BSetColor | BSetEffect
    | BGetBrightness | BGetEffect | BGetOnState
  {
    function Id(): (id: Byte)
      ensures id < ESP_CMD_MAX
    {
      match this
      case BTurnOff => 0
      case BTurnOn => 1
      case BGetInfo => 2
      case BSetBrightness => 3
      case BSetColor => 4
      case BSetEffect => 5
      case BGetBrightness => 6
      case BGetEffect => 7
      case BGetOnState => 8
    }
  }

  lemma BridgeCommandIdsDistinct(a: BridgeCommand, b: BridgeCommand)
    ensures a.Id() == b.Id() <==> a == b
  {
  }

  /** The CRC field an outbound frame carries under `cfg`. */
  function FooterCrc(cfg: Config, crc: seq<Byte> -> U32, headerAndPayload: seq<Byte>): (r: U32)
    ensures !cfg.crcInFooter ==> r == 0
    ensures cfg.crcInFooter ==> r == crc(headerAndPayload)
  {
    if cfg.crcInFooter then crc(headerAndPayload) else 0
  }

  // ---------------------------------------------------------------------
  // Command payloads

  /** Strip mask bits. */
  const STRIP_TOP: Byte := 1
  const STRIP_BOTTOM: Byte := 2

  predicate HasTop(mask: Byte) { mask % 2 == 1 }
  predicate HasBottom(mask: Byte) { (mask / 2) % 2 == 1 }

  lemma StripBits()
    ensures HasTop(STRIP_TOP) && !HasBottom(STRIP_TOP)
    ensures HasBottom(STRIP_BOTTOM) && !HasTop(STRIP_BOTTOM)
    ensures HasTop(3) && HasBottom(3)
  {
  }

  datatype GetInfoResp = GetInfoResp(fwVersion: Byte, ledsTop: U16, ledsBottom: U16)
  const GET_INFO_LEN: nat := 5

  function EncodeGetInfo(g: GetInfoResp): (r: seq<Byte>)
    ensures |r| == GET_INFO_LEN
  {
    [g.fwVersion] + U16Bytes(g.ledsTop) + U16Bytes(g.ledsBottom)
  }

  function DecodeGetInfo(s: seq<Byte>): GetInfoResp
    requires |s| >= GET_INFO_LEN
  {
    GetInfoResp(s[0], ReadU16(s, 1), ReadU16(s, 3))
  }

  lemma GetInfoRoundTrip(g: GetInfoResp)
    ensures DecodeGetInfo(EncodeGetInfo(g)) == g
  {
    var r := EncodeGetInfo(g);
    U16RoundTrip(g.ledsTop);
    U16RoundTrip(g.ledsBottom);
    assert ReadU16(r, 1) == ReadU16(U16Bytes(g.ledsTop), 0);
    assert ReadU16(r, 3) == ReadU16(U16Bytes(g.ledsBottom), 0);
  }

  datatype SetBrightnessReq = SetBrightnessReq(brightness: Byte, strip: Byte)
  const SET_BRIGHTNESS_LEN: nat := 2

  function EncodeSetBrightness(b: SetBrightnessReq): (r: seq<Byte>)
    ensures |r| == SET_BRIGHTNESS_LEN
  {
    [b.brightness, b.strip]
  }

  function DecodeSetBrightness(s: seq<Byte>): SetBrightnessReq
    requires |s| >= SET_BRIGHTNESS_LEN
  {
    SetBrightnessReq(s[0], s[1])
  }

  lemma SetBrightnessRoundTrip(b: SetBrightnessReq)
    ensures DecodeSetBrightness(EncodeSetBrightness(b)) == b
  {
  }

  datatype SetEffectReq = SetEffectReq(effect: Byte, speed: Byte, strip: Byte, color: U32)
  const SET_EFFECT_LEN: nat := 7

  function EncodeSetEffect(e: SetEffectReq): (r: seq<Byte>)
    ensures |r| == SET_EFFECT_LEN
  {
    [e.effect, e.speed, e.strip] + U32Bytes(e.color)
  }

  function DecodeSetEffect(s: seq<Byte>): SetEffectReq
    requires |s| >= SET_EFFECT_LEN
  {
    SetEffectReq(s[0], s[1], s[2], ReadU32(s, 3))
  }

  lemma SetEffectRoundTrip(e: SetEffectReq)
    ensures DecodeSetEffect(EncodeSetEffect(e)) == e
  {
    var r := EncodeSetEffect(e);
    U32RoundTrip(e.color);
    assert r[3..7] == U32Bytes(e.color);
    assert ReadU32(r, 3) == ReadU32(U32Bytes(e.color), 0);
  }

  /** set_color: one strip byte, then 4-byte little-endian colours. */
  datatype SetColorReq = SetColorReq(strip: Byte, colors: seq<U32>)

  function EncodeColors(cs: seq<U32>): (r: seq<Byte>)
    ensures |r| == 4 * |cs|
  {
    if cs == [] then [] else U32Bytes(cs[0]) + EncodeColors(cs[1..])
  }

  function EncodeSetColor(c: SetColorReq): (r: seq<Byte>)
    ensures |r| == 1 + 4 * |c.colors|
  {
    [c.strip] + EncodeColors(c.colors)
  }

  /** The i-th colour of a set_color payload (after the strip byte). */
  function ColorAt(payload: seq<Byte>, i: nat): U32
    requires 1 + 4 * i + 4 <= |payload|
  {
    ReadU32(payload, 1 + 4 * i)
  }

  lemma {:induction false} EncodeColorsAt(cs: seq<U32>, i: nat)
    requires i < |cs|
    ensures ReadU32(EncodeColors(cs), 4 * i) == cs[i]
  {
    var r := EncodeColors(cs);
    if i == 0 {
      U32RoundTrip(cs[0]);
      assert r[..4] == U32Bytes(cs[0]);
      assert ReadU32(r, 0) == ReadU32(U32Bytes(cs[0]), 0);
    } else {
      EncodeColorsAt(cs[1..], i - 1);
      var tail := EncodeColors(cs[1..]);
      assert r == U32Bytes(cs[0]) + tail;
      assert r[4 * i..4 * i + 4] == tail[4 * (i - 1)..4 * (i - 1) + 4];
      assert ReadU32(r, 4 * i) == ReadU32(tail, 4 * (i - 1));
    }
  }

  /** Every colour of an encoded set_color request is read back at its slot. */
  lemma SetColorRoundTrip(c: SetColorReq, i: nat)
    requires i < |c.colors|
    ensures EncodeSetColor(c)[0] == c.strip
    ensures ColorAt(EncodeSetColor(c), i) == c.colors[i]
  {
    var r := EncodeSetColor(c);
    EncodeColorsAt(c.colors, i);
    var e := EncodeColors(c.colors);
    assert r[1 + 4 * i..1 + 4 * i + 4] == e[4 * i..4 * i + 4];
  }

  // Response payloads of the second generation.
  const GET_BRIGHTNESS_LEN: nat := 1
  const GET_EFFECT_LEN: nat := 6
  const GET_ON_STATE_LEN: nat := 1

  datatype GetEffectResp = GetEffectResp(effect: Byte, speed: Byte, color: U32)

  function EncodeGetEffect(g: GetEffectResp): (r: seq<Byte>)
    ensures |r| == GET_EFFECT_LEN
  {
    [g.effect, g.speed] + U32Bytes(g.color)
  }

  function DecodeGetEffect(s: seq<Byte>): GetEffectResp
    requires |s| >= GET_EFFECT_LEN
  {
    GetEffectResp(s[0], s[1], ReadU32(s, 2))
  }

  lemma GetEffectRoundTrip(g: GetEffectResp)
    ensures DecodeGetEffect(EncodeGetEffect(g)) == g
  {
    var r := EncodeGetEffect(g);
    U32RoundTrip(g.color);
    assert ReadU32(r, 2) == ReadU32(U32Bytes(g.color), 0);
  }
}

=== FILE: ws2812.dfy ===
// WS2812B LED strip driver of the controller firmware: every colour bit is
// sent as a 3-bit SPI symbol, a diode takes 9 SPI bytes (G, R, B), and the
// diode area is followed by a 125-byte zero reset tail.

module Ws2812 {
  import opened Bytes

  const SPI_DATA_0: nat := 1    // 0b001
  const SPI_DATA_1: nat := 3    // 0b011
  const SPI_RES_SIGNAL_LEN: nat := 125

  // Each diode takes 9 SPI bytes (SPI_BYTES_PER_DIODE in the firmware);
  // offsets below use the literal so that they stay linear arithmetic.

  /** Size of the SPI buffer for a strip of `leds` diodes. */
  function SpiBufLen(leds: nat): nat { leds * 9 + SPI_RES_SIGNAL_LEN }

  function Pow2(n: nat): (r: nat)
    ensures r >= 1
  {
    if n == 0 then 1 else 2 * Pow2(n - 1)
  }

  function Pow8(n: nat): (r: nat)
    ensures r >= 1
  {
    if n == 0 then 1 else 8 * Pow8(n - 1)
  }

  /** Bit `k` of `x`, counting from the least significant. */
  predicate Bit(x: nat, k: nat) {
    if k == 0 then x % 2 == 1 else Bit(x / 2, k - 1)
  }

  /** Symbol `k` (3 bits) of `d`, counting from the least significant. */
  function SymbolAt(d: nat, k: nat): nat {
    if k == 0 then d % 8 else SymbolAt(d / 8, k - 1)
  }

  function Symbol(bit: bool): nat { if bit then SPI_DATA_1 else SPI_DATA_0 }

  // ---------------------------------------------------------------------
  // Symbol encoding of one byte
  // ---------------------------------------------------------------------

  /** Reference encoding of bits 0..n-1 of `b`: bit 0 ends up in the most
      significant of the n symbols. */
  function EncodeBits(b: Byte, n: nat): nat {
    if n == 0 then 0 else EncodeBits(b, n - 1) * 8 + Symbol(Bit(b, n - 1))
  }

  lemma {:induction false} EncodeBitsBound(b: Byte, n: nat)
    ensures EncodeBits(b, n) < Pow8(n)
  {
    if n > 0 {
      EncodeBitsBound(b, n - 1);
    }
  }

  lemma {:induction false} EncodeBitsSymbol(b: Byte, n: nat, k: nat)
    requires k < n
    ensures SymbolAt(EncodeBits(b, n), k) == Symbol(Bit(b, n - 1 - k))
  {
    var e := EncodeBits(b, n - 1);
    var s := Symbol(Bit(b, n - 1));
    assert EncodeBits(b, n) == e * 8 + s;
    assert (e * 8 + s) % 8 == s;
    assert (e * 8 + s) / 8 == e;
    if k > 0 {
      EncodeBitsSymbol(b, n - 1, k - 1);
    }
  }

  /** The 24-bit SPI word sent for one colour byte. */
  function Encoding(b: Byte): (r: nat)
    ensures r < 0x100_0000
  {
    EncodeBitsBound(b, 8);
    EncodeBits(b, 8)
  }

  /** Bits j..j+n-1 of the byte whose bit m is set iff symbol 7-m of `d` is
      the one-symbol. */
  function DecodeFrom(d: nat, j: nat, n: nat): (r: nat)
    requires j + n <= 8
    ensures r < Pow2(n)
    decreases n, d
  {
    if n == 0 then 0
    else (if SymbolAt(d, 7 - j) == SPI_DATA_1 then 1 else 0) + 2 * DecodeFrom(d, j + 1, n - 1)
  }

  /** Recovers the colour byte from a 24-bit SPI word. */
  function DecodeByte(d: nat): Byte {
    assert Pow2(8) == 256;
    DecodeFrom(d, 0, 8)
  }

  lemma {:induction false} DecodeFromBit(d: nat, j: nat, n: nat, i: nat)
    requires j + n <= 8 && i < n
    ensures Bit(DecodeFrom(d, j, n), i) <==> SymbolAt(d, 7 - (j + i)) == SPI_DATA_1
    decreases i
  {
    var t := if SymbolAt(d, 7 - j) == SPI_DATA_1 then 1 else 0;
    var rest := DecodeFrom(d, j + 1, n - 1);
    assert DecodeFrom(d, j, n) == t + 2 * rest;
    assert (t + 2 * rest) % 2 == t;
    assert (t + 2 * rest) / 2 == rest;
    if i > 0 {
      DecodeFromBit(d, j + 1, n - 1, i - 1);
    }
  }

  lemma {:induction false} BitsDetermine(x: nat, y: nat, n: nat)
    requires x < Pow2(n) && y < Pow2(n)
    requires forall i :: 0 <= i < n ==> (Bit(x, i) <==> Bit(y, i))
    ensures x == y
  {
    if n > 0 {
      assert Bit(x, 0) <==> Bit(y, 0);
      forall i | 0 <= i < n - 1
        ensures Bit(x / 2, i) <==> Bit(y / 2, i)
      {
        assert Bit(x, i + 1) <==> Bit(y, i + 1);
      }
      BitsDetermine(x / 2, y / 2, n - 1);
    }
  }

  /** Each bit becomes its own symbol; bit 0 sits in the most significant. */
  lemma EncodingSymbols(b: Byte, k: nat)
    requires k < 8
    ensures SymbolAt(Encoding(b), k) == Symbol(Bit(b, 7 - k))
  {
    EncodeBitsSymbol(b, 8, k);
  }

  /** Decoding the SPI word gives back the colour byte. */
  lemma EncodingRoundTrip(b: Byte)
    ensures DecodeByte(Encoding(b)) == b
  {
    var d := Encoding(b);
    forall i | 0 <= i < 8
      ensures Bit(DecodeByte(d), i) <==> Bit(b, i)
    {
      DecodeFromBit(d, 0, 8, i);
      EncodingSymbols(b, 7 - i);
    }
    assert Pow2(8) == 256;
    BitsDetermine(DecodeByte(d), b, 8);
  }

  /** The firmware loop: shift in one symbol per bit, lowest bit first. */
  method EncodeByte(byte: Byte) returns (data: U32)
    ensures data < 0x100_0000
    ensures forall k :: 0 <= k < 8 ==> SymbolAt(data, k) == Symbol(Bit(byte, 7 - k))
    ensures DecodeByte(data) == byte
    ensures data == Encoding(byte)
  {
    data := 0;
    var i := 7;
    while i >= 0
      invariant -1 <= i <= 7
      invariant data == EncodeBits(byte, 7 - i)
      invariant data < Pow8(7 - i)
    {
      var j := 7 - i;
      ShiftStep(byte, j, data);
      data := (data * 8) % 0x1_0000_0000;
      // the three freshly shifted-in bits are zero, so OR is addition
      if Bit(byte, j) {
        data := data + SPI_DATA_1;
      } else {
        data := data + SPI_DATA_0;
      }
      i := i - 1;
    }
    assert data == Encoding(byte);
    forall k | 0 <= k < 8
      ensures SymbolAt(data, k) == Symbol(Bit(byte, 7 - k))
    {
      EncodingSymbols(byte, k);
    }
    EncodingRoundTrip(byte);
  }

  /** One loop turn: the shift does not wrap, and appending the symbol of bit
      `j` extends the reference encoding by one symbol. */
  lemma ShiftStep(b: Byte, j: nat, data: nat)
    requires j < 8 && data == EncodeBits(b, j) && data < Pow8(j)
    ensures (data * 8) % 0x1_0000_0000 == data * 8
    ensures data * 8 + Symbol(Bit(b, j)) == EncodeBits(b, j + 1)
    ensures data * 8 + Symbol(Bit(b, j)) < Pow8(j + 1) <= 0x100_0000
  {
    assert Pow8(j + 1) == 8 * Pow8(j);
    assert Pow8(8) == 0x100_0000;
    if j < 7 { PowMonotone(j + 1, 8); }
  }

  lemma {:induction false} PowMonotone(m: nat, n: nat)
    requires m <= n
    ensures Pow8(m) <= Pow8(n)
    decreases n - m
  {
    if m < n {
      PowMonotone(m + 1, n);
    }
  }

  // ---------------------------------------------------------------------
  // Three-byte little-endian groups
  // ---------------------------------------------------------------------

  /** The low three bytes of a 32-bit word as the little-endian target
      stores them. */
  function Low3Bytes(x: nat): (r: seq<Byte>)
    requires x < 0x100_0000
    ensures |r| == 3 && Read3(r, 0) == x
  {
    [x % 0x100, (x / 0x100) % 0x100, x / 0x1_0000]
  }

  function Read3(s: seq<Byte>, off: nat): nat
    requires off + 3 <= |s|
  {
    s[off] as int + s[off + 1] as int * 0x100 + s[off + 2] as int * 0x1_0000
  }

  // ---------------------------------------------------------------------
  // Strip state
  // ---------------------------------------------------------------------

  /** The C `int` of the target. */
  type Int32 = x: int | -0x8000_0000 <= x < 0x8000_0000

  datatype Color = Color(r: Byte, g: Byte, b: Byte)

  /** A colour-correction ratio; a zero denominator would divide by zero. */
  type Denominator = x: int | 1 <= x < 0x100 witness 1
  datatype Ratio = Ratio(num: Byte, denum: Denominator)
  datatype Calibration = Calibration(r: Ratio, g: Ratio, b: Ratio)

  const IDENTITY: Calibration := Calibration(Ratio(1, 1), Ratio(1, 1), Ratio(1, 1))

  datatype LedStrip = LedStrip(
    len: U32,
    buffer: seq<Byte>,
    brightness: Byte,
    applyRatio: bool,
    ratioIndex: U16,
    rt1: Calibration,
    rt2: Calibration)

  /** The buffer has the SPI length for the strip, and that length did not
      wrap in the 32-bit size computation. */
  predicate WellFormed(s: LedStrip) {
    |s.buffer| == SpiBufLen(s.len) && SpiBufLen(s.len) < 0x1_0000_0000
  }

  /** The colour diode `p` of a buffer shows, decoded from its 9 bytes. */
  function DecodePixel(buffer: seq<Byte>, p: nat): Color
    requires (p + 1) * 9 <= |buffer|
  {
    var off := p * 9;
    Color(DecodeByte(Read3(buffer, off + 3)), DecodeByte(Read3(buffer, off)), DecodeByte(Read3(buffer, off + 6)))
  }

  /** The 9 bytes of one diode: encoded G, then R, then B. PixelBytesShows
      says they decode back to the colour. */
  function PixelBytes(c: Color): (r: seq<Byte>)
    ensures |r| == 9
  {
    Low3Bytes(Encoding(c.g)) + Low3Bytes(Encoding(c.r)) + Low3Bytes(Encoding(c.b))
  }

  lemma PixelBytesShows(c: Color)
    ensures DecodePixel(PixelBytes(c), 0) == c
  {
    var r := PixelBytes(c);
    assert Read3(r, 0) == Encoding(c.g) && Read3(r, 3) == Encoding(c.r) && Read3(r, 6) == Encoding(c.b);
    EncodingRoundTrip(c.r);
    EncodingRoundTrip(c.g);
    EncodingRoundTrip(c.b);
  }

  /** Channel value after the brightness factor. */
  function Dim(c: Byte, brightness: Byte): (r: Byte)
    ensures r <= c
    ensures brightness == 255 ==> r == c
    ensures brightness == 0 ==> r == 0
  {
    MulLe(0, c, brightness);
    DivMonotone(0, c * brightness, 255);
    MulLe(brightness, 255, c);
    DivAtMost(c * brightness, 255, c);
    DivExact(c, 255);
    (c * brightness) / 255
  }

  lemma DimMonotone(c: Byte, b1: Byte, b2: Byte)
    requires b1 <= b2
    ensures Dim(c, b1) <= Dim(c, b2)
  {
    var x := c * b1;
    var y := c * b2;
    assert y == x + c * (b2 - b1);
    DivMonotone(x, y, 255);
  }

  lemma {:induction false} MulLe(a: nat, b: nat, d: nat)
    requires a <= b
    ensures a * d <= b * d
    decreases b - a
  {
    if a < b {
      MulLe(a, b - 1, d);
      assert b * d == (b - 1) * d + d;
    }
  }

  lemma DivMonotone(x: nat, y: nat, d: nat)
    requires x <= y && d > 0
    ensures x / d <= y / d
  {
    var q := x / d;
    var p := y / d;
    if q > p {
      MulLe(p + 1, q, d);
      assert false;
    }
  }

  lemma DivAtMost(x: nat, d: nat, c: nat)
    requires d > 0 && x <= c * d
    ensures x / d <= c
  {
    var q := x / d;
    if q > c {
      MulLe(c + 1, q, d);
      assert false;
    }
  }

  lemma DivExact(c: nat, d: nat)
    requires d > 0
    ensures (c * d) / d == c
  {
    var q := (c * d) / d;
    DivAtMost(c * d, d, c);
    if q < c {
      MulLe(q + 1, c, d);
      assert false;
    }
  }

  /** Channel value after a ratio, truncated back to a byte. */
  function ApplyRatio(c: Byte, rt: Ratio): (r: Byte)
    ensures rt.num <= rt.denum ==> r <= c
    ensures rt.num == rt.denum ==> r == c
  {
    var v := (c * rt.num) / rt.denum;
    RatioAtMost(c, rt);
    ToByte(v)
  }

  lemma RatioAtMost(c: Byte, rt: Ratio)
    ensures 0 <= (c * rt.num) / rt.denum
    ensures rt.num <= rt.denum ==> (c * rt.num) / rt.denum <= c
    ensures rt.num == rt.denum ==> (c * rt.num) / rt.denum == c
  {
    MulLe(0, c, rt.num);
    DivMonotone(0, c * rt.num, rt.denum);
    if rt.num <= rt.denum {
      MulLe(rt.num, rt.denum, c);
      DivAtMost(c * rt.num, rt.denum, c);
      DivExact(c, rt.denum);
    }
  }

  /** The calibration diode `p` uses, if any: the first one below the ratio
      index, the second one from there on. */
  function RatioFor(s: LedStrip, p: nat): Option<Calibration> {
    if !s.applyRatio then None
    else if p < s.ratioIndex then Some(s.rt1)
    else Some(s.rt2)
  }

  /** The colour actually shown for a requested colour on diode `p`. */
  function Corrected(s: LedStrip, p: nat, c: Color): (r: Color)
    ensures RatioFor(s, p) == None && s.brightness == 255 ==> r == c
    ensures RatioFor(s, p) == None ==> r.r <= c.r && r.g <= c.g && r.b <= c.b
  {
    var d := Color(Dim(c.r, s.brightness), Dim(c.g, s.brightness), Dim(c.b, s.brightness));
    match RatioFor(s, p)
    case None => d
    case Some(k) => Color(ApplyRatio(d.r, k.r), ApplyRatio(d.g, k.g), ApplyRatio(d.b, k.b))
  }

  /** Copies `px` over the bytes of `buffer` from offset `off` on;
      WriteBytesAt says what lands there. */
  function WriteBytes(buffer: seq<Byte>, off: nat, px: seq<Byte>): (r: seq<Byte>)
    requires off + |px| <= |buffer|
    ensures |r| == |buffer|
    decreases |px|
  {
    if px == [] then buffer
    else WriteBytes(buffer[off := px[0]], off + 1, px[1..])
  }

  lemma {:induction false} WriteBytesKeeps(buffer: seq<Byte>, off: nat, px: seq<Byte>, k: nat)
    requires off + |px| <= |buffer| && k < |buffer| && !(off <= k < off + |px|)
    ensures WriteBytes(buffer, off, px)[k] == buffer[k]
    decreases |px|
  {
    if px != [] {
      WriteBytesKeeps(buffer[off := px[0]], off + 1, px[1..], k);
    }
  }

  lemma {:induction false} WriteBytesAt(buffer: seq<Byte>, off: nat, px: seq<Byte>, i: nat)
    requires off + |px| <= |buffer| && i < |px|
    ensures WriteBytes(buffer, off, px)[off + i] == px[i]
    decreases |px|
  {
    if i > 0 {
      WriteBytesAt(buffer[off := px[0]], off + 1, px[1..], i - 1);
    } else {
      WriteBytesKeeps(buffer[off := px[0]], off + 1, px[1..], off);
    }
  }

  /** Overwrites the 9 bytes of diode `p` with the encoding of `c`;
      WritePixelShows says what the diode then shows. */
  function WritePixel(buffer: seq<Byte>, p: nat, c: Color): (r: seq<Byte>)
    requires (p + 1) * 9 <= |buffer|
    ensures |r| == |buffer|
  {
    WriteBytes(buffer, p * 9, PixelBytes(c))
  }

  /** WritePixel changes no byte outside the 9 bytes of the diode. */
  lemma WritePixelKeeps(buffer: seq<Byte>, p: nat, c: Color, k: nat)
    requires (p + 1) * 9 <= |buffer| && k < |buffer| && !(p * 9 <= k < (p + 1) * 9)
    ensures WritePixel(buffer, p, c)[k] == buffer[k]
  {
    WriteBytesKeeps(buffer, p * 9, PixelBytes(c), k);
  }

  lemma WritePixelShows(buffer: seq<Byte>, p: nat, c: Color)
    requires (p + 1) * 9 <= |buffer|
    ensures DecodePixel(WritePixel(buffer, p, c), p) == c
  {
    forall i | 0 <= i < 9
      ensures WritePixel(buffer, p, c)[p * 9 + i] == PixelBytes(c)[i]
    {
      WriteBytesAt(buffer, p * 9, PixelBytes(c), i);
    }
    PixelAt(WritePixel(buffer, p, c), p, PixelBytes(c));
    PixelBytesShows(c);
  }

  /** The diode whose 9 bytes are `px` shows what `px` alone shows. */
  lemma PixelAt(buf: seq<Byte>, p: nat, px: seq<Byte>)
    requires |px| == 9 && (p + 1) * 9 <= |buf|
    requires forall i :: 0 <= i < 9 ==> buf[p * 9 + i] == px[i]
    ensures DecodePixel(buf, p) == DecodePixel(px, 0)
  {
    var off := p * 9;
    assert Read3(buf, off) == Read3(px, 0);
    assert Read3(buf, off + 3) == Read3(px, 3);
    assert Read3(buf, off + 6) == Read3(px, 6);
  }

  /** Sets one diode. The index is compared unsigned, so a negative index is
      out of range too. SetLedColorShows says what the diode shows,
      SetLedColorKeeps which bytes stay. */
  function SetLedColor(s: LedStrip, idx: Int32, c: Color): (r: LedStrip)
    requires WellFormed(s)
    ensures WellFormed(r) && r == s.(buffer := r.buffer)
    ensures !(0 <= idx < s.len) ==> r == s
  {
    UnsignedIndex(idx, s.len);
    if ToU32(idx) >= s.len then s
    else s.(buffer := WritePixel(s.buffer, idx, Corrected(s, idx, c)))
  }

  /** A diode in range shows the colour after calibration and dimming. */
  lemma SetLedColorShows(s: LedStrip, idx: Int32, c: Color)
    requires WellFormed(s) && 0 <= idx < s.len
    ensures DecodePixel(SetLedColor(s, idx, c).buffer, idx) == Corrected(s, idx, c)
  {
    UnsignedIndex(idx, s.len);
    WritePixelShows(s.buffer, idx, Corrected(s, idx, c));
  }

  /** Compared as unsigned, a negative index is at least 2^31, beyond any
      strip whose SPI buffer length fits in 32 bits. */
  lemma UnsignedIndex(idx: Int32, len: nat)
    requires SpiBufLen(len) < 0x1_0000_0000
    ensures ToU32(idx) < len <==> 0 <= idx < len
  {
    if idx < 0 {
      assert ToU32(idx) == idx + 0x1_0000_0000;
    }
  }

  /** SetLedColor changes no byte outside the 9 bytes of the diode. */
  lemma SetLedColorKeeps(s: LedStrip, idx: Int32, c: Color, k: nat)
    requires WellFormed(s) && k < |s.buffer| && !(idx * 9 <= k < (idx + 1) * 9)
    ensures SetLedColor(s, idx, c).buffer[k] == s.buffer[k]
  {
    UnsignedIndex(idx, s.len);
    if 0 <= idx < s.len {
      WritePixelKeeps(s.buffer, idx, Corrected(s, idx, c), k);
    }
  }

  /** Every other diode shows what it showed before. */
  lemma SetLedColorOthers(s: LedStrip, idx: Int32, c: Color, p: nat)
    requires WellFormed(s) && p < s.len && p != idx
    ensures DecodePixel(SetLedColor(s, idx, c).buffer, p) == DecodePixel(s.buffer, p)
  {
    forall k | p * 9 <= k < (p + 1) * 9
      ensures SetLedColor(s, idx, c).buffer[k] == s.buffer[k]
    {
      SetLedColorKeeps(s, idx, c, k);
    }
    SamePixel(SetLedColor(s, idx, c).buffer, s.buffer, p);
  }

  /** Both buffers agree on the 9 bytes of diode `p`. */
  lemma SamePixel(b1: seq<Byte>, b2: seq<Byte>, p: nat)
    requires (p + 1) * 9 <= |b1| && (p + 1) * 9 <= |b2|
    requires forall k :: p * 9 <= k < (p + 1) * 9 ==> b1[k] == b2[k]
    ensures DecodePixel(b1, p) == DecodePixel(b2, p)
  {
    var off := p * 9;
    assert Read3(b1, off) == Read3(b2, off);
    assert Read3(b1, off + 3) == Read3(b2, off + 3);
    assert Read3(b1, off + 6) == Read3(b2, off + 6);
  }

  /** Records a calibration: index 0 sets the first ratio for every diode
      (ratio index 0xFFFF, the uint16 image of -1), any other index sets the
      second ratio from that diode on. */
  function Calibrate(s: LedStrip, k: Calibration, idx: U16): (r: LedStrip)
    ensures r.buffer == s.buffer && r.len == s.len && r.brightness == s.brightness
    ensures forall p: nat {:trigger RatioFor(r, p)} ::
      RatioFor(r, p) ==
        if idx == 0 then (if p < 0xFFFF then Some(k) else Some(s.rt2))
        else if p < idx then Some(s.rt1) else Some(k)
  {
    if idx == 0 then s.(rt1 := k, ratioIndex := 0xFFFF, applyRatio := true)
    else s.(rt2 := k, ratioIndex := idx, applyRatio := true)
  }

  /** Unpacks an int colour: red from bits 0-7, green 8-15, blue 16-23. */
  function Int2Color(color: int): Color {
    Color(color % 0x100, (color / 0x100) % 0x100, (color / 0x1_0000) % 0x100)
  }

  /** The packing the host side uses, r | g << 8 | b << 16. */
  function PackColor(c: Color): (r: nat)
    ensures r < 0x100_0000
  {
    c.r + c.g * 0x100 + c.b * 0x1_0000
  }

  lemma Int2ColorOfPack(c: Color)
    ensures Int2Color(PackColor(c)) == c
  {
    var x := PackColor(c);
    var hi := c.g + c.b * 0x100;
    assert x == c.r + hi * 0x100;
    assert x % 0x100 == c.r && x / 0x100 == hi;
    assert hi % 0x100 == c.g && hi / 0x100 == c.b;
    assert x / 0x1_0000 == c.b;
  }

  lemma PackOfInt2Color(x: int)
    requires 0 <= x < 0x100_0000
    ensures PackColor(Int2Color(x)) == x
  {
  }

  // ---------------------------------------------------------------------
  // Clearing and initialisation
  // ---------------------------------------------------------------------

  /** The two extreme channel values: all zero-symbols and all one-symbols. */
  lemma EncodingExtremes()
    ensures Encoding(0x00) == 0x24_9249
    ensures Encoding(0xFF) == 0x6D_B6DB
  {
    assert Bit(0xFF, 7) && Bit(0xFF, 6) && Bit(0xFF, 5) && Bit(0xFF, 4);
    assert Bit(0xFF, 3) && Bit(0xFF, 2) && Bit(0xFF, 1) && Bit(0xFF, 0);
    assert EncodeBits(0xFF, 4) == 0x6DB;
  }

  /** Encoded black channel, as its three little-endian bytes. */
  const ZERO_GROUP: seq<Byte> := [0x49, 0x92, 0x24]

  lemma ZeroGroupIsEncodedZero()
    ensures Low3Bytes(Encoding(0)) == ZERO_GROUP
  {
    assert Encoding(0) == 0x24_9249;
  }

  /** Writes the encoded black group into every 3-byte group of the first
      `len` bytes. */
  method ClearBuffer(buffer: seq<Byte>, len: nat) returns (r: seq<Byte>)
    requires len <= |buffer| && len % 3 == 0
    ensures |r| == |buffer|
    ensures forall k :: 0 <= k < len ==> r[k] == ZERO_GROUP[k % 3]
    ensures r[len..] == buffer[len..]
  {
    r := buffer;
    var i := 0;
    while i < len
      invariant i <= len && i % 3 == 0
      invariant |r| == |buffer|
      invariant forall k :: 0 <= k < i ==> r[k] == ZERO_GROUP[k % 3]
      invariant r[i..] == buffer[i..]
    {
      r := r[..i] + ZERO_GROUP + r[i + 3..];
      i := i + 3;
    }
  }

  /** A buffer whose diode area holds only encoded-black groups shows black on
      every diode. */
  lemma ClearedPixelsBlack(buffer: seq<Byte>, len: nat, p: nat)
    requires len <= |buffer|
    requires forall k :: 0 <= k < len ==> buffer[k] == ZERO_GROUP[k % 3]
    requires (p + 1) * 9 <= len
    ensures DecodePixel(buffer, p) == Color(0, 0, 0)
  {
    var off := p * 9;
    assert buffer[off..off + 3] == ZERO_GROUP;
    assert buffer[off + 3..off + 6] == ZERO_GROUP;
    assert buffer[off + 6..off + 9] == ZERO_GROUP;
    ZeroGroupIsEncodedZero();
    EncodingRoundTrip(0);
    assert Read3(buffer, off) == Read3(ZERO_GROUP, 0);
    assert Read3(buffer, off + 3) == Read3(ZERO_GROUP, 0);
    assert Read3(buffer, off + 6) == Read3(ZERO_GROUP, 0);
  }

  /** Turns every diode off; settings and the reset tail stay. */
  method ClearLeds(s: LedStrip) returns (r: LedStrip)
    requires WellFormed(s)
    ensures WellFormed(r) && r == s.(buffer := r.buffer)
    ensures forall p :: 0 <= p < s.len ==> DecodePixel(r.buffer, p) == Color(0, 0, 0)
    ensures r.buffer[s.len * 9..] == s.buffer[s.len * 9..]
  {
    var area := s.len * 9;
    var buf := ClearBuffer(s.buffer, area);
    r := s.(buffer := buf);
    forall p | 0 <= p < s.len
      ensures DecodePixel(r.buffer, p) == Color(0, 0, 0)
    {
      ClearedPixelsBlack(buf, area, p);
    }
  }

  /** The calibration fields of a freshly allocated strip, which set-up does
      not initialise: whatever the allocation held. */
  datatype RatioFields = RatioFields(index: U16, rt1: Calibration, rt2: Calibration)

  /** Strip set-up on a freshly allocated buffer and struct of arbitrary
      contents: full brightness, calibration switched off (its ratios and
      index keep what the allocation held), every diode black and a zero
      reset tail. */
  method InitLedStrip(len: U32, raw: seq<Byte>, unset: RatioFields) returns (s: LedStrip)
    requires |raw| == SpiBufLen(len) && SpiBufLen(len) < 0x1_0000_0000
    ensures WellFormed(s) && s.len == len
    ensures s.brightness == 255 && !s.applyRatio
    ensures s.ratioIndex == unset.index && s.rt1 == unset.rt1 && s.rt2 == unset.rt2
    ensures forall p :: 0 <= p < len ==> DecodePixel(s.buffer, p) == Color(0, 0, 0)
    ensures forall k :: len * 9 <= k < |s.buffer| ==> s.buffer[k] == 0
    ensures forall p, c: Color :: 0 <= p < len ==> Corrected(s, p, c) == c
  {
    var area := len * 9;
    var buf := ClearBuffer(raw, area);
    buf := buf[..area] + seq(SPI_RES_SIGNAL_LEN, _ => 0);
    s := LedStrip(len, buf, 255, false, unset.index, unset.rt1, unset.rt2);
    forall p | 0 <= p < len
      ensures DecodePixel(s.buffer, p) == Color(0, 0, 0)
    {
      ClearedPixelsBlack(buf, area, p);
    }
  }
}
